=== FILE: README.md ===
# Worthy sync engine in Dafny

Worthy is a personal-finance web application: it records income and expense
transactions, transaction templates and shopping sessions. It works
local-first. Every mutation is written to the browser's IndexedDB database at
once, and a sync queue replays it to the server later. The queue is drained
by two independent pieces of code: the page and the service worker.

This project models that engine and the pure helpers around it as functional
Dafny, and proves their contracts:

- `base.dfy` (`Base`): keys, the `local_` id prefix, and JavaScript's `slice`,
  `split`, `join`, `toLowerCase` and `[...new Set(xs)]`.
- `json.dfy` (`Json`): JSON values with ordered properties, truthiness,
  spread, and `JSON.stringify`.
- `entities.dfy` (`Entities`): records, sync operations, queue items,
  conflicts and server replies.
- `local_store.dfy` (`LocalStore`): the IndexedDB database as a map of
  collections. Covers the version-1 upgrade, put, get, delete/clear and
  date-based cleanup.
- `sorting.dfy` (`Sorting`): a stable sort by an integer key. It stands for
  JavaScript's `Array.prototype.sort`.
- `client_queue.dfy` (`ClientQueue`): enqueueing, inspecting and resetting
  queue items, and the page's drain pass with create re-binding.
- `service_worker.dfy` (`ServiceWorker`): the worker's version-2 upgrade,
  request routing, drain pass, pending-transaction replay, and id defaulting.
- `conflicts.dfy` (`ConflictResolution`): the three conflict strategies, the
  manual conflict lifecycle, and the bulk `mergeData`.
- `local_mutations.dfy` (`LocalMutations`): the hooks' local create, update
  and delete, each followed by one queued operation. Also the merge of server
  data into the store.
- `transaction_query.dfy` (`TransactionQuery`): the local listing pipeline,
  which filters, sorts newest first, then groups by session or paginates.
- `security.dfy` (`Security`): cache screening, masking, sanitising, the
  32-bit checksum, and the integrity-sealed store.
- `server_transactions.dfy` (`ServerTransactions`): the server's transaction
  rows, balance bookkeeping in integer cents, tags, session links, and the
  paged and grouped listing.
- `shopping_sessions.dfy` (`ShoppingSessions`): keyword extraction, similar
  transactions, the ownership guard, link de-duplication, session edits and
  per-currency totals.
- `query_params.dfy` (`QueryParams`): the transactions page's URL
  parameters, including the `[tag1,tag2]` list.

The remote API, the clock and random ids are parameters. A reply is
`Unreachable` (the fetch rejects) or `Response(ok, payload)`. A drain pass
receives a function from queue item to reply, because each item is attempted
at most once per pass. Timestamps are integer milliseconds, and money is
integer cents.

Where the code and its documentation disagree, the model follows the code:

- The page's drain never retries `failed` items.
- The server database is SQLite through libsql. A negative `OFFSET` therefore
  counts as 0, and a negative `LIMIT` means no limit.
- Deleting a transaction cascades to its tags and session links through the
  schema's `ON DELETE CASCADE`.
- Neither drain pass stops at a network failure. Both the page's loop and
  the worker's loop record the failure and go on to the next item
  (`DrainClientQueue`, `DrainWorkerQueue`).
- The similar-transactions search matches with SQL `LIKE`, not with a
  substring test, so `%` and `_` in a keyword act as wildcards.

## Model

| member | source | states |
|---|---|---|
| Base.JsSlice | src/hooks/useLocalTransactions.ts:313-316 | `xs.slice(start, end)` with non-negative bounds is the stretch between the two bounds, each clamped to the length; a negative end counts back from the length |
| Base.Dedup | src/server/api/routers/transactions.ts:189 | `[...new Set(xs)]` holds exactly the elements of `xs`, with no repeats, and is no longer than `xs` |
| Base.DedupFirstOrder | src/server/api/routers/transactions.ts:189 | the distinct elements come in the order of their first occurrence in the input |
| Base.Split | src/app/transactions/page.tsx:27 | `s.split(c)` gives at least one piece, and no piece contains the separator |
| Base.JoinSplit | src/app/transactions/page.tsx:27 | joining the pieces of `s.split(c)` with `c` gives back `s` |
| Base.SplitJoin | src/server/api/routers/transactions.ts:205 | splitting a join of separator-free pieces recovers exactly those pieces |
| Base.NatToStringInjective | src/lib/conflictResolution.ts:195 | distinct numeric ids render as distinct strings, so the id-string comparison in `mergeData` separates different numbers |
| Json.WithoutAfterWith | src/lib/securityUtils.ts:157-163 | adding a property and then deleting it restores an object that lacked the property |
| Json.Stringify | src/lib/securityUtils.ts:116 | `JSON.stringify` of a value, keys in the model's order; it has no contract of its own, and `Security.HashIsPoly` and `Security.SealVerifies` state what the checksum built on it does |
| LocalStore.InitUpgrade | src/lib/indexedDB.ts:20-49 | the upgrade leaves exactly the old stores plus the five version-1 stores |
| LocalStore.InitUpgradeIdempotent | src/lib/indexedDB.ts:26-48 | each store is created only if absent, so a second upgrade changes nothing |
| LocalStore.InitUpgradeOmitsSyncStores | src/lib/indexedDB.ts:11-49 | the page's upgrade never creates `syncQueue`, `conflicts` or `shoppingSessions` |
| LocalStore.InitDB | src/lib/indexedDB.ts:9-51 | the page's open at version 1; its outcomes are stated by `LocalStore.Open` and `LocalStore.InitUpgrade` |
| LocalStore.Open | src/lib/indexedDB.ts:11-22 | opening at a lower version than stored fails, and the upgrade runs only when the stored version is older |
| LocalStore.Save | src/lib/indexedDB.ts:97-109 | a put files the record under its id, leaves every other key and collection alone, and keeps the store keyed by id |
| LocalStore.SaveSameIdReplaces | src/lib/indexedDB.ts:97-109 | a later save with the same id replaces the earlier one |
| LocalStore.SaveAll | src/lib/indexedDB.ts:65-95 | saving a list leaves each key holding the last item with that id, and keys no item uses unchanged |
| LocalStore.PutAll | src/lib/indexedDB.ts:65-95 | the batch answer is true exactly when every put succeeds; every key holds the last successful put for it, or its old value |
| LocalStore.Remove | src/lib/indexedDB.ts:153-171 | a delete with a key removes just that key; without a key the collection is cleared |
| LocalStore.GetAll | src/lib/indexedDB.ts:126-144 | `getAll` yields each stored key exactly once, with its value |
| LocalStore.Get | src/lib/indexedDB.ts:126-144 | a keyed read; `LocalStore.Save` states what it returns after a put |
| LocalStore.AsList | src/hooks/useLocalTemplates.ts:34-46 | a missing result or an error reads as an empty list, and a single record as a one-element list |
| LocalStore.DeleteWhere | src/lib/indexedDB.ts:225-265 | exactly the selected entries disappear, the rest keep their values, and the count is the number removed |
| LocalStore.CleanupOldData | src/lib/indexedDB.ts:207-271 | exactly the records whose date field is earlier than the cutoff are deleted; the answer counts them and is 0 when none qualify |
| Entities.MergeRecords | src/lib/conflictResolution.ts:49-53 | the merge has every property of the local copy, plus the server's value for each property the local copy lacks |
| Entities.Stamp | src/hooks/useLocalTransactions.ts:144-150 | re-stamping sets one date property and keeps every other property and the id |
| Entities.PageNewId | src/lib/syncQueue.ts:183-196 | the page re-binds to the whole body when it is a truthy number or string, does nothing for a falsy body, and for any other truthy body tries a key that is not one |
| Entities.WorkerNewId | public/sw.js:392-406 | the worker re-binds only to a truthy `id` property of an object body, and never tries a bad key |
| Entities.ReadingsOfEnvelope | src/server/api/routers/transactions.ts:501 | the create procedure returns `true`, so its envelope is a bad key for the page and re-binds nothing in the worker |
| Sorting.SortBy | src/lib/syncQueue.ts:74-77 | the sorted sequence is a permutation of the input, ordered by the key |
| Sorting.SortByStable | src/hooks/useLocalTransactions.ts:271-273 | items with equal keys keep their relative order |
| ClientQueue.Enqueue | src/lib/syncQueue.ts:33-42 | a new item is pending with 0 attempts and carries the operation unchanged; no other item changes |
| ClientQueue.GetSyncQueueItems | src/lib/syncQueue.ts:466-486 | with a status, exactly the items of that status; without one, every item |
| ClientQueue.GetSyncQueueCount | src/lib/syncQueue.ts:451-459 | the count is the number of stored items, and 0 unless an array was read |
| ClientQueue.CountIsSumOfStatuses | src/lib/syncQueue.ts:451-486 | the count equals the sum of the per-status item counts |
| ClientQueue.StatusesPartition | src/lib/syncQueue.ts:466-486 | every item has exactly one of the four statuses |
| ClientQueue.ResetItemStatus | src/lib/syncQueue.ts:493-512 | an item becomes pending with 0 attempts and keeps its id, operation and creation time; an unknown id gives false and no write |
| ClientQueue.StoreOf | src/lib/syncQueue.ts:137-149 | each known entity type has its own collection, and an unknown type has none |
| ClientQueue.Rebind | src/lib/syncQueue.ts:185-201 | the local-id record moves to the server id with a fresh `updatedAt` and nothing else changes; without a local record nothing is written |
| ClientQueue.ClientDeliver | src/lib/syncQueue.ts:132-201 | delivery throws whatever the store holds for an unknown type or action, an unreachable server, or an unreadable create reply; a local create answered with a truthy key re-binds; one answered with any other truthy body deletes a stored record and then throws |
| ClientQueue.ClientOutcomesPartition | src/lib/syncQueue.ts:132-201 | every delivery resolves, throws, or depends on whether the local record is stored, and exactly one of these |
| ClientQueue.MarkProcessing | src/lib/syncQueue.ts:85-94 | before delivery the item is `processing` with one more attempt; its id, operation and creation time are unchanged |
| ClientQueue.FailedStatus | src/lib/syncQueue.ts:113-116 | a failure escalates to manual resolution exactly when the recorded attempts reach 5 |
| ClientQueue.ClientAttempt | src/lib/syncQueue.ts:83-120 | a delivered item leaves the queue; a failed one is stored with its pre-pass attempts and the failed or manual status; a delivered local create moves its record to the new key with a fresh `updatedAt`, and any other delivery or refusal leaves the records alone; no key outside the create's two keys changes; other items are untouched |
| ClientQueue.DrainClientQueue | src/lib/syncQueue.ts:80-121 | over a pass, non-pending items are untouched and every pending item is removed or failed; later items are processed after an earlier failure |
| ClientQueue.DrainClientOutcome | src/lib/syncQueue.ts:80-121 | every pending item the server accepts leaves the queue, every pending item it refuses stays with its failure status recorded, and a local create answered with a non-key body does one or the other |
| ClientQueue.DrainClientData | src/lib/syncQueue.ts:80-121 | a pass changes a record only at a key that one of its answered local creates touches: the local id or the key read from the body |
| ClientQueue.DrainClientOnSnapshot | src/lib/syncQueue.ts:59-121 | the pass stated per stored item: a pending item whose outcome does not hang on the store disappears exactly when delivered, and every pending item still queued records its failure |
| ClientQueue.SortedSnapshot | src/lib/syncQueue.ts:59-77 | sorting what `getAll` returned visits every queued item exactly once |
| ClientQueue.ProcessSyncQueue | src/lib/syncQueue.ts:54-125 | offline nothing happens; online, the items are visited in creation order and only pending items are acted on; records change only at keys touched by answered local creates |
| ClientQueue.ClientNeverEscalatesBelowThreshold | src/lib/syncQueue.ts:101-120 | a pending item with fewer than 5 attempts that fails stays `failed` with the same count, so the page alone never escalates it |
| ClientQueue.ClientSkipsFailed | src/lib/syncQueue.ts:81 | the page's pass leaves `failed` items exactly as they were |
| ClientQueue.PageLosesRecord | src/lib/syncQueue.ts:183-199 | against the create envelope a stored local record is deleted, nothing replaces it, and the item is stored failed, so the page never resends it |
| ServiceWorker.WorkerUpgrade | public/sw.js:221-243 | the version-2 upgrade adds `pendingTransactions` and `syncQueue` when upgrading from below their version |
| ServiceWorker.WorkerUpgradeIdempotent | public/sw.js:228-241 | stores are created only if absent, so re-running the upgrade changes nothing |
| ServiceWorker.WorkerOpenTwice | public/sw.js:214-245 | opening again after a successful open leaves the schema as it is |
| ServiceWorker.WorkerOpenFresh | public/sw.js:214-245 | a fresh database opened by the worker holds exactly the two worker stores at version 2 |
| ServiceWorker.WorkerOpen | public/sw.js:214-245 | the worker's open at version 2; `WorkerOpenTwice`, `WorkerOpenFresh` and `ClientThenWorker` state its outcomes |
| ServiceWorker.ClientOpenAfterWorkerFails | src/lib/indexedDB.ts:11 | once the worker has opened version 2, the page's version-1 open fails |
| ServiceWorker.ClientThenWorker | public/sw.js:214-245 | after the page creates version 1, the worker adds only `syncQueue`, and never creates `conflicts` or `shoppingSessions` |
| ServiceWorker.WorkerRequest | public/sw.js:335-388 | the URL is the type prefix plus the action name; a delete sends just the id; an unknown type or action throws |
| ServiceWorker.WorkerRequestRoutes | public/sw.js:343-375 | different operation kinds never share a URL |
| ServiceWorker.WorkerDeliver | public/sw.js:376-412 | a non-2xx response fails; a local create answered with an object holding a truthy `id` re-binds without changing other fields; every other delivery leaves the records alone |
| ServiceWorker.WorkerKeepsLocalId | public/sw.js:390-406 | against the create envelope the worker's create succeeds, the item leaves the queue, and the record keeps its local id |
| ServiceWorker.WorkerRebindKeepsFields | public/sw.js:391-426 | the re-bound record is the local record with only its id replaced |
| ServiceWorker.FailedRetry | public/sw.js:316-323 | a failure stores the incremented attempts, and escalates exactly when they reach 5 |
| ServiceWorker.WorkerAttempt | public/sw.js:298-325 | a delivered item is deleted; a failed one is stored as `FailedRetry` and no record changes; a delivered local create moves its record to the body's `id`, and any other delivery leaves the records alone; no other item changes |
| ServiceWorker.DrainWorkerQueue | public/sw.js:294-325 | over a pass, pending and failed items are attempted, and every other item is untouched |
| ServiceWorker.DrainWorkerOutcome | public/sw.js:294-325 | every pending or failed item that is delivered leaves the queue, and every one that is not stays as a failed retry |
| ServiceWorker.DrainWorkerData | public/sw.js:294-325 | a pass changes a record only at a key that one of its 2xx-answered local creates touches: the local id or the body's `id` |
| ServiceWorker.SyncData | public/sw.js:280-332 | items are visited in creation order; pending and failed items are retried; processing and manual items are kept; records change only at keys touched by answered local creates |
| ServiceWorker.WorkerEscalates | public/sw.js:298-323 | repeated worker failures raise the attempts by one each pass and reach manual resolution at 5 |
| ServiceWorker.StaysManual | public/sw.js:299 | an item awaiting manual resolution is left as it is by any number of further passes; the last step of `WorkerEscalates` |
| ServiceWorker.FirstUnreachable | public/sw.js:141-162 | the replay stops at the first transaction whose fetch rejects |
| ServiceWorker.SyncTransactions | public/sw.js:126-170 | exactly the acknowledged transactions before the first rejected fetch are deleted; the others stay |
| ServiceWorker.AddPendingTransaction | public/sw.js:248-277 | a transaction without a truthy id is filed under the current time; one with an invalid key is refused |
| ServiceWorker.GeneratedIdIsNotLocal | public/sw.js:258 | a generated id never looks like an offline `local_` id |
| ConflictResolution.ResolveConflict | src/lib/conflictResolution.ts:28-76 | the timestamp, merge and manual strategies, including each one's writes: the manual strategy files the conflict and writes the server copy, and no strategy touches another key, another collection or the queue |
| ConflictResolution.TimestampPicksNewer | src/lib/conflictResolution.ts:35-45 | the newer version wins; on a tie the server's version wins; local wins only when strictly newer, and then nothing is written |
| ConflictResolution.GetUnresolvedConflicts | src/lib/conflictResolution.ts:82-98 | the result is exactly the conflicts not yet resolved |
| ConflictResolution.ResolveConflictManually | src/lib/conflictResolution.ts:107-141 | an unknown id gives false and no write; otherwise the chosen version is saved and the conflict is marked resolved, other fields unchanged; every other record, collection and conflict is left alone |
| ConflictResolution.CleanupResolvedConflicts | src/lib/conflictResolution.ts:148-173 | exactly the resolved conflicts are deleted, their number is returned, and the unresolved ones are kept |
| ConflictResolution.ConflictLifecycle | src/lib/conflictResolution.ts:56-137 | a conflict filed by the manual strategy is unresolved until `resolveConflictManually` saves the chosen version and resolves it |
| ConflictResolution.LocalMatch | src/lib/conflictResolution.ts:191-202 | the id-string lookup finds a local item with that id string, or reports that none exists |
| ConflictResolution.LocalMatchIsLast | src/lib/conflictResolution.ts:191 | when several local items share an id string, the map keeps the last of them |
| ConflictResolution.MergeData | src/lib/conflictResolution.ts:184-234 | the result is every server item followed by exactly the local items whose id starts with `local_` |
| ConflictResolution.MergeDataTimestamp | src/lib/conflictResolution.ts:195-225 | after a timestamp merge, every winning server item is stored, and every other key is unchanged |
| ConflictResolution.UpdatePassTimestamp | src/lib/conflictResolution.ts:195-225 | the timestamp pass queues every server item that beats its local copy, and queues nothing that could overwrite a winner or change a losing key |
| ConflictResolution.MergeTieKeepsLocal | src/lib/conflictResolution.ts:206-220 | a server item with the same timestamp as its local copy is not written |
| ConflictResolution.MergeKeepsUnmatchedLocal | src/lib/conflictResolution.ts:184-234 | a local item that no server item matches is neither overwritten nor deleted |
| LocalMutations.NewRecord | src/hooks/useLocalTransactions.ts:104-113 | a new record gets a `local_` id, both timestamps set to now, and the caller's other fields |
| LocalMutations.CreateLocal | src/hooks/useLocalTransactions.ts:103-127 | create stores the new record and enqueues exactly one pending `create` with the same id and data |
| LocalMutations.UpdateLocal | src/hooks/useLocalTransactions.ts:141-160 | update re-stamps `updatedAt`, overwrites the record, and enqueues one `update` under the original id |
| LocalMutations.DeleteLocal | src/hooks/useLocalTransactions.ts:174-194 | delete throws and enqueues nothing for an absent id; otherwise it removes the record and enqueues `delete` with `{id}` |
| LocalMutations.CreateThenDelete | src/hooks/useLocalTemplates.ts:83-172 | deleting a freshly created record restores the collection and leaves a `create` and a `delete` for the same id in the queue |
| LocalMutations.EntityFor | src/hooks/useLocalShoppingSessions.ts:98-103 | each hook queues operations of the type that the drains map back to the hook's own collection |
| LocalMutations.ServerItems | src/hooks/useLocalTemplates.ts:63-69 | templates and sessions from the server get `createdAt` replaced with now; transactions pass through unchanged |
| LocalMutations.ServerMerge | src/hooks/useLocalShoppingSessions.ts:54-69 | the hook reads every local record and merges the server list with the timestamp strategy |
| TransactionQuery.Matching | src/hooks/useLocalTransactions.ts:238-269 | the reference filter keeps exactly the transactions that pass every active filter |
| TransactionQuery.ApplyFiltersIsMatching | src/hooks/useLocalTransactions.ts:238-269 | the staged filters, applied in the code's order, equal the reference filter |
| TransactionQuery.ApplyFilters | src/hooks/useLocalTransactions.ts:238-269 | the staged filters as the hook applies them; `ApplyFiltersIsMatching` states that they equal the reference filter |
| TransactionQuery.GroupIndex | src/hooks/useLocalTransactions.ts:285 | the group lookup finds the group with that session id, or reports that none exists |
| TransactionQuery.FirstOfSession | src/hooks/useLocalTransactions.ts:281-296 | the first transaction of a session is located, or the session is absent |
| TransactionQuery.GroupBySession | src/hooks/useLocalTransactions.ts:276-310 | the `reduce` into session groups; `GroupBySessionFaithful` states its result |
| TransactionQuery.GroupBySessionFaithful | src/hooks/useLocalTransactions.ts:276-310 | every transaction lands in exactly its session's group or in the ungrouped list; groups appear in first-appearance order |
| TransactionQuery.PageContents | src/hooks/useLocalTransactions.ts:313-316 | a page holds at most `perPage` consecutive transactions starting at the page offset |
| TransactionQuery.ConsecutivePages | src/hooks/useLocalTransactions.ts:313-316 | consecutive pages tile the list with no gap or overlap |
| TransactionQuery.FilterTransactions | src/hooks/useLocalTransactions.ts:229-317 | the listing is grouped exactly when requested; everything listed matches the filters, and pages are newest first |
| TransactionQuery.FilterTransactionsPage | src/hooks/useLocalTransactions.ts:271-316 | an ungrouped listing is the page slice of the matching transactions sorted newest first |
| TransactionQuery.FilterTransactionsGroups | src/hooks/useLocalTransactions.ts:271-310 | a grouped listing groups the sorted matching transactions faithfully, without pagination |
| TransactionQuery.SortKeepsTies | src/hooks/useLocalTransactions.ts:271-273 | transactions created at the same moment keep their stored order |
| Security.IsSensitiveData | src/lib/securityUtils.ts:10-24 | a truthy object with a key containing a sensitive word; `DigitsNotSensitive` and `ArraysNeverSensitive` state which values never qualify |
| Security.DigitsNotSensitive | src/lib/securityUtils.ts:10-24 | numeric keys never count as sensitive |
| Security.ArraysNeverSensitive | src/lib/securityUtils.ts:10-24 | an array is never sensitive, because its keys are indexes |
| Security.SecureCacheData | src/lib/securityUtils.ts:32-43 | the answer is null exactly for sensitive data, and the data unchanged otherwise |
| Security.Mask | src/lib/securityUtils.ts:50-51 | a falsy value or a non-object is returned unchanged |
| Security.MaskHides | src/lib/securityUtils.ts:50-65 | after masking, no sensitive key holds anything but the star string at any depth; an object keeps its keys in order; a harmless key keeps a plain value and has an object value masked in turn |
| Security.MaskIdempotent | src/lib/securityUtils.ts:50-65 | masking masked data changes nothing |
| Security.MaskedStillRefused | src/lib/securityUtils.ts:32-65 | masking keeps the sensitive keys, so masked sensitive data is still refused by the cache |
| Security.ReplaceAll | src/lib/securityUtils.ts:77-85 | after replacing a character by a text without it, the character is gone, and nothing new appears |
| Security.SanitizeString | src/lib/securityUtils.ts:76-86 | a sanitised string contains none of the six special characters |
| Security.SanitizeStringFixes | src/lib/securityUtils.ts:76-86 | a string without special characters is left unchanged |
| Security.SanitizeStringIdempotent | src/lib/securityUtils.ts:76-86 | sanitising twice equals sanitising once, because `&` is not escaped |
| Security.SanitizeData | src/lib/securityUtils.ts:72-105 | the recursive sanitiser; `SanitizeDataCleans` and `SanitizeDataIdempotent` state its result |
| Security.SanitizeDataCleans | src/lib/securityUtils.ts:72-105 | for every value, arrays are cleaned element by element and objects key by key, keeping length and keys; no string inside keeps a special character |
| Security.SanitizeDataIdempotent | src/lib/securityUtils.ts:72-105 | sanitising data twice equals sanitising once |
| Security.ToInt32 | src/lib/securityUtils.ts:121 | `h & h` gives the signed 32-bit value congruent to `h` modulo 2^32 |
| Security.HashStepIsTimes31 | src/lib/securityUtils.ts:120-121 | `(h << 5) - h + c`, truncated, is `31*h + c` modulo 2^32 |
| Security.HashIsPoly | src/lib/securityUtils.ts:114-124 | the checksum is the polynomial string hash reduced to a signed 32-bit integer |
| Security.HexValueOfNatToHex | src/lib/securityUtils.ts:124 | the hexadecimal rendering reads back as the same number |
| Security.IntToHexInjective | src/lib/securityUtils.ts:124 | different checksums render differently, so comparing renderings compares checksums |
| Security.Hash | src/lib/securityUtils.ts:114-122 | the checksum loop always ends with a signed 32-bit value |
| Security.CreateDataHash | src/lib/securityUtils.ts:112-124 | the browser checksum rendered in hexadecimal; `HashIsPoly` and `IntToHexInjective` state what it computes |
| Security.Seal | src/lib/securityUtils.ts:152-168 | the stored object carries `_integrity` holding the checksum of the data as given |
| Security.SealVerifies | src/lib/securityUtils.ts:157-186 | what `saveWithIntegrityCheck` stores passes `verifyDataIntegrity` when the data had no `_integrity` |
| Security.VerifyDataIntegrity | src/lib/securityUtils.ts:175-186 | an object with `_integrity` equal to the checksum of its other properties; `SealVerifies` and `SealThenGet` state its round trip |
| Security.StripSeal | src/lib/securityUtils.ts:152-259 | removing `_integrity` from a sealed object gives back the original data |
| Security.Strip | src/lib/securityUtils.ts:253-257 | a stripped object has no `_integrity` |
| Security.SaveWithIntegrityCheck | src/lib/securityUtils.ts:152-168 | the sealed object is stored under its id and the answer is true; an object without a valid key is refused and nothing is stored |
| Security.RemoveAll | src/lib/securityUtils.ts:214-227 | exactly the invalid items' ids are deleted; an item with an id that cannot be a key makes the deletion throw |
| Security.StripValid | src/lib/securityUtils.ts:230-238 | the answer holds exactly the valid items, each without `_integrity` |
| Security.CheckList | src/lib/securityUtils.ts:206-238 | valid items are returned stripped and invalid ids are deleted; the answer is null exactly when an invalid item makes the checks throw |
| Security.GetWithIntegrityCheck | src/lib/securityUtils.ts:194-264 | a missing record gives null; a tampered record gives null and is deleted; a valid one comes back stripped; a list goes through the list check |
| Security.CheckSingle | src/lib/securityUtils.ts:242-259 | a tampered single record gives no data and is deleted only under a truthy key; an intact one comes back stripped and nothing is deleted |
| Security.Invalid | src/lib/securityUtils.ts:215 | the invalid list holds exactly the items that fail verification |
| Security.NoInvalid | src/lib/securityUtils.ts:208-211 | when nothing is invalid, every item verifies |
| Security.InvalidIds | src/lib/securityUtils.ts:214-227 | deleting the invalid list's ids deletes exactly the ids of the items that fail verification |
| Security.SealThenGet | src/lib/securityUtils.ts:152-259 | data saved with a checksum reads back unchanged |
| ServerTransactions.Adjust | src/server/api/routers/transactions.ts:424-434 | the balance update changes only the user's row, and only if it exists |
| ServerTransactions.TotalAppend | src/server/api/routers/transactions.ts:424-434 | the signed total of a user's rows adds up across concatenation |
| ServerTransactions.FindTxn | src/server/api/routers/transactions.ts:293-299 | the lookup finds the first row with the id, or reports that there is none |
| ServerTransactions.FindOwned | src/server/api/routers/transactions.ts:62-76 | the lookup finds a row with the id owned by the user, or reports that there is none |
| ServerTransactions.WithoutTags | src/server/api/routers/transactions.ts:374-377 | deleting a transaction's tags leaves every other transaction's tags alone |
| ServerTransactions.TagRows | src/server/api/routers/transactions.ts:379-389 | the inserted tag rows carry exactly the given texts, in order, for that transaction only |
| ServerTransactions.WithoutLinksTo | src/server/db/tables/session_transaction.ts:8 | deleting a transaction removes exactly its session links |
| ServerTransactions.Create | src/server/api/routers/transactions.ts:398-504 | a foreign session id is refused; otherwise the row is appended, the balance moves by the signed amount, the tags are attached, and the link or new session is added |
| ServerTransactions.Delete | src/server/api/routers/transactions.ts:59-95 | a missing or foreign transaction gives false and no change; otherwise exactly the owned row goes with the rest in order, the owner's balance gives back its signed amount, its tags and links go, and other transactions' tags and links, sessions and ids stay |
| ServerTransactions.DeleteRemovesRow | src/server/api/routers/transactions.ts:90-92 | after a delete, no row with that id remains |
| ServerTransactions.UpdateDeltaIsSwap | src/server/api/routers/transactions.ts:312-361 | both the same-type and the type-change branches move the balance by the new signed amount minus the old |
| ServerTransactions.Update | src/server/api/routers/transactions.ts:272-396 | update of a missing or foreign transaction throws; otherwise the row takes the input's fields under the same id and owner, the balance moves by the new signed amount minus the old, the tags are exactly the input list, and other rows' tags, links and sessions are kept |
| ServerTransactions.CreateKeepsDrift | src/server/api/routers/transactions.ts:424-434 | create keeps each balance equal to its starting value plus the signed sum of the user's rows |
| ServerTransactions.DeleteKeepsDrift | src/server/api/routers/transactions.ts:78-92 | delete keeps that balance invariant |
| ServerTransactions.UpdateKeepsDrift | src/server/api/routers/transactions.ts:312-370 | update keeps that balance invariant |
| ServerTransactions.CreateWellFormed | src/server/db/tables/transaction.ts:6 | create keeps transaction ids unique and below the next id |
| ServerTransactions.DeleteWellFormed | src/server/db/tables/transaction.ts:6 | delete keeps transaction ids unique |
| ServerTransactions.UpdateWellFormed | src/server/db/tables/transaction.ts:6 | update keeps transaction ids unique |
| ServerTransactions.SqlitePage | src/server/api/routers/transactions.ts:172-175 | `OFFSET`/`LIMIT` with non-negative values picks the stretch of rows between the two clamped bounds |
| ServerTransactions.ListPage | src/server/api/routers/transactions.ts:172-175 | page `page` at `perPage` rows; `PagesTile` and `PageZeroIsFirstPage` state its paging |
| ServerTransactions.PagesTile | src/server/api/routers/transactions.ts:172-175 | consecutive pages tile the rows with no gap or overlap |
| ServerTransactions.PageZeroIsFirstPage | src/server/api/routers/transactions.ts:172-175 | page 0 has a negative offset, so it returns the same rows as page 1 |
| ServerTransactions.Clean | src/server/api/routers/transactions.ts:204-226 | a listed row has a session exactly when its session id is truthy |
| ServerTransactions.TagsRoundTrip | src/server/api/routers/transactions.ts:205 | splitting the concatenated tags recovers the tag texts |
| ServerTransactions.SessionIds | src/server/api/routers/transactions.ts:184-186 | the session ids are exactly those of the rows that have one |
| ServerTransactions.InitialGroups | src/server/api/routers/transactions.ts:188-199 | one empty group per distinct session id, named after the first row of that session |
| ServerTransactions.FindGroup | src/server/api/routers/transactions.ts:231 | the lookup finds the group with the id, or reports that there is none |
| ServerTransactions.CleanAll | src/server/api/routers/transactions.ts:204-243 | every row is shaped the same way, in order |
| ServerTransactions.ReduceGroups | src/server/api/routers/transactions.ts:204-243 | with groups prepared for every session, each row lands in its group or in the ungrouped list, and nothing stays flat |
| ServerTransactions.GetListGrouped | src/server/api/routers/transactions.ts:182-250 | a grouped listing has one group per distinct session id, holding exactly that session's rows in order; the rest are ungrouped |
| ServerTransactions.ReduceFlat | src/server/api/routers/transactions.ts:242 | without grouping every row is listed, in order |
| ServerTransactions.GetListFlat | src/server/api/routers/transactions.ts:246-253 | an ungrouped listing is every shaped row, in order |
| ServerTransactions.GetList | src/server/api/routers/transactions.ts:96-253 | the listing after the query; `GetListGrouped` and `GetListFlat` state both of its shapes |
| ServerTransactions.SessionZeroGroupEmpty | src/server/api/routers/transactions.ts:185-237 | a row with session id 0 gets an empty group of its own but is listed as ungrouped |
| ServerTransactions.UnsessionedHolds | src/server/api/routers/transactions.ts:236-238 | a row without a session is in the ungrouped list |
| ServerTransactions.GroupOrder | src/server/api/routers/transactions.ts:189-192 | groups follow the first appearance of their session ids |
| ShoppingSessions.SkipSpaces | src/server/api/routers/shopping-sessions.ts:503 | a whitespace run is skipped up to the first non-space character |
| ShoppingSessions.SplitSpaces | src/server/api/routers/shopping-sessions.ts:503 | `split(/\s+/)` gives at least one piece, and no piece contains white space |
| ShoppingSessions.SplitSpacesKeepsText | src/server/api/routers/shopping-sessions.ts:503 | the pieces put together are the input without its white space |
| ShoppingSessions.SplitSpacesPiecesOccur | src/server/api/routers/shopping-sessions.ts:503 | every piece occurs in the input |
| ShoppingSessions.LongWords | src/server/api/routers/shopping-sessions.ts:504 | exactly the words longer than 3 characters are kept, in order, as `filter` keeps them |
| ShoppingSessions.ExtractKeywords | src/server/api/routers/shopping-sessions.ts:499-506 | the keywords are the first three words longer than 3 characters of the lower-cased description, in order, or all of them when there are fewer |
| ShoppingSessions.KeywordsAreLowerWords | src/server/api/routers/shopping-sessions.ts:499-506 | every keyword is longer than 3 characters, with no white space and no upper case |
| ShoppingSessions.KeywordsOccur | src/server/api/routers/shopping-sessions.ts:499-506 | every keyword occurs in the lower-cased description |
| ShoppingSessions.KeywordsOfShortWords | src/server/api/routers/shopping-sessions.ts:499-506 | there are no keywords exactly when every word is at most 3 characters |
| ShoppingSessions.Like | src/server/api/routers/shopping-sessions.ts:457 | SQLite's `LIKE`: `%` matches any run, `_` one character, letters ignore ASCII case; `LikeIsContains` states what it means for a keyword pattern |
| ShoppingSessions.LikeIsContains | src/server/api/routers/shopping-sessions.ts:456-458 | for a keyword without `%` or `_`, `LIKE '%kw%'` holds exactly when the lower-cased text contains the keyword |
| ShoppingSessions.ContainsLike | src/server/api/routers/shopping-sessions.ts:456-458 | a text containing the keyword always matches its pattern, wildcards or not |
| ShoppingSessions.TrailingPercent | src/server/api/routers/shopping-sessions.ts:456-458 | a keyword ending in `%` matches every text containing the keyword without it |
| ShoppingSessions.WildcardKeyword | src/server/api/routers/shopping-sessions.ts:456-458 | the keyword `100%` matches `100 apples`, which does not contain it |
| ShoppingSessions.KeywordsMatchOwn | src/server/api/routers/shopping-sessions.ts:445-458 | a description matches the pattern of each of its own keywords |
| ShoppingSessions.SimilarRows | src/server/api/routers/shopping-sessions.ts:461-476 | the query returns each row meeting the `WHERE` clause exactly as often as it is stored, and no other row, newest first |
| ShoppingSessions.FindSimilar | src/server/api/routers/shopping-sessions.ts:436-495 | nothing without keywords; otherwise exactly the caller's recent transactions whose description is `LIKE` one of the keyword patterns, newest first, each matching row exactly as often as it is stored |
| ShoppingSessions.ElementsCard | src/server/api/routers/shopping-sessions.ts:26-28 | a list has as many distinct elements as its length exactly when it has no repeats |
| ShoppingSessions.AllOwnedMeans | src/server/api/routers/shopping-sessions.ts:17-28 | the count guard passes exactly when the ids are distinct and all owned by the caller |
| ShoppingSessions.LinksFor | src/server/api/routers/shopping-sessions.ts:47-55 | one link per requested id, in order |
| ShoppingSessions.Unlinked | src/server/api/routers/shopping-sessions.ts:369-385 | exactly the requested ids not yet linked to the session remain |
| ShoppingSessions.AddLinks | src/server/api/routers/shopping-sessions.ts:369-393 | afterwards the links are the old ones plus one per requested id, and no link is duplicated |
| ShoppingSessions.UnlinkedOfLinked | src/server/api/routers/shopping-sessions.ts:380-385 | when every id is already linked, nothing new is inserted |
| ShoppingSessions.RemoveLinks | src/server/api/routers/shopping-sessions.ts:423-429 | exactly the session's links to the given ids are deleted |
| ShoppingSessions.CreateSession | src/server/api/routers/shopping-sessions.ts:12-61 | creation is refused unless every id is owned; otherwise a new session is added under the next session id and each id is linked to it, and nothing else changes: transactions, tags, balances and the transaction counter stay |
| ShoppingSessions.AddToSession | src/server/api/routers/shopping-sessions.ts:330-396 | an empty list succeeds with no change; a foreign session or transaction is refused; otherwise only missing links are added |
| ShoppingSessions.AddToSessionLinks | src/server/api/routers/shopping-sessions.ts:369-393 | after adding, every id is linked, old links stay, and nothing else is added |
| ShoppingSessions.AddToSessionIdempotent | src/server/api/routers/shopping-sessions.ts:369-393 | adding the same ids again changes nothing |
| ShoppingSessions.RemoveFromSession | src/server/api/routers/shopping-sessions.ts:399-433 | an empty list is a no-op; a foreign session is refused; otherwise only that session's links to the ids go, and every other table and counter stays as it was |
| ShoppingSessions.RemoveThenAdd | src/server/api/routers/shopping-sessions.ts:330-433 | removing linked ids and adding them back restores the links |
| ShoppingSessions.UpdateSession | src/server/api/routers/shopping-sessions.ts:64-147 | the name changes only when one is given; links are added, then removed; a foreign session or transaction is refused; only sessions and links change |
| ShoppingSessions.Rename | src/server/api/routers/shopping-sessions.ts:85-90 | only the session with that id is renamed |
| ShoppingSessions.DeleteSession | src/server/api/routers/shopping-sessions.ts:150-173 | the session and all its links go; a foreign session is refused; the cascade stops at the links, so the transactions, their tags and the balances survive |
| ShoppingSessions.Totals | src/server/api/routers/shopping-sessions.ts:220-230 | the per-currency `reduce`; `TotalsAreSums` states its result |
| ShoppingSessions.TotalsAreSums | src/server/api/routers/shopping-sessions.ts:220-230 | there is one total per currency present, each the sum of +amount for income and −amount for expense |
| QueryParams.ScanRestSplit | src/app/transactions/page.tsx:7 | the pattern's tail accepts exactly the comma-separated word lists whose first word may be empty |
| QueryParams.ScanListSplit | src/app/transactions/page.tsx:7 | the pattern accepts exactly the non-empty comma-separated lists of non-empty words |
| QueryParams.ParseTags | src/app/transactions/page.tsx:27 | parsed tags are non-empty and contain no comma |
| QueryParams.ParseNoTags | src/app/transactions/page.tsx:23-27 | an absent or empty parameter means no tags |
| QueryParams.AcceptedTagsRoundTrip | src/app/transactions/page.tsx:7-27 | an accepted value parses to a non-empty list of words, and `'[' + tags.join(',') + ']'` reproduces it |
| QueryParams.RenderedTagsAccepted | src/app/transactions/page.tsx:7-27 | every non-empty list of words renders to an accepted value that parses back to the same list |
| QueryParams.ReadParams | src/app/transactions/page.tsx:13-27 | page defaults to 1, description to empty; a NaN or sub-1 page or a malformed tag list sends the browser back; a well-formed tag list is parsed to words that render back to it whatever the page number |

## Left out

- HTTP and tRPC transport: a reply is a parameter (`Unreachable` or `Response(ok, payload)`). A response body is reduced to `Payload`: unparsable, falsy, a bare number or string, or another truthy value with an optional `id` key. An `id` property holding something other than a key is not modelled.
- IndexedDB engine mechanics: callbacks, transaction events and closing are not modelled. Every read and write succeeds, except where the source itself distinguishes an error: `PutAll`, and an invalid key in `Security`.
- Storage errors are not modelled: `Db` holds every collection, so a write to a store the schema lacks succeeds in the model. In the program as written, writes to `syncQueue`, `conflicts` and `shoppingSessions` always fail (see Observations).
- Cache API handlers in public/sw.js (install, activate, fetch, offline page) are platform I/O.
- Concurrency: overlapping drains and the fire-and-forget drain after `addToSyncQueue` are left out. Each pass is sequential.
- Clocks and random ids are parameters (`now`, `nonce`, `queueId`). ISO date strings are integer milliseconds, and a missing date counts as 0.
- Floating-point money: amounts are integer cents, so `Math.floor(amount*100)` and `/100` are not modelled.
- `JSON.stringify` renders dates as their millisecond count, not as ISO strings. Number formatting follows integers only.
- Json.Stringify: keys are serialised in the model's order. JavaScript puts integer-like keys first, in ascending order, so the checksum of an object such as `{"b":1,"2":0}` differs from the browser's. Sealing and verifying use the same order, so their round trip is unaffected.
- String semantics: strings are sequences of Dafny chars. `toLowerCase` folds ASCII letters only, and no UTF-16 surrogate handling is modelled.
- `Number(...)` on the `page` parameter: the model receives the converted number (`JsNumber`), not the string.
- QueryParams.ReadParams: `JsNumber` has no `Infinity`. `Number("Infinity")` passes the page check at src/app/transactions/page.tsx:17, and the listing then returns an empty page; the model cannot express that input.
- Entities.DateValue: a string that is not a date counts as 0. In JavaScript it gives `NaN`, and every comparison with `NaN` is false. So for a local copy with a malformed `updatedAt`, `serverTime > localTime` fails and the source keeps the local copy, where the model saves the server copy.
- ClientQueue.DrainClientOnSnapshot: for a local create answered with a non-key body, whether the item leaves the queue depends on whether its record was still stored when it was attempted. The pass-level contracts say only that it leaves or is stored failed; `ClientAttempt` states the exact outcome.
- The SHA-256 server branch of `createDataHash`, the templates router, and the getSessionsList/getSessionDetails queries are outside the core.
- SQL filtering in `getList` (LIKE/GROUP_CONCAT tag matching, date and session conditions) is not modelled. `GetList` starts from the rows the query returns.
- LocalStore.PutAll: each put succeeds or fails on its own. A failed put aborts the IndexedDB transaction and rolls back the earlier puts; that rollback belongs to the storage engine and is not modelled.
- ClientQueue.ClientAttempt: the `processing` write made before delivery is overwritten later in the same attempt. Only the final state is modelled, and `MarkProcessing` states the intermediate item.
- ServiceWorker.WorkerAttempt: the worker writes `failed` before escalating to `manual_resolution_required`. Only the final write is modelled.
- Date and array IndexedDB keys are treated as invalid keys (`JsonKey`), so such ids take the error path.
- ConflictResolution.MergeDataTimestamp: proved under `DistinctRenderedIds`, i.e. server ids render to distinct strings. Without it, two server items can collide in the id-string map.
- TransactionQuery.FilterTransactionsPage: JavaScript's sort is modelled as a stable sort, which the engine guarantees but the code does not rely on.
- ServerTransactions.ListPage: SQLite's order among equal `createdAt` values is unspecified; the model fixes the given row order.
- ServerTransactions.Delete: deletes the first owned row with the id; ids are primary keys, so there is only one.
- ServerTransactions.Create: `createdAt` is always given. The input schema leaves it optional; when omitted, create uses the column default and update leaves the column as it was.
- ServerTransactions.Update: `createdAt` is always given, so the row always takes the input's value. The source leaves it optional, and an omitted value keeps the column as it was.
- ShoppingSessions.Rename: a session name is `Option<string>`. An explicit `null` name and an absent name are not distinguished beyond what `updateSession` checks.

## Observations

- The page's drain stores the pre-pass attempt count on failure and retries only `pending` items. It therefore never escalates an item by itself (`ClientNeverEscalatesBelowThreshold`). Only the service worker's drain moves an item to manual resolution (`WorkerEscalates`).
- The page opens the database at version 1 and the service worker at version 2. Once the worker has opened it, the page's open fails (`ClientOpenAfterWorkerFails`).
- The page's schema never creates `syncQueue`, `conflicts` or `shoppingSessions` (`InitUpgradeOmitsSyncStores`). Only the worker creates `syncQueue`, and after that the page cannot open the database (`ClientThenWorker`, `ClientOpenAfterWorkerFails`). So every page-side `addToSyncQueue` (src/lib/syncQueue.ts:42), every conflict filed by the manual strategy (src/lib/conflictResolution.ts:66) and every local session save (src/hooks/useLocalShoppingSessions.ts:95) rejects in the program as written. The model assumes the stores exist and states what the code intends.
- The page re-binds a created record to the whole response body, the worker to the body's `id` (`PageNewId`, `WorkerNewId`). The create procedure returns `true`, which tRPC wraps in an object (`ReadingsOfEnvelope`). So, even with the missing stores above in place, the worker never re-binds, and the page deletes the local record, fails to save it under the object, and marks the item failed (`PageLosesRecord`). The worker then resends the create and succeeds (`WorkerKeepsLocalId`): the server gets the row twice and the device keeps no copy.
- A keyword taken from a description containing `%` or `_` acts as a wildcard in the similar-transactions search (`WildcardKeyword`).
- `mergeData` keeps the local copy on equal timestamps (`MergeTieKeepsLocal`). `resolveConflict` alone gives ties to the server (`TimestampPicksNewer`).
- In the server's grouped listing, a row with session id 0 creates an empty group but is listed as ungrouped (`SessionZeroGroupEmpty`).
- Page 0 lists the same rows as page 1 (`PageZeroIsFirstPage`).

=== FILE: base.dfy ===
/** Shared vocabulary of the model: optional values, the keys the local store
    files records under, and the sequence and string helpers the engine uses
    (filtering, case folding, substring search, decimal rendering). */
module Base {

  datatype Option<T> = None | Some(value: T)

  /** A key of the local store. Records created offline carry a string key
      tagged with the local prefix; records acknowledged by the server carry a
      numeric key. Queue items and conflicts are filed under string keys. */
  datatype Key = KStr(s: string) | KNum(n: int)

  /** A key is truthy unless it is 0 or the empty string. */
  predicate KeyTruthy(k: Key) {
    k != KNum(0) && k != KStr("")
  }

  /** The tag that marks an id as created on the device and not yet
      acknowledged by the server. */
  const LocalPrefix: string := "local_"

  predicate StartsWith(s: string, p: string) {
    |p| <= |s| && s[..|p|] == p
  }

  /** `typeof id === 'string' && id.startsWith('local_')` */
  predicate IsLocalKey(k: Key) {
    k.KStr? && StartsWith(k.s, LocalPrefix)
  }

  /** The fresh local id `local_<time>_<random>`; the time and random parts are
      the caller-supplied nonce. */
  function LocalKey(nonce: string): (k: Key)
    ensures IsLocalKey(k)
    ensures k.s[|LocalPrefix|..] == nonce
  {
    KStr(LocalPrefix + nonce)
  }

  // ---------------------------------------------------------------------
  // Sequences

  /** `Array.prototype.filter`: keeps the elements satisfying `p`, in order. */
  function Filter<T>(s: seq<T>, p: T -> bool): (r: seq<T>)
    ensures |r| <= |s|
    ensures forall i :: 0 <= i < |r| ==> p(r[i]) && r[i] in s
    ensures forall i :: 0 <= i < |s| && p(s[i]) ==> s[i] in r
  {
    if s == [] then []
    else
      assert s == [s[0]] + s[1..];
      if p(s[0]) then [s[0]] + Filter(s[1..], p)
      else Filter(s[1..], p)
  }

  /** Every element satisfies exactly one of `p` and its negation, so the two
      filters split the sequence. */
  lemma {:induction false} FilterSplits<T>(s: seq<T>, p: T -> bool)
    ensures |Filter(s, p)| + |Filter(s, x => !p(x))| == |s|
    ensures multiset(Filter(s, p)) + multiset(Filter(s, x => !p(x))) == multiset(s)
  {
    if s != [] {
      FilterSplits(s[1..], p);
      assert s == [s[0]] + s[1..];
    }
  }

  /** Filtering keeps each element satisfying `p` as often as it occurs, and
      no other element. */
  lemma {:induction false} FilterCount<T>(s: seq<T>, p: T -> bool)
    ensures forall x :: multiset(Filter(s, p))[x] == if p(x) then multiset(s)[x] else 0
  {
    if s != [] {
      FilterCount(s[1..], p);
      assert s == [s[0]] + s[1..];
    }
  }

  lemma {:induction false} FilterAppend<T>(a: seq<T>, b: seq<T>, p: T -> bool)
    ensures Filter(a + b, p) == Filter(a, p) + Filter(b, p)
  {
    if a == [] {
      assert a + b == b;
    } else {
      assert (a + b)[1..] == a[1..] + b;
      FilterAppend(a[1..], b, p);
    }
  }

  /** Filtering keeps everything exactly when every element passes. */
  lemma {:induction false} FilterAll<T>(s: seq<T>, p: T -> bool)
    requires forall i :: 0 <= i < |s| ==> p(s[i])
    ensures Filter(s, p) == s
  {
    if s != [] {
      FilterAll(s[1..], p);
    }
  }

  /** `Array.prototype.slice(start, end)` and `String.prototype.slice`:
      negative positions count from the end, and both are clamped to the
      sequence. */
  function JsSlice<T>(xs: seq<T>, start: int, end: int): (r: seq<T>)
    ensures 0 <= start <= end ==>
              r == xs[if start <= |xs| then start else |xs|..if end <= |xs| then end else |xs|]
    ensures 0 <= start && end < 0 ==>
              r == if start < |xs| + end then xs[start..|xs| + end] else []
  {
    var from := if start < 0 then (if |xs| + start < 0 then 0 else |xs| + start)
                else if start <= |xs| then start else |xs|;
    var to := if end < 0 then (if |xs| + end < 0 then 0 else |xs| + end)
              else if end <= |xs| then end else |xs|;
    if to <= from then [] else xs[from..to]
  }

  predicate Distinct<T(==)>(xs: seq<T>) {
    forall i, j :: 0 <= i < j < |xs| ==> xs[i] != xs[j]
  }

  /** Position of the first occurrence of `x`. */
  function IndexOf<T(==)>(xs: seq<T>, x: T): (i: nat)
    requires x in xs
    ensures i < |xs| && xs[i] == x
    ensures forall j :: 0 <= j < i ==> xs[j] != x
  {
    if xs[0] == x then 0 else 1 + IndexOf(xs[1..], x)
  }

  /** `[...new Set(xs)]`: each distinct element once, at the place of its
      first occurrence. */
  function Dedup<T(==,!new)>(xs: seq<T>): (r: seq<T>)
    ensures forall x :: x in r <==> x in xs
    ensures Distinct(r)
    ensures |r| <= |xs|
  {
    if xs == [] then []
    else
      var d := Dedup(xs[..|xs| - 1]);
      if xs[|xs| - 1] in d then d else d + [xs[|xs| - 1]]
  }

  lemma {:induction false} IndexOfPrefix<T>(xs: seq<T>, n: nat, x: T)
    requires n <= |xs| && x in xs[..n]
    ensures IndexOf(xs, x) == IndexOf(xs[..n], x)
  {
    var i := IndexOf(xs[..n], x);
    assert xs[i] == x;
    var k := IndexOf(xs, x);
    assert k <= i;
    assert xs[..n][k] == x;
  }

  /** The elements of `Dedup` come in the order of their first occurrence. */
  lemma {:induction false} DedupFirstOrder<T(!new)>(xs: seq<T>)
    ensures forall i, j :: 0 <= i < j < |Dedup(xs)| ==>
              IndexOf(xs, Dedup(xs)[i]) < IndexOf(xs, Dedup(xs)[j])
  {
    if xs != [] {
      var init := xs[..|xs| - 1];
      var last := xs[|xs| - 1];
      var d := Dedup(init);
      DedupFirstOrder(init);
      assert init == xs[..|xs| - 1];
      forall x | x in d ensures IndexOf(xs, x) == IndexOf(init, x) && IndexOf(xs, x) < |init| {
        IndexOfPrefix(xs, |xs| - 1, x);
      }
      if last !in d {
        assert IndexOf(xs, last) == |init|;
        var r := d + [last];
        assert Dedup(xs) == r;
        assert forall k :: 0 <= k < |r| ==> r[k] in xs;
        forall i, j | 0 <= i < j < |r| ensures IndexOf(xs, r[i]) < IndexOf(xs, r[j]) {
          assert r[i] in d;
          if j < |d| {
            assert r[j] in d;
          }
        }
      }
    }
  }

  /** `s.split(c)` for a one-character separator: the pieces between
      separators, with an empty piece where two separators meet or at either
      end. */
  function Split(s: string, c: char): (r: seq<string>)
    ensures |r| >= 1
    ensures forall i :: 0 <= i < |r| ==> c !in r[i]
  {
    if s == [] then [[]]
    else
      var rest := Split(s[1..], c);
      if s[0] == c then [[]] + rest else [[s[0]] + rest[0]] + rest[1..]
  }

  /** Joining the pieces with the separator gives back the string. */
  lemma {:induction false} JoinSplit(s: string, c: char)
    ensures Join(Split(s, c), [c]) == s
  {
    if s != [] {
      var rest := Split(s[1..], c);
      JoinSplit(s[1..], c);
      if s[0] == c {
        assert Split(s, c) == [[]] + rest;
        assert ([[]] + rest)[1..] == rest;
      } else if |rest| > 1 {
        assert Split(s, c) == [[s[0]] + rest[0]] + rest[1..];
        assert Join(rest, [c]) == rest[0] + [c] + Join(rest[1..], [c]);
        assert (([[s[0]] + rest[0]] + rest[1..]))[1..] == rest[1..];
      }
    }
  }

  /** Splitting the joined pieces gives back the pieces, when no piece
      contains the separator. */
  lemma {:induction false} SplitJoin(parts: seq<string>, c: char)
    requires |parts| >= 1
    requires forall i :: 0 <= i < |parts| ==> c !in parts[i]
    ensures Split(Join(parts, [c]), c) == parts
    decreases |parts|, |parts[0]|
  {
    var p := parts[0];
    if |parts| == 1 {
      SplitPiece(p, c);
    } else {
      var tail := parts[1..];
      SplitJoin(tail, c);
      SplitJoinCons(p, tail, c);
    }
  }

  /** A string without the separator is a single piece. */
  lemma {:induction false} SplitPiece(p: string, c: char)
    requires c !in p
    ensures Split(p, c) == [p]
  {
    if p != [] {
      SplitPiece(p[1..], c);
      assert [p[0]] + p[1..] == p;
    }
  }

  lemma {:induction false} SplitJoinCons(p: string, tail: seq<string>, c: char)
    requires c !in p && |tail| >= 1
    requires Split(Join(tail, [c]), c) == tail
    ensures Split(p + [c] + Join(tail, [c]), c) == [p] + tail
    decreases |p|
  {
    var s := p + [c] + Join(tail, [c]);
    if p == [] {
      assert s == [c] + Join(tail, [c]);
      assert s[1..] == Join(tail, [c]);
    } else {
      assert s[1..] == p[1..] + [c] + Join(tail, [c]);
      SplitJoinCons(p[1..], tail, c);
      assert [p[0]] + p[1..] == p;
    }
  }

  function Join(parts: seq<string>, sep: string): (r: string)
    ensures parts == [] ==> r == []
    ensures |parts| == 1 ==> r == parts[0]
  {
    if parts == [] then []
    else if |parts| == 1 then parts[0]
    else parts[0] + sep + Join(parts[1..], sep)
  }

  // ---------------------------------------------------------------------
  // Strings

  /** ASCII part of `String.prototype.toLowerCase`. */
  function LowerChar(c: char): (r: char)
    ensures !('A' <= r <= 'Z')
    ensures 'A' <= c <= 'Z' || r == c
  {
    if 'A' <= c <= 'Z' then (c as int + 32) as char else c
  }

  function Lower(s: string): (r: string)
    ensures |r| == |s|
    ensures forall i :: 0 <= i < |s| ==> r[i] == LowerChar(s[i])
  {
    seq(|s|, i requires 0 <= i < |s| => LowerChar(s[i]))
  }

  /** `s.includes(sub)`: `sub` occurs in `s` at some position. */
  predicate Contains(s: string, sub: string) {
    exists i | 0 <= i <= |s| - |sub| :: OccursAt(s, sub, i)
  }

  predicate OccursAt(s: string, sub: string, i: int) {
    0 <= i <= |s| - |sub| && s[i..i + |sub|] == sub
  }

  function DigitChar(d: nat): (c: char)
    requires d < 10
    ensures '0' <= c <= '9'
    ensures c as int - '0' as int == d
  {
    (d + '0' as int) as char
  }

  predicate IsDigit(c: char) {
    '0' <= c <= '9'
  }

  /** Decimal rendering of a natural number (`String(n)`). */
  function NatToString(n: nat): (s: string)
    ensures |s| > 0
    ensures forall i :: 0 <= i < |s| ==> IsDigit(s[i])
    ensures s[0] != '0' || n == 0
  {
    if n < 10 then [DigitChar(n)] else NatToString(n / 10) + [DigitChar(n % 10)]
  }

  /** Decimal rendering of an integer, with a leading minus sign when negative. */
  function IntToString(i: int): (s: string)
    ensures |s| > 0
    ensures i < 0 <==> s[0] == '-'
  {
    if i < 0 then "-" + NatToString(-i) else NatToString(i)
  }

  /** Value of a string of decimal digits, the inverse of `NatToString`. */
  function DigitsValue(s: string): nat
    requires forall i :: 0 <= i < |s| ==> IsDigit(s[i])
  {
    if s == [] then 0
    else
      assert IsDigit(s[|s| - 1]);
      DigitsValue(s[..|s| - 1]) * 10 + (s[|s| - 1] as int - '0' as int)
  }

  lemma {:induction false} DigitsValueOfNatToString(n: nat)
    ensures DigitsValue(NatToString(n)) == n
  {
    if n >= 10 {
      var s := NatToString(n);
      assert s[..|s| - 1] == NatToString(n / 10);
      DigitsValueOfNatToString(n / 10);
    }
  }

  /** Rendering is injective, so distinct numbers never share a string form. */
  lemma {:induction false} NatToStringInjective(a: nat, b: nat)
    requires NatToString(a) == NatToString(b)
    ensures a == b
  {
    DigitsValueOfNatToString(a);
    DigitsValueOfNatToString(b);
  }

  /** `String(id)` as used when ids are compared or embedded in other ids. */
  function KeyToString(k: Key): string {
    match k
    case KStr(s) => s
    case KNum(n) => IntToString(n)
  }
}

=== FILE: client_queue.dfy ===
/** The client's outbound sync queue: enqueueing a mutation, one drain pass
    over the queue, re-binding a record created offline to the id the server
    assigned, and the queue inspection helpers. A drain pass is a fold over a
    snapshot of the queue sorted by enqueue time; the remote API is an oracle
    `net` that answers each attempted item. */
module ClientQueue {
  import opened Base
  import opened Json
  import opened Entities
  import opened LocalStore
  import opened Sorting

  /** The queue store's key path: every item is filed under its own id. */
  predicate QueueWellKeyed(q: map<string, QueueItem>) {
    forall id :: id in q ==> q[id].id == id
  }

  /** The remote API's answer to one attempt, and the clock reading taken
      while handling it. */
  datatype Exchange = Exchange(reply: Reply, now: int)

  // ---------------------------------------------------------------------
  // Enqueueing and inspection

  /** `addToSyncQueue(op)`: files a fresh item under the new id `id`. */
  function Enqueue(db: Db, op: SyncOperation, id: string, now: int): (db': Db)
    ensures id in db'.queue
    ensures db'.queue[id].id == id && db'.queue[id].operation == op
    ensures db'.queue[id].status == Pending && db'.queue[id].attempts == 0
    ensures db'.queue[id].createdAt == now
    ensures forall other :: other != id ==>
              (other in db'.queue <==> other in db.queue) &&
              (other in db.queue ==> db'.queue[other] == db.queue[other])
    ensures db'.data == db.data && db'.conflicts == db.conflicts
    ensures QueueWellKeyed(db.queue) ==> QueueWellKeyed(db'.queue)
  {
    db.(queue := db.queue[id := QueueItem(id, op, now, 0, Pending)])
  }

  /** The items of `items` with status `s`, in order. */
  function WithStatus(items: seq<QueueItem>, s: Status): (r: seq<QueueItem>)
    ensures |r| <= |items|
    ensures forall i :: 0 <= i < |r| ==> r[i].status == s && r[i] in items
    ensures forall i :: 0 <= i < |items| && items[i].status == s ==> items[i] in r
  {
    if items == [] then []
    else if items[0].status == s then [items[0]] + WithStatus(items[1..], s)
    else WithStatus(items[1..], s)
  }

  /** `getSyncQueueItems(status?)`: every item, or only those with the given
      status. */
  function GetSyncQueueItems(f: Fetched<QueueItem>, status: Option<Status>): (r: seq<QueueItem>)
    ensures status.None? ==> r == AsList(f)
    ensures status.Some? ==> forall i :: 0 <= i < |r| ==> r[i].status == status.value && r[i] in AsList(f)
    ensures status.Some? ==> forall i :: 0 <= i < |AsList(f)| && AsList(f)[i].status == status.value ==> AsList(f)[i] in r
  {
    match status
    case None => AsList(f)
    case Some(s) => WithStatus(AsList(f), s)
  }

  /** `getSyncQueueCount()`: the length of the stored array, or 0 when the
      store did not answer with an array. */
  function GetSyncQueueCount(f: Fetched<QueueItem>): (n: nat)
    ensures f.Listed? ==> n == |f.vs|
    ensures !f.Listed? ==> n == 0
  {
    match f
    case Listed(vs) => |vs|
    case _ => 0
  }

  /** Every item has exactly one of the four statuses. */
  lemma {:induction false} StatusesPartition(items: seq<QueueItem>)
    ensures |WithStatus(items, Pending)| + |WithStatus(items, Processing)| +
            |WithStatus(items, Failed)| + |WithStatus(items, ManualResolutionRequired)| == |items|
  {
    if items != [] {
      StatusesPartition(items[1..]);
    }
  }

  /** The count is the sum of the per-status listings. */
  lemma {:induction false} CountIsSumOfStatuses(items: seq<QueueItem>)
    ensures GetSyncQueueCount(Listed(items)) ==
            |GetSyncQueueItems(Listed(items), Some(Pending))| +
            |GetSyncQueueItems(Listed(items), Some(Processing))| +
            |GetSyncQueueItems(Listed(items), Some(Failed))| +
            |GetSyncQueueItems(Listed(items), Some(ManualResolutionRequired))|
  {
    StatusesPartition(items);
  }

  /** `resetSyncQueueItemStatus(id)`: an unknown id answers false and writes
      nothing; a known item goes back to pending with no attempts. */
  function ResetItemStatus(db: Db, id: string): (r: (Db, bool))
    requires QueueWellKeyed(db.queue)
    ensures r.1 <==> id in db.queue
    ensures !r.1 ==> r.0 == db
    ensures r.1 ==> id in r.0.queue && r.0.queue[id].status == Pending && r.0.queue[id].attempts == 0
    ensures r.1 ==> (r.0.queue[id].id == id && r.0.queue[id].operation == db.queue[id].operation &&
                     r.0.queue[id].createdAt == db.queue[id].createdAt)
    ensures forall other :: other != id ==>
              (other in r.0.queue <==> other in db.queue) &&
              (other in db.queue ==> r.0.queue[other] == db.queue[other])
    ensures r.0.data == db.data && r.0.conflicts == db.conflicts
    ensures QueueWellKeyed(r.0.queue)
  {
    if id !in db.queue then (db, false)
    else
      var item := db.queue[id];
      (db.(queue := db.queue[item.id := item.(attempts := 0, status := Pending)]), true)
  }

  // ---------------------------------------------------------------------
  // Delivery

  /** The collection holding records of an entity type; none for an unknown
      type, which makes delivery throw. */
  function StoreOf(e: EntityType): (r: Option<StoreName>)
    ensures r.None? <==> e.UnknownEntity?
    ensures r.Some? ==> r.value in {Transactions, Templates, ShoppingSessions}
  {
    match e
    case TransactionEntity => Some(Transactions)
    case TemplateEntity => Some(Templates)
    case ShoppingSessionEntity => Some(ShoppingSessions)
    case UnknownEntity(_) => None
  }

  function Restamp(r: Record, stamp: Option<int>): Record {
    match stamp
    case None => r
    case Some(t) => Stamp(r, UpdatedAtField, t)
  }

  /** After the server acknowledged a create: the record filed under the
      local id `localId` is deleted and re-saved under the server id `serverId`,
      optionally with a new `updatedAt`. Without such a record nothing is
      written. */
  function Rebind(db: Db, store: StoreName, localId: Key, serverId: Key, stamp: Option<int>): (db': Db)
    ensures Get(db, store, localId).None? ==> db' == db
    ensures Get(db, store, localId).Some? ==>
              Get(db', store, serverId) == Some(Restamp(Get(db, store, localId).value.(id := serverId), stamp))
    ensures Get(db, store, localId).Some? && serverId != localId ==> Get(db', store, localId) == None
    ensures forall k :: k != localId && k != serverId ==> Get(db', store, k) == Get(db, store, k)
    ensures forall n :: n != store ==> Table(db', n) == Table(db, n)
    ensures db'.queue == db.queue && db'.conflicts == db.conflicts
    ensures WellKeyed(Table(db, store)) ==> WellKeyed(Table(db', store))
  {
    match Get(db, store, localId)
    case None => db
    case Some(local) =>
      Save(Remove(db, store, Some(localId)), store, Restamp(local.(id := serverId), stamp))
  }

  /** A create of a local id: the only operation whose response body is read. */
  predicate LocalCreate(op: SyncOperation) {
    op.action == Create && IsLocalKey(op.id)
  }

  /** Whether the page's `syncItemWithServer` resolves whatever the store
      holds: the type and action are known, the server was reached, and for a
      create of a local id the body could be read and is not a bad key. The
      response status is never consulted. */
  predicate ClientDelivers(op: SyncOperation, reply: Reply) {
    !op.entity.UnknownEntity? && !op.action.UnknownAction? && !reply.Unreachable? &&
    !(LocalCreate(op) && (reply.payload.Unparsable? || reply.payload.NonKey?))
  }

  /** Whether it throws whatever the store holds: an unknown type or action,
      an unreachable server, or a local create whose body is not JSON. */
  predicate ClientRefuses(op: SyncOperation, reply: Reply) {
    op.entity.UnknownEntity? || op.action.UnknownAction? || reply.Unreachable? ||
    (LocalCreate(op) && reply.payload.Unparsable?)
  }

  /** A local create answered with a truthy body that is not a key: the page
      deletes the local record, if there is one, and then cannot save it under
      the body, so the call throws after the deletion. */
  predicate ClientBadKey(op: SyncOperation, reply: Reply) {
    !op.entity.UnknownEntity? && !op.action.UnknownAction? && reply.Response? &&
    LocalCreate(op) && reply.payload.NonKey?
  }

  /** Whether the call resolves on the store `db`. */
  predicate ClientResolves(db: Db, op: SyncOperation, reply: Reply) {
    ClientDelivers(op, reply) ||
    (ClientBadKey(op, reply) && Get(db, StoreOf(op.entity).value, op.id).None?)
  }

  /** The keys of the local store that a delivery may write: a local create
      answered by the server touches its local id and the key the page reads
      out of the body. */
  predicate ClientTouches(op: SyncOperation, reply: Reply, k: Key) {
    LocalCreate(op) && reply.Response? && (k == op.id || reply.payload == Scalar(k))
  }

  /** The page's `syncItemWithServer`: the store after the writes it made, and
      whether it resolved. */
  function ClientDeliver(db: Db, op: SyncOperation, reply: Reply, now: int): (r: (Db, bool))
    ensures r.1 <==> ClientResolves(db, op, reply)
    ensures ClientRefuses(op, reply) ==> r == (db, false)
    ensures (reply.Response? && !reply.ok && !LocalCreate(op) &&
             !op.entity.UnknownEntity? && !op.action.UnknownAction?) ==> r == (db, true)
    ensures ClientDelivers(op, reply) && LocalCreate(op) && PageNewId(reply.payload).MoveTo? ==>
              r.0 == Rebind(db, StoreOf(op.entity).value, op.id, PageNewId(reply.payload).key, Some(now))
    ensures ClientDelivers(op, reply) && !(LocalCreate(op) && PageNewId(reply.payload).MoveTo?) ==>
              r.0 == db
    ensures ClientBadKey(op, reply) && Get(db, StoreOf(op.entity).value, op.id).Some? ==>
              r.0 == Remove(db, StoreOf(op.entity).value, Some(op.id))
    ensures ClientBadKey(op, reply) && Get(db, StoreOf(op.entity).value, op.id).None? ==> r.0 == db
  {
    match StoreOf(op.entity)
    case None => (db, false)
    case Some(store) =>
      if op.action.UnknownAction? || reply.Unreachable? then (db, false)
      else if LocalCreate(op) then
        if reply.payload.Unparsable? then (db, false)
        else
          match PageNewId(reply.payload)
          case Keep => (db, true)
          case MoveTo(k) => (Rebind(db, store, op.id, k, Some(now)), true)
          case BadKey =>
            if Get(db, store, op.id).Some? then (Remove(db, store, Some(op.id)), false) else (db, true)
      else (db, true)
  }

  /** Every call falls in exactly one case: it resolves, it throws, or its
      outcome depends on whether the local record is still stored. */
  lemma {:induction false} ClientOutcomesPartition(op: SyncOperation, reply: Reply)
    ensures ClientDelivers(op, reply) || ClientRefuses(op, reply) || ClientBadKey(op, reply)
    ensures !(ClientDelivers(op, reply) && ClientRefuses(op, reply))
    ensures !(ClientDelivers(op, reply) && ClientBadKey(op, reply))
    ensures !(ClientRefuses(op, reply) && ClientBadKey(op, reply))
  {
  }

  // ---------------------------------------------------------------------
  // One drain pass

  /** The item as persisted before delivery: processing, one more attempt. */
  function MarkProcessing(item: QueueItem): (m: QueueItem)
    ensures m.status == Processing && m.attempts == item.attempts + 1
    ensures m.id == item.id && m.operation == item.operation && m.createdAt == item.createdAt
  {
    item.(attempts := item.attempts + 1, status := Processing)
  }

  /** Status after a failed delivery, given the stored attempt count. */
  function FailedStatus(attempts: nat): (s: Status)
    ensures s == ManualResolutionRequired <==> attempts >= MaxAttempts
    ensures s == Failed <==> attempts < MaxAttempts
  {
    if attempts >= MaxAttempts then ManualResolutionRequired else Failed
  }

  /** One iteration of `processSyncQueue` on a pending item: persist it as
      processing, deliver it, then drop it on success, or on failure store the
      snapshot's attempt count with a failed (or, from 5, manual) status. */
  function ClientAttempt(db: Db, item: QueueItem, ex: Exchange): (db': Db)
    ensures ClientResolves(db, item.operation, ex.reply) ==> item.id !in db'.queue
    ensures !ClientResolves(db, item.operation, ex.reply) ==>
              item.id in db'.queue && db'.queue[item.id] == item.(status := FailedStatus(item.attempts))
    ensures ClientRefuses(item.operation, ex.reply) ==> db'.data == db.data
    ensures ClientDelivers(item.operation, ex.reply) && LocalCreate(item.operation) &&
            PageNewId(ex.reply.payload).MoveTo? ==>
              db'.data == Rebind(db, StoreOf(item.operation.entity).value, item.operation.id,
                                 PageNewId(ex.reply.payload).key, Some(ex.now)).data
    ensures (ClientDelivers(item.operation, ex.reply) &&
             !(LocalCreate(item.operation) && PageNewId(ex.reply.payload).MoveTo?)) ==> db'.data == db.data
    ensures ClientBadKey(item.operation, ex.reply) ==>
              db'.data == Remove(db, StoreOf(item.operation.entity).value, Some(item.operation.id)).data ||
              (Get(db, StoreOf(item.operation.entity).value, item.operation.id).None? && db'.data == db.data)
    ensures forall n, k :: !ClientTouches(item.operation, ex.reply, k) ==> Get(db', n, k) == Get(db, n, k)
    ensures forall id :: id != item.id ==>
              (id in db'.queue <==> id in db.queue) && (id in db.queue ==> db'.queue[id] == db.queue[id])
    ensures db'.conflicts == db.conflicts
  {
    var db1 := db.(queue := db.queue[item.id := MarkProcessing(item)]);
    var (db2, ok) := ClientDeliver(db1, item.operation, ex.reply, ex.now);
    if ok then db2.(queue := db2.queue - {item.id})
    else db2.(queue := db2.queue[item.id := item.(status := FailedStatus(item.attempts))])
  }

  /** The loop of `processSyncQueue` over the sorted snapshot: only items
      that were pending in the snapshot are attempted. */
  function DrainClient(db: Db, items: seq<QueueItem>, net: QueueItem -> Exchange): Db
    decreases |items|
  {
    if items == [] then db
    else
      var db1 := if items[0].status == Pending then ClientAttempt(db, items[0], net(items[0])) else db;
      DrainClient(db1, items[1..], net)
  }

  predicate DistinctIds(items: seq<QueueItem>) {
    forall i, j :: 0 <= i < j < |items| ==> items[i].id != items[j].id
  }

  function PendingIds(items: seq<QueueItem>): set<string> {
    set i | 0 <= i < |items| && items[i].status == Pending :: items[i].id
  }

  /** What one pass does to the queue: a pending item of the snapshot is
      removed when delivered and otherwise stored failed (or manual) with its
      snapshot attempt count; every other entry is left as it was, and later
      items are attempted whatever happened to earlier ones. */
  lemma {:induction false} DrainClientQueue(db: Db, items: seq<QueueItem>, net: QueueItem -> Exchange)
    requires DistinctIds(items)
    ensures var d := DrainClient(db, items, net);
      (forall id :: id !in PendingIds(items) ==>
         (id in d.queue <==> id in db.queue) && (id in db.queue ==> d.queue[id] == db.queue[id])) &&
      (forall i :: (0 <= i < |items| && items[i].status == Pending &&
                    ClientDelivers(items[i].operation, net(items[i]).reply)) ==>
         items[i].id !in d.queue) &&
      (forall i :: (0 <= i < |items| && items[i].status == Pending &&
                    ClientRefuses(items[i].operation, net(items[i]).reply)) ==>
         items[i].id in d.queue && d.queue[items[i].id] == items[i].(status := FailedStatus(items[i].attempts))) &&
      (forall i :: (0 <= i < |items| && items[i].status == Pending &&
                    ClientBadKey(items[i].operation, net(items[i]).reply)) ==>
         items[i].id !in d.queue ||
         d.queue[items[i].id] == items[i].(status := FailedStatus(items[i].attempts)))
  {
    DrainClientFrame(db, items, net);
    DrainClientOutcome(db, items, net);
  }

  /** Queue entries the pass does not attempt are left as they were. */
  lemma {:induction false} DrainClientFrame(db: Db, items: seq<QueueItem>, net: QueueItem -> Exchange)
    ensures var d := DrainClient(db, items, net);
      forall id :: id !in PendingIds(items) ==>
        (id in d.queue <==> id in db.queue) && (id in db.queue ==> d.queue[id] == db.queue[id])
    decreases |items|
  {
    if items != [] {
      var item := items[0];
      var db1 := if item.status == Pending then ClientAttempt(db, item, net(item)) else db;
      var rest := items[1..];
      DrainClientFrame(db1, rest, net);
      assert DrainClient(db, items, net) == DrainClient(db1, rest, net);
      assert forall id :: id in PendingIds(rest) ==> id in PendingIds(items) by {
        forall id | id in PendingIds(rest) ensures id in PendingIds(items) {
          var j :| 0 <= j < |rest| && rest[j].status == Pending && rest[j].id == id;
          assert rest[j] == items[j + 1];
        }
      }
      assert item.status == Pending ==> item.id in PendingIds(items);
    }
  }

  /** Each attempted entry is gone when delivered and is stored failed with
      its snapshot count otherwise. */
  lemma {:induction false} DrainClientOutcome(db: Db, items: seq<QueueItem>, net: QueueItem -> Exchange)
    requires DistinctIds(items)
    ensures var d := DrainClient(db, items, net);
      (forall i :: (0 <= i < |items| && items[i].status == Pending &&
                    ClientDelivers(items[i].operation, net(items[i]).reply)) ==>
         items[i].id !in d.queue) &&
      (forall i :: (0 <= i < |items| && items[i].status == Pending &&
                    ClientRefuses(items[i].operation, net(items[i]).reply)) ==>
         items[i].id in d.queue && d.queue[items[i].id] == items[i].(status := FailedStatus(items[i].attempts))) &&
      (forall i :: (0 <= i < |items| && items[i].status == Pending &&
                    ClientBadKey(items[i].operation, net(items[i]).reply)) ==>
         items[i].id !in d.queue ||
         d.queue[items[i].id] == items[i].(status := FailedStatus(items[i].attempts)))
    decreases |items|
  {
    if items != [] {
      var item := items[0];
      var db1 := if item.status == Pending then ClientAttempt(db, item, net(item)) else db;
      var rest := items[1..];
      assert DistinctIds(rest);
      assert forall j :: 0 <= j < |rest| ==> rest[j] == items[j + 1];
      DrainClientOutcome(db1, rest, net);
      DrainClientFrame(db1, rest, net);
      assert DrainClient(db, items, net) == DrainClient(db1, rest, net);
      assert item.id !in PendingIds(rest);
    }
  }

  /** A pass writes the local store only where a local create it attempts
      was answered: a key that no such create touches keeps its record in
      every collection. */
  lemma {:induction false} DrainClientData(db: Db, items: seq<QueueItem>, net: QueueItem -> Exchange, n: StoreName, k: Key)
    requires forall i :: 0 <= i < |items| && items[i].status == Pending ==>
               !ClientTouches(items[i].operation, net(items[i]).reply, k)
    ensures Get(DrainClient(db, items, net), n, k) == Get(db, n, k)
    decreases |items|
  {
    if items != [] {
      var item := items[0];
      var db1 := if item.status == Pending then ClientAttempt(db, item, net(item)) else db;
      var rest := items[1..];
      assert forall j :: 0 <= j < |rest| ==> rest[j] == items[j + 1];
      DrainClientData(db1, rest, net, n, k);
      assert DrainClient(db, items, net) == DrainClient(db1, rest, net);
    }
  }

  /** `order` lists every item of the queue `q` exactly once, as stored. */
  predicate Snapshot(q: map<string, QueueItem>, order: seq<QueueItem>) {
    DistinctIds(order) &&
    (forall i :: 0 <= i < |order| ==> order[i].id in q && q[order[i].id] == order[i]) &&
    (forall id :: id in q ==> exists i :: 0 <= i < |order| && order[i].id == id)
  }

  /** A pass over a snapshot, stated per queue entry. */
  lemma {:induction false} DrainClientOnSnapshot(db: Db, order: seq<QueueItem>, net: QueueItem -> Exchange)
    requires Snapshot(db.queue, order)
    ensures var d := DrainClient(db, order, net);
      (forall id :: id in db.queue && db.queue[id].status != Pending ==>
         id in d.queue && d.queue[id] == db.queue[id]) &&
      (forall id :: id in db.queue && db.queue[id].status == Pending &&
                    !ClientBadKey(db.queue[id].operation, net(db.queue[id]).reply) ==>
         (id !in d.queue <==> ClientDelivers(db.queue[id].operation, net(db.queue[id]).reply))) &&
      (forall id :: id in db.queue && db.queue[id].status == Pending && id in d.queue ==>
         d.queue[id] == db.queue[id].(status := FailedStatus(db.queue[id].attempts)))
  {
    DrainClientQueue(db, order, net);
    forall id | id in db.queue
      ensures db.queue[id].status == Pending <==> id in PendingIds(order)
    {
      var i :| 0 <= i < |order| && order[i].id == id;
      if id in PendingIds(order) {
        var j :| 0 <= j < |order| && order[j].status == Pending && order[j].id == id;
        assert i == j;
      }
    }
  }

  function CreatedAtKey(item: QueueItem): int {
    item.createdAt
  }

  /** What `getAll` returned: each key of `q` once, with its item. */
  predicate Enumerates(q: map<string, QueueItem>, ks: seq<string>, items: seq<QueueItem>) {
    |ks| == |items| &&
    (forall i :: 0 <= i < |ks| ==> ks[i] in q && items[i] == q[ks[i]]) &&
    (forall id :: id in q ==> id in ks) &&
    (forall i, j :: 0 <= i < j < |ks| ==> ks[i] != ks[j])
  }

  /** Sorting what `getAll` returned yields a snapshot of the queue. */
  lemma {:induction false} SortedSnapshot(q: map<string, QueueItem>, ks: seq<string>, items: seq<QueueItem>)
    requires QueueWellKeyed(q) && Enumerates(q, ks, items)
    ensures Snapshot(q, SortBy(items, CreatedAtKey))
  {
    var order := SortBy(items, CreatedAtKey);
    SortedMembers(q, ks, items, order);
    SortedDistinct(q, ks, items, order);
    SortedCovers(q, ks, items, order);
  }

  lemma {:induction false} SortedMembers(q: map<string, QueueItem>, ks: seq<string>, items: seq<QueueItem>, order: seq<QueueItem>)
    requires QueueWellKeyed(q) && Enumerates(q, ks, items) && multiset(order) == multiset(items)
    ensures forall i :: 0 <= i < |order| ==> order[i].id in q && q[order[i].id] == order[i]
  {
    forall i | 0 <= i < |order|
      ensures order[i].id in q && q[order[i].id] == order[i]
    {
      assert order[i] in multiset(order);
      var j :| 0 <= j < |items| && items[j] == order[i];
    }
  }

  lemma {:induction false} SortedDistinct(q: map<string, QueueItem>, ks: seq<string>, items: seq<QueueItem>, order: seq<QueueItem>)
    requires QueueWellKeyed(q) && Enumerates(q, ks, items) && multiset(order) == multiset(items)
    requires forall i :: 0 <= i < |order| ==> order[i].id in q && q[order[i].id] == order[i]
    ensures DistinctIds(order)
  {
    forall i, j | 0 <= i < j < |order| ensures order[i].id != order[j].id {
      if order[i].id == order[j].id {
        SameIdSameItem(q, order, i, j);
        assert order[i] in multiset(items);
        var a :| 0 <= a < |items| && items[a] == order[i];
        MultiplicityOfDistinct(q, ks, items, a);
        assert false;
      }
    }
  }

  lemma {:induction false} SortedCovers(q: map<string, QueueItem>, ks: seq<string>, items: seq<QueueItem>, order: seq<QueueItem>)
    requires QueueWellKeyed(q) && Enumerates(q, ks, items) && multiset(order) == multiset(items)
    ensures forall id :: id in q ==> exists i :: 0 <= i < |order| && order[i].id == id
  {
    forall id | id in q ensures exists i :: 0 <= i < |order| && order[i].id == id {
      var j :| 0 <= j < |ks| && ks[j] == id;
      assert items[j] in multiset(order);
      var i :| 0 <= i < |order| && order[i] == items[j];
    }
  }

  /** Two positions holding the same stored item make it occur twice. */
  lemma {:induction false} SameIdSameItem(q: map<string, QueueItem>, order: seq<QueueItem>, i: int, j: int)
    requires 0 <= i < j < |order|
    requires forall k :: 0 <= k < |order| ==> order[k].id in q && q[order[k].id] == order[k]
    requires order[i].id == order[j].id
    ensures multiset(order)[order[i]] >= 2
  {
    var x := order[i];
    assert x == order[j];
    var a, b := order[..j], order[j..];
    assert order == a + b;
    assert a[i] == x && b[0] == x;
    assert x in multiset(a) && x in multiset(b);
    assert multiset(order) == multiset(a) + multiset(b);
  }

  /** In a sequence whose key sequence has no repeats, an element occurs once. */
  lemma {:induction false} MultiplicityOfDistinct(q: map<string, QueueItem>, ks: seq<string>, items: seq<QueueItem>, a: int)
    requires QueueWellKeyed(q) && Enumerates(q, ks, items) && 0 <= a < |items|
    ensures multiset(items)[items[a]] <= 1
  {
    var x := items[a];
    var before, after := items[..a], items[a + 1..];
    assert items == before + [x] + after;
    forall i | 0 <= i < |before| ensures before[i] != x {
      assert before[i] == items[i] && items[i].id == ks[i];
    }
    forall i | 0 <= i < |after| ensures after[i] != x {
      assert after[i] == items[a + 1 + i] && items[a + 1 + i].id == ks[a + 1 + i];
    }
    assert x !in multiset(before);
    assert x !in multiset(after);
  }

  /** `processSyncQueue()`: nothing when offline or when the queue is empty;
      otherwise one pass over a snapshot of the queue sorted by enqueue time
      (stably, so equal times keep the store's order). Items that were not
      pending are untouched; a pending item is gone exactly when it was
      delivered, and otherwise keeps its attempt count with a failed status. */
  method ProcessSyncQueue(db: Db, online: bool, net: QueueItem -> Exchange)
    returns (db': Db, order: seq<QueueItem>)
    requires QueueWellKeyed(db.queue)
    ensures !online ==> db' == db && order == []
    ensures online ==> Snapshot(db.queue, order) && SortedBy(order, CreatedAtKey)
    ensures db' == DrainClient(db, order, net)
    ensures forall id :: id in db.queue && db.queue[id].status != Pending ==>
              id in db'.queue && db'.queue[id] == db.queue[id]
    ensures forall id :: id in db.queue && db.queue[id].status == Pending &&
                         !ClientBadKey(db.queue[id].operation, net(db.queue[id]).reply) ==>
              (id !in db'.queue <==> online && ClientDelivers(db.queue[id].operation, net(db.queue[id]).reply))
    ensures online ==> forall id :: id in db.queue && db.queue[id].status == Pending && id in db'.queue ==>
              db'.queue[id] == db.queue[id].(status := FailedStatus(db.queue[id].attempts))
    ensures forall n, k :: (forall i :: 0 <= i < |order| && order[i].status == Pending ==>
                              !ClientTouches(order[i].operation, net(order[i]).reply, k)) ==>
              Get(db', n, k) == Get(db, n, k)
  {
    if !online {
      return db, [];
    }
    var ks, items := GetAll(db.queue);
    if |items| == 0 {
      assert db.queue == map[];
      return db, [];
    }
    SortedSnapshot(db.queue, ks, items);
    order := SortBy(items, CreatedAtKey);
    db' := DrainClient(db, order, net);
    DrainClientOnSnapshot(db, order, net);
    forall n, k | forall i :: 0 <= i < |order| && order[i].status == Pending ==>
                    !ClientTouches(order[i].operation, net(order[i]).reply, k)
      ensures Get(db', n, k) == Get(db, n, k)
    {
      DrainClientData(db, order, net, n, k);
    }
  }

  // ---------------------------------------------------------------------
  // Consequences

  /** A pass never escalates an item whose stored attempt count is below the
      threshold: the client records the count from before the pass. */
  lemma {:induction false} ClientNeverEscalatesBelowThreshold(db: Db, items: seq<QueueItem>, net: QueueItem -> Exchange, i: int)
    requires DistinctIds(items)
    requires 0 <= i < |items| && items[i].status == Pending && items[i].attempts < MaxAttempts
    ensures var d := DrainClient(db, items, net);
      items[i].id in d.queue ==> d.queue[items[i].id].status == Failed && d.queue[items[i].id].attempts == items[i].attempts
  {
    DrainClientQueue(db, items, net);
  }

  /** A failed item is never attempted by the client again: every later pass
      leaves it exactly as it is. Together with the lemma above, an item the
      client enqueued (with no attempts) can never reach manual resolution
      through client passes alone. */
  lemma {:induction false} ClientSkipsFailed(db: Db, items: seq<QueueItem>, net: QueueItem -> Exchange, id: string)
    requires DistinctIds(items)
    requires id in db.queue && db.queue[id].status == Failed
    requires forall i :: 0 <= i < |items| ==> items[i].id in db.queue && db.queue[items[i].id] == items[i]
    ensures var d := DrainClient(db, items, net);
      id in d.queue && d.queue[id] == db.queue[id]
  {
    DrainClientQueue(db, items, net);
  }

  /** Against the tRPC envelope, a create of a stored local record loses it:
      the record is deleted, nothing is saved in its place, and the item is
      stored failed (or manual), so this page never sends it again. */
  lemma {:induction false} PageLosesRecord(db: Db, item: QueueItem, now: int)
    requires LocalCreate(item.operation) && !item.operation.entity.UnknownEntity?
    requires Get(db, StoreOf(item.operation.entity).value, item.operation.id).Some?
    ensures var d := ClientAttempt(db, item, Exchange(Response(true, CreateEnvelope), now));
      Get(d, StoreOf(item.operation.entity).value, item.operation.id) == None &&
      (forall k :: k != item.operation.id ==>
         Get(d, StoreOf(item.operation.entity).value, k) == Get(db, StoreOf(item.operation.entity).value, k)) &&
      item.id in d.queue && d.queue[item.id] == item.(status := FailedStatus(item.attempts))
  {
    var ex := Exchange(Response(true, CreateEnvelope), now);
    var store := StoreOf(item.operation.entity).value;
    assert ClientBadKey(item.operation, ex.reply);
    assert !ClientResolves(db, item.operation, ex.reply);
  }
}

=== FILE: conflicts.dfy ===
/** Reconciling local and server copies of the same record: the three
    resolution strategies, the stored-conflict lifecycle (record, list,
    resolve by hand, clean up), and the bulk merge of a server listing into
    a local collection. */
module ConflictResolution {
  import opened Base
  import opened Json
  import opened Entities
  import opened LocalStore

  datatype Strategy = ByTimestamp | MergeFields | ManualReview

  datatype Resolution = KeepLocal | KeepServer | MergeBoth

  /** The key of a stored conflict: `${storeName}_${localItem.id}`. */
  function ConflictId(store: StoreName, localId: Key): string {
    StoreNameString(store) + "_" + KeyToString(localId)
  }

  predicate ConflictsWellKeyed(c: map<string, Conflict>) {
    forall id :: id in c ==> c[id].id == id
  }

  /** `resolveConflict(local, server, strategy, store)`: the version to use,
      and the store after the writes the strategy performs. */
  function ResolveConflict(db: Db, local: Record, server: Record, strategy: Strategy, store: StoreName, now: int)
    : (r: (Db, Record))
    ensures strategy == ByTimestamp && Timestamp(local) > Timestamp(server) ==> r == (db, local)
    ensures strategy == ByTimestamp && Timestamp(local) <= Timestamp(server) ==>
              r.1 == server && r.0 == Save(db, store, server)
    ensures strategy == MergeFields ==>
              r.1 == MergeRecords(server, local) && r.0 == Save(db, store, r.1)
    ensures strategy == ManualReview ==> r.1 == server && Get(r.0, store, server.id) == Some(server)
    ensures strategy == ManualReview ==> forall k :: k != server.id ==> Get(r.0, store, k) == Get(db, store, k)
    ensures strategy == ManualReview ==>
              var id := ConflictId(store, local.id);
              r.0.conflicts == db.conflicts[id := Conflict(id, store, local, server, now, false)]
    ensures strategy != ManualReview ==> r.0.conflicts == db.conflicts
    ensures r.0.queue == db.queue
    ensures forall n :: n != store ==> Table(r.0, n) == Table(db, n)
  {
    match strategy
    case ByTimestamp =>
      if Timestamp(local) > Timestamp(server) then (db, local)
      else (Save(db, store, server), server)
    case MergeFields =>
      var merged := MergeRecords(server, local);
      (Save(db, store, merged), merged)
    case ManualReview =>
      var id := ConflictId(store, local.id);
      var db1 := db.(conflicts := db.conflicts[id := Conflict(id, store, local, server, now, false)]);
      (Save(db1, store, server), server)
  }

  /** The timestamp strategy returns the newer copy, the server's on a tie,
      and writes exactly when it returns the server's copy. */
  lemma {:induction false} TimestampPicksNewer(db: Db, local: Record, server: Record, store: StoreName, now: int)
    ensures var r := ResolveConflict(db, local, server, ByTimestamp, store, now);
      Timestamp(r.1) == if Timestamp(local) > Timestamp(server) then Timestamp(local) else Timestamp(server)
    ensures Timestamp(local) == Timestamp(server) ==>
              ResolveConflict(db, local, server, ByTimestamp, store, now).1 == server
    ensures var r := ResolveConflict(db, local, server, ByTimestamp, store, now);
      r.0 == db <== r.1 == local && local != server
  {
  }

  /** `getUnresolvedConflicts()`: exactly the stored conflicts not yet
      resolved, in the order read. */
  function GetUnresolvedConflicts(f: Fetched<Conflict>): (r: seq<Conflict>)
    ensures forall i :: 0 <= i < |r| ==> !r[i].resolved && r[i] in AsList(f)
    ensures forall i :: 0 <= i < |AsList(f)| && !AsList(f)[i].resolved ==> AsList(f)[i] in r
  {
    Filter(AsList(f), (c: Conflict) => !c.resolved)
  }

  /** The version a manual resolution writes back. */
  function Chosen(c: Conflict, resolution: Resolution): Record {
    match resolution
    case KeepLocal => c.localItem
    case KeepServer => c.serverItem
    case MergeBoth => MergeRecords(c.serverItem, c.localItem)
  }

  /** `resolveConflictManually(id, resolution)`: false and no write for an
      unknown id; otherwise the chosen version is saved to the conflict's
      collection and the conflict is stored again, marked resolved. */
  function ResolveConflictManually(db: Db, conflictId: string, resolution: Resolution): (r: (Db, bool))
    requires ConflictsWellKeyed(db.conflicts)
    ensures r.1 <==> conflictId in db.conflicts
    ensures !r.1 ==> r.0 == db
    ensures r.1 ==> var c := db.conflicts[conflictId];
      Get(r.0, c.storeName, Chosen(c, resolution).id) == Some(Chosen(c, resolution)) &&
      conflictId in r.0.conflicts && r.0.conflicts[conflictId] == c.(resolved := true)
    ensures r.1 ==> forall id :: id != conflictId ==>
              (id in r.0.conflicts <==> id in db.conflicts) &&
              (id in db.conflicts ==> r.0.conflicts[id] == db.conflicts[id])
    ensures r.1 ==> var c := db.conflicts[conflictId];
      (forall k :: k != Chosen(c, resolution).id ==> Get(r.0, c.storeName, k) == Get(db, c.storeName, k)) &&
      (forall n :: n != c.storeName ==> Table(r.0, n) == Table(db, n))
    ensures ConflictsWellKeyed(r.0.conflicts) && r.0.queue == db.queue
  {
    if conflictId !in db.conflicts then (db, false)
    else
      var c := db.conflicts[conflictId];
      var db1 := Save(db, c.storeName, Chosen(c, resolution));
      (db1.(conflicts := db1.conflicts[c.id := c.(resolved := true)]), true)
  }

  function ConflictKey(c: Conflict): string {
    c.id
  }

  /** `cleanupResolvedConflicts()`: deletes exactly the resolved conflicts
      and returns how many it deleted. */
  method CleanupResolvedConflicts(conflicts: map<string, Conflict>)
    returns (conflicts': map<string, Conflict>, deleted: nat)
    requires ConflictsWellKeyed(conflicts)
    ensures forall id :: id in conflicts' <==> id in conflicts && !conflicts[id].resolved
    ensures forall id :: id in conflicts' ==> conflicts'[id] == conflicts[id]
    ensures deleted == |conflicts| - |conflicts'|
    ensures deleted == 0 <==> forall id :: id in conflicts ==> !conflicts[id].resolved
  {
    conflicts', deleted := DeleteWhere(conflicts, (c: Conflict) => c.resolved, ConflictKey);
  }

  /** A conflict recorded by the manual strategy is listed as unresolved until
      it is resolved by hand, after which it is not. */
  lemma {:induction false} ConflictLifecycle(db: Db, local: Record, server: Record, store: StoreName, now: int, resolution: Resolution)
    requires ConflictsWellKeyed(db.conflicts)
    ensures var db1 := ResolveConflict(db, local, server, ManualReview, store, now).0;
      var id := ConflictId(store, local.id);
      ConflictsWellKeyed(db1.conflicts) && id in db1.conflicts && !db1.conflicts[id].resolved &&
      var db2 := ResolveConflictManually(db1, id, resolution);
      db2.1 && db2.0.conflicts[id].resolved &&
      Get(db2.0, store, Chosen(db1.conflicts[id], resolution).id) == Some(Chosen(db1.conflicts[id], resolution))
  {
  }

  // ---------------------------------------------------------------------
  // Bulk merge

  /** `localMap.get(String(id))`: the last local item whose id renders as
      `s`. */
  function LocalMatch(local: seq<Record>, s: string): (r: Option<Record>)
    ensures r.Some? ==> r.value in local && KeyToString(r.value.id) == s
    ensures r.None? <==> forall i :: 0 <= i < |local| ==> KeyToString(local[i].id) != s
  {
    if local == [] then None
    else if KeyToString(local[|local| - 1].id) == s then Some(local[|local| - 1])
    else
      var r := LocalMatch(local[..|local| - 1], s);
      assert forall i :: 0 <= i < |local| - 1 ==> local[..|local| - 1][i] == local[i];
      r
  }

  /** Building the map from the local list lets later items overwrite
      earlier ones: the match is the last local item with that id string. */
  lemma {:induction false} LocalMatchIsLast(local: seq<Record>, s: string, j: nat)
    requires j < |local| && KeyToString(local[j].id) == s
    requires forall k :: j < k < |local| ==> KeyToString(local[k].id) != s
    ensures LocalMatch(local, s) == Some(local[j])
    decreases |local|
  {
    if j < |local| - 1 {
      var init := local[..|local| - 1];
      assert init[j] == local[j];
      assert forall k :: j < k < |init| ==> init[k] == local[k];
      LocalMatchIsLast(init, s, j);
    }
  }

  function MatchOf(local: seq<Record>, s: Record): Option<Record> {
    LocalMatch(local, KeyToString(s.id))
  }

  /** Both copies carry a modification time and the times differ. */
  predicate InConflict(l: Record, s: Record) {
    Timestamp(l) > 0 && Timestamp(s) > 0 && Timestamp(l) != Timestamp(s)
  }

  /** The loop over the server items that have a local copy: a conflict goes
      to `resolveConflict`, otherwise a strictly newer server copy is queued
      for saving. Returns the store after the resolutions and the queued
      items. */
  function UpdatePass(db: Db, local: seq<Record>, server: seq<Record>, store: StoreName, strategy: Strategy, now: int)
    : (r: (Db, seq<Record>))
    ensures r.0.queue == db.queue
    ensures strategy != ManualReview ==> r.0.conflicts == db.conflicts
    ensures forall n :: n != store ==> Table(r.0, n) == Table(db, n)
    decreases |server|
  {
    if server == [] then (db, [])
    else
      var step := UpdateStep(db, local, server[0], store, strategy, now);
      var rest := UpdatePass(step.0, local, server[1..], store, strategy, now);
      (rest.0, step.1 + rest.1)
  }

  /** One server item of the update pass. */
  function UpdateStep(db: Db, local: seq<Record>, s: Record, store: StoreName, strategy: Strategy, now: int)
    : (Db, seq<Record>)
  {
    match MatchOf(local, s)
    case None => (db, [])
    case Some(l) =>
      if InConflict(l, s) then
        var res := ResolveConflict(db, l, s, strategy, store, now);
        (res.0, [res.1])
      else if Timestamp(s) > Timestamp(l) then (db, [s])
      else (db, [])
  }

  function NewServerItems(local: seq<Record>, server: seq<Record>): seq<Record> {
    Filter(server, (s: Record) => MatchOf(local, s).None?)
  }

  function LocalOnly(local: seq<Record>): seq<Record> {
    Filter(local, (l: Record) => IsLocalKey(l.id))
  }

  /** `mergeData(local, server, store, strategy)`: saves the server items with
      no local copy and the items the update pass queued, then answers the
      server items followed by the local items still carrying an offline id. */
  function MergeData(db: Db, local: seq<Record>, server: seq<Record>, store: StoreName, strategy: Strategy, now: int)
    : (r: (Db, seq<Record>))
    ensures |r.1| == |server| + |LocalOnly(local)| && r.1[..|server|] == server
    ensures forall i :: |server| <= i < |r.1| ==> IsLocalKey(r.1[i].id) && r.1[i] in local
    ensures forall j :: 0 <= j < |local| && IsLocalKey(local[j].id) ==> local[j] in r.1[|server|..]
    ensures r.0.queue == db.queue
    ensures strategy != ManualReview ==> r.0.conflicts == db.conflicts
    ensures forall n :: n != store ==> Table(r.0, n) == Table(db, n)
  {
    var pass := UpdatePass(db, local, server, store, strategy, now);
    var saved := SaveAll(pass.0, store, NewServerItems(local, server) + pass.1);
    var result := server + LocalOnly(local);
    assert result[|server|..] == LocalOnly(local);
    (saved, result)
  }

  // ---------------------------------------------------------------------
  // The merge under the timestamp strategy

  /** The server copy replaces the local one: there is no local copy, or the
      server's is strictly newer. */
  predicate ServerWins(local: seq<Record>, s: Record) {
    MatchOf(local, s).None? || Timestamp(s) > Timestamp(MatchOf(local, s).value)
  }

  ghost function WinningIds(local: seq<Record>, server: seq<Record>): set<Key> {
    set i | 0 <= i < |server| && ServerWins(local, server[i]) :: server[i].id
  }

  /** No two server items render their ids the same way. */
  predicate DistinctRenderedIds(server: seq<Record>) {
    forall i, j :: 0 <= i < j < |server| ==> KeyToString(server[i].id) != KeyToString(server[j].id)
  }

  /** Every local item is what the collection holds under its id. */
  ghost predicate Stored(db: Db, store: StoreName, local: seq<Record>) {
    forall j :: 0 <= j < |local| ==> Get(db, store, local[j].id) == Some(local[j])
  }

  /** A write that cannot disturb the intended outcome: a winning server
      item, or a record the collection already holds under an id no winner
      uses. */
  ghost predicate Harmless(db: Db, store: StoreName, local: seq<Record>, server: seq<Record>, w: Record) {
    (exists i | 0 <= i < |server| :: ServerWins(local, server[i]) && w == server[i]) ||
    (w.id !in WinningIds(local, server) && Get(db, store, w.id) == Some(w))
  }

  /** Only winners' ids have changed, each at most to its winner. */
  ghost predicate OnTrack(db: Db, d: Db, store: StoreName, local: seq<Record>, server: seq<Record>) {
    (forall k :: k !in WinningIds(local, server) ==> Get(d, store, k) == Get(db, store, k)) &&
    (forall i :: 0 <= i < |server| && ServerWins(local, server[i]) ==>
       Get(d, store, server[i].id) == Get(db, store, server[i].id) ||
       Get(d, store, server[i].id) == Some(server[i]))
  }

  lemma {:induction false} DistinctAt(server: seq<Record>, i: int, j: int)
    requires DistinctRenderedIds(server)
    requires 0 <= i < |server| && 0 <= j < |server| && i != j
    ensures KeyToString(server[i].id) != KeyToString(server[j].id)
  {
    if j < i {
      assert KeyToString(server[j].id) != KeyToString(server[i].id);
    }
  }

  lemma {:induction false} SameIdSameServerItem(server: seq<Record>, i: int, j: int)
    requires DistinctRenderedIds(server)
    requires 0 <= i < |server| && 0 <= j < |server| && server[i].id == server[j].id
    ensures i == j
  {
    if i != j {
      DistinctAt(server, i, j);
      assert false;
    }
  }

  lemma {:induction false} SaveHarmless(db: Db, d: Db, store: StoreName, local: seq<Record>, server: seq<Record>, w: Record)
    requires DistinctRenderedIds(server)
    requires OnTrack(db, d, store, local, server) && Harmless(db, store, local, server, w)
    ensures OnTrack(db, Save(d, store, w), store, local, server)
    ensures (exists i | 0 <= i < |server| :: ServerWins(local, server[i]) && w == server[i]) ==>
              Get(Save(d, store, w), store, w.id) == Some(w)
  {
    var d' := Save(d, store, w);
    forall i | 0 <= i < |server| && ServerWins(local, server[i])
      ensures Get(d', store, server[i].id) == Get(db, store, server[i].id) ||
              Get(d', store, server[i].id) == Some(server[i])
    {
      if server[i].id == w.id {
        assert w.id in WinningIds(local, server);
        var j :| 0 <= j < |server| && ServerWins(local, server[j]) && w == server[j];
        SameIdSameServerItem(server, i, j);
      }
    }
  }

  /** Saving a run of harmless writes stays on track, and every winner among
      them ends up stored. */
  lemma {:induction false} SaveAllHarmless(db: Db, d: Db, store: StoreName, local: seq<Record>, server: seq<Record>, ws: seq<Record>)
    requires DistinctRenderedIds(server)
    requires OnTrack(db, d, store, local, server)
    requires forall i :: 0 <= i < |ws| ==> Harmless(db, store, local, server, ws[i])
    ensures OnTrack(db, SaveAll(d, store, ws), store, local, server)
    ensures forall i :: 0 <= i < |server| && ServerWins(local, server[i]) && server[i] in ws ==>
              Get(SaveAll(d, store, ws), store, server[i].id) == Some(server[i])
  {
    if ws != [] {
      var init := ws[..|ws| - 1];
      var w := ws[|ws| - 1];
      assert forall i :: 0 <= i < |init| ==> init[i] == ws[i];
      SaveAllHarmless(db, d, store, local, server, init);
      var mid := SaveAll(d, store, init);
      assert SaveAll(d, store, ws) == Save(mid, store, w);
      SaveHarmless(db, mid, store, local, server, w);
      forall i | 0 <= i < |server| && ServerWins(local, server[i]) && server[i] in ws
        ensures Get(Save(mid, store, w), store, server[i].id) == Some(server[i])
      {
        if server[i] == w {
        } else if server[i].id == w.id {
          assert Harmless(db, store, local, server, w);
          assert server[i].id in WinningIds(local, server);
          var j :| 0 <= j < |server| && ServerWins(local, server[j]) && w == server[j];
          SameIdSameServerItem(server, i, j);
        } else {
          assert server[i] in init by {
            var k :| 0 <= k < |ws| && ws[k] == server[i];
            assert k < |ws| - 1;
            assert init[k] == server[i];
          }
        }
      }
    }
  }

  /** An id rendered like a losing server item's id is no winner's id. */
  lemma {:induction false} NotWinningId(local: seq<Record>, server: seq<Record>, i: int, k: Key)
    requires DistinctRenderedIds(server)
    requires 0 <= i < |server| && !ServerWins(local, server[i]) && KeyToString(k) == KeyToString(server[i].id)
    ensures k !in WinningIds(local, server)
  {
    forall j | 0 <= j < |server| && ServerWins(local, server[j]) ensures server[j].id != k {
      assert j != i;
      DistinctAt(server, i, j);
    }
  }

  /** A local copy that loses to no server item is never overwritten: its id is
      no winner's id. */
  lemma {:induction false} LoserIdNotWinning(local: seq<Record>, server: seq<Record>, i: int)
    requires DistinctRenderedIds(server)
    requires 0 <= i < |server| && MatchOf(local, server[i]).Some? && !ServerWins(local, server[i])
    ensures MatchOf(local, server[i]).value.id !in WinningIds(local, server)
  {
    NotWinningId(local, server, i, MatchOf(local, server[i]).value.id);
  }

  /** One step of the update pass under the timestamp strategy stays on
      track, queues only harmless items, and queues a winning server item
      that has a local copy. */
  lemma {:induction false} UpdateStepTimestamp(db: Db, d: Db, local: seq<Record>, server: seq<Record>, k: nat,
                            store: StoreName, now: int)
    requires DistinctRenderedIds(server) && Stored(db, store, local)
    requires k < |server|
    requires OnTrack(db, d, store, local, server)
    ensures var step := UpdateStep(d, local, server[k], store, ByTimestamp, now);
      OnTrack(db, step.0, store, local, server) &&
      (forall i :: 0 <= i < |step.1| ==> Harmless(db, store, local, server, step.1[i])) &&
      (MatchOf(local, server[k]).Some? && ServerWins(local, server[k]) ==> step.1 == [server[k]])
  {
    var s := server[k];
    var step := UpdateStep(d, local, s, store, ByTimestamp, now);
    if MatchOf(local, s).Some? && !ServerWins(local, s) {
      LoserIdNotWinning(local, server, k);
    }
    if MatchOf(local, s).Some? && InConflict(MatchOf(local, s).value, s) && ServerWins(local, s) {
      SaveHarmless(db, d, store, local, server, s);
    }
  }

  /** The update pass under the timestamp strategy performs only harmless
      writes, queues only harmless items, and queues every server item that
      has a local copy and is strictly newer. */
  lemma {:induction false} UpdatePassTimestamp(db: Db, d: Db, local: seq<Record>, server: seq<Record>, k: nat,
                                               store: StoreName, now: int)
    requires DistinctRenderedIds(server) && Stored(db, store, local)
    requires k <= |server|
    requires OnTrack(db, d, store, local, server)
    ensures var r := UpdatePass(d, local, server[k..], store, ByTimestamp, now);
      OnTrack(db, r.0, store, local, server) &&
      (forall i :: 0 <= i < |r.1| ==> Harmless(db, store, local, server, r.1[i])) &&
      (forall i :: k <= i < |server| && MatchOf(local, server[i]).Some? && ServerWins(local, server[i]) ==>
         server[i] in r.1)
    decreases |server| - k
  {
    if k < |server| {
      assert server[k..][0] == server[k] && server[k..][1..] == server[k + 1..];
      var step := UpdateStep(d, local, server[k], store, ByTimestamp, now);
      UpdateStepTimestamp(db, d, local, server, k, store, now);
      UpdatePassTimestamp(db, step.0, local, server, k + 1, store, now);
      var rest := UpdatePass(step.0, local, server[k + 1..], store, ByTimestamp, now);
      assert UpdatePass(d, local, server[k..], store, ByTimestamp, now) == (rest.0, step.1 + rest.1);
      forall i | 0 <= i < |step.1 + rest.1|
        ensures Harmless(db, store, local, server, (step.1 + rest.1)[i])
      {
        if i >= |step.1| {
          assert (step.1 + rest.1)[i] == rest.1[i - |step.1|];
        } else {
          assert (step.1 + rest.1)[i] == step.1[i];
        }
      }
      forall i | k <= i < |server| && MatchOf(local, server[i]).Some? && ServerWins(local, server[i])
        ensures server[i] in step.1 + rest.1
      {
        if i > k {
          assert server[i] in rest.1;
        }
      }
    }
  }

  /** The bulk merge under the timestamp strategy, given server items whose
      ids render distinctly and local items as the collection holds them:
      every server item with no local copy or a strictly newer time is
      stored, and every other id keeps exactly what it held, so ties and
      newer local copies are kept and local-only records are not touched. */
  lemma {:induction false} MergeDataTimestamp(db: Db, local: seq<Record>, server: seq<Record>, store: StoreName, now: int)
    requires DistinctRenderedIds(server) && Stored(db, store, local)
    ensures var d := MergeData(db, local, server, store, ByTimestamp, now).0;
      (forall i :: 0 <= i < |server| && ServerWins(local, server[i]) ==>
         Get(d, store, server[i].id) == Some(server[i])) &&
      (forall k :: k !in WinningIds(local, server) ==> Get(d, store, k) == Get(db, store, k))
  {
    var pass := UpdatePass(db, local, server, store, ByTimestamp, now);
    assert server[0..] == server;
    UpdatePassTimestamp(db, db, local, server, 0, store, now);
    var unseen := NewServerItems(local, server);
    var ws := unseen + pass.1;
    forall i | 0 <= i < |ws| ensures Harmless(db, store, local, server, ws[i]) {
      if i < |unseen| {
        assert ws[i] == unseen[i];
        var j :| 0 <= j < |server| && server[j] == unseen[i];
        assert ServerWins(local, server[j]);
      } else {
        assert ws[i] == pass.1[i - |unseen|];
      }
    }
    SaveAllHarmless(db, pass.0, store, local, server, ws);
    forall i | 0 <= i < |server| && ServerWins(local, server[i]) ensures server[i] in ws {
      if MatchOf(local, server[i]).None? {
        assert server[i] in unseen;
      } else {
        assert server[i] in pass.1;
      }
    }
  }

  /** A shared record with equal times on both sides keeps the local copy in
      the bulk merge, whereas `resolveConflict` alone would take the server's
      copy on a tie. */
  lemma {:induction false} MergeTieKeepsLocal(db: Db, local: seq<Record>, server: seq<Record>, store: StoreName, now: int, i: int)
    requires DistinctRenderedIds(server) && Stored(db, store, local)
    requires 0 <= i < |server| && MatchOf(local, server[i]).Some?
    requires Timestamp(MatchOf(local, server[i]).value) == Timestamp(server[i])
    ensures Get(MergeData(db, local, server, store, ByTimestamp, now).0, store, server[i].id) == Get(db, store, server[i].id)
  {
    MergeDataTimestamp(db, local, server, store, now);
    NotWinningId(local, server, i, server[i].id);
  }

  /** A local record whose id no server item shares is neither overwritten
      nor deleted by the merge. */
  lemma {:induction false} MergeKeepsUnmatchedLocal(db: Db, local: seq<Record>, server: seq<Record>, store: StoreName, now: int, j: int)
    requires DistinctRenderedIds(server) && Stored(db, store, local)
    requires 0 <= j < |local|
    requires forall i :: 0 <= i < |server| ==> KeyToString(server[i].id) != KeyToString(local[j].id)
    ensures Get(MergeData(db, local, server, store, ByTimestamp, now).0, store, local[j].id) == Some(local[j])
  {
    MergeDataTimestamp(db, local, server, store, now);
    forall i | 0 <= i < |server| && ServerWins(local, server[i]) ensures server[i].id != local[j].id {
      assert KeyToString(server[i].id) != KeyToString(local[j].id);
    }
  }
}

=== FILE: entities.dfy ===
/** The data model of the local-first engine: the collections of the local
    store, the entity records they hold, queued sync operations, stored
    conflicts, and what the remote API can answer. */
module Entities {
  import opened Base
  import opened Json

  /** The object stores of the local database. */
  datatype StoreName =
    | Transactions
    | UserSettings
    | Templates
    | QueryCache
    | PendingTransactions
    | SyncQueue
    | Conflicts
    | ShoppingSessions

  function StoreNameString(n: StoreName): string {
    match n
    case Transactions => "transactions"
    case UserSettings => "userSettings"
    case Templates => "templates"
    case QueryCache => "queryCache"
    case PendingTransactions => "pendingTransactions"
    case SyncQueue => "syncQueue"
    case Conflicts => "conflicts"
    case ShoppingSessions => "shoppingSessions"
  }

  /** A transaction, template or shopping session as the local store keeps it:
      its key plus every other property. `createdAt` and `updatedAt` are
      properties like any other and hold dates. */
  datatype Record = Record(id: Key, fields: map<string, Json>)

  const UpdatedAtField: string := "updatedAt"
  const CreatedAtField: string := "createdAt"

  /** `new Date(v).getTime()` for a truthy date-like property; anything the
      model cannot read as a date counts as 0. */
  function DateValue(v: Json): int {
    match v
    case JDate(ms) => ms
    case JNum(n) => n
    case _ => 0
  }

  /** `item.updatedAt ? new Date(item.updatedAt).getTime() : 0` */
  function Timestamp(r: Record): int {
    if UpdatedAtField in r.fields then DateValue(r.fields[UpdatedAtField]) else 0
  }

  /** `{ ...server, ...local }`: every property of `local`, plus the server's
      value for each property `local` lacks. */
  function MergeRecords(server: Record, local: Record): (r: Record)
    ensures r.id == local.id
    ensures r.fields.Keys == server.fields.Keys + local.fields.Keys
    ensures forall f :: f in local.fields ==> r.fields[f] == local.fields[f]
    ensures forall f :: f in server.fields && f !in local.fields ==> r.fields[f] == server.fields[f]
  {
    Record(local.id, server.fields + local.fields)
  }

  /** `{ ...r, [field]: new Date(now) }` */
  function Stamp(r: Record, field: string, now: int): (s: Record)
    ensures s.id == r.id
    ensures s.fields.Keys == r.fields.Keys + {field}
    ensures s.fields[field] == JDate(now)
    ensures forall f :: f in r.fields && f != field ==> s.fields[f] == r.fields[f]
  {
    Record(r.id, r.fields[field := JDate(now)])
  }

  /** The payload `{ id }` of a queued delete. */
  function IdOnly(id: Key): Record {
    Record(id, map[])
  }

  // ---------------------------------------------------------------------
  // Sync queue

  /** The `type` of a queued operation. The queue is untyped storage, so an
      unrecognised type can come back out of it. */
  datatype EntityType =
    | TransactionEntity
    | TemplateEntity
    | ShoppingSessionEntity
    | UnknownEntity(name: string)

  datatype Action = Create | Update | Delete | UnknownAction(name: string)

  datatype SyncOperation = SyncOperation(entity: EntityType, action: Action, data: Record, id: Key)

  datatype Status = Pending | Processing | Failed | ManualResolutionRequired

  /** A queued mutation. `createdAt` is the enqueue time in milliseconds. */
  datatype QueueItem = QueueItem(
    id: string,
    operation: SyncOperation,
    createdAt: int,
    attempts: nat,
    status: Status)

  /** Number of attempts after which an item waits for a human. */
  const MaxAttempts: nat := 5

  // ---------------------------------------------------------------------
  // Conflicts

  datatype Conflict = Conflict(
    id: string,
    storeName: StoreName,
    localItem: Record,
    serverItem: Record,
    createdAt: int,
    resolved: bool)

  // ---------------------------------------------------------------------
  // Remote API

  /** The body of a create response, as far as the engine looks at it: not
      JSON at all, `null` or `false`, a bare number or string (which is a
      valid key), or any other truthy value — an object, whose `id` property
      may hold a key, or `true`. */
  datatype Payload = Unparsable | Falsy | Scalar(key: Key) | NonKey(id: Option<Key>)

  /** What a create branch does with a parsed body: nothing, move the local
      record to a new key, or try to file it under a value that is not a key. */
  datatype NewId = Keep | MoveTo(key: Key) | BadKey

  /** The page's reading, `if (result)` then `id: result`: the whole body
      becomes the new id, so any truthy body that is not a number or a string
      is a bad key. */
  function PageNewId(p: Payload): (r: NewId)
    requires !p.Unparsable?
    ensures r.MoveTo? <==> p.Scalar? && KeyTruthy(p.key)
    ensures r.MoveTo? ==> r.key == p.key
    ensures r.BadKey? <==> p.NonKey?
  {
    match p
    case Falsy => Keep
    case Scalar(k) => if KeyTruthy(k) then MoveTo(k) else Keep
    case NonKey(_) => BadKey
  }

  /** The worker's reading, `if (result && result.id)` then `id: result.id`:
      only an object with a truthy `id` moves the record; a bare number or
      string has no `id` property. */
  function WorkerNewId(p: Payload): (r: NewId)
    requires !p.Unparsable?
    ensures r.MoveTo? <==> p.NonKey? && p.id.Some? && KeyTruthy(p.id.value)
    ensures r.MoveTo? ==> r.key == p.id.value
    ensures !r.BadKey?
  {
    match p
    case NonKey(Some(k)) => if KeyTruthy(k) then MoveTo(k) else Keep
    case _ => Keep
  }

  /** The body the tRPC endpoint returns for a create: an envelope object
      without an `id` property, since the procedure returns `true`. */
  const CreateEnvelope: Payload := NonKey(None)

  /** Against this server the page cannot re-bind a present record and the
      worker never re-binds. */
  lemma {:induction false} ReadingsOfEnvelope()
    ensures PageNewId(CreateEnvelope) == BadKey
    ensures WorkerNewId(CreateEnvelope) == Keep
  {
  }

  /** One remote call: either no response at all (the fetch rejects), or a
      response with its 2xx flag and body. */
  datatype Reply = Unreachable | Response(ok: bool, payload: Payload)
}

=== FILE: json.dfy ===
/** JavaScript values as the engine stores, spreads and serialises them.
    Objects keep their keys in insertion order, which `JSON.stringify` and
    the object spread `{ ...a, ...b }` follow for string keys. JavaScript
    lists integer-like keys (`"2"`) before all others, in ascending order;
    this model does not reorder them. Dates are carried as their millisecond
    timestamp. */
module Json {
  import opened Base

  datatype Json =
    | JNull
    | JBool(b: bool)
    | JNum(n: int)
    | JStr(s: string)
    | JDate(ms: int)
    | JArr(items: seq<Json>)
    | JObj(fields: seq<Field>)

  datatype Field = Field(key: string, val: Json)

  /** JavaScript truthiness (`!!v`). */
  predicate Truthy(v: Json) {
    match v
    case JNull => false
    case JBool(b) => b
    case JNum(n) => n != 0
    case JStr(s) => s != ""
    case _ => true
  }

  /** `typeof v === 'object'`: null, arrays, dates and plain objects. */
  predicate IsObjectType(v: Json) {
    v.JNull? || v.JArr? || v.JDate? || v.JObj?
  }

  predicate HasKey(fs: seq<Field>, k: string) {
    exists i | 0 <= i < |fs| :: fs[i].key == k
  }

  /** Value of property `k` (the first field with that key). */
  function Lookup(fs: seq<Field>, k: string): (r: Option<Json>)
    ensures r.Some? <==> HasKey(fs, k)
  {
    if fs == [] then None
    else if fs[0].key == k then Some(fs[0].val)
    else Lookup(fs[1..], k)
  }

  /** The `rest` of `const { k, ...rest } = o`: every field except `k`, in order. */
  function Without(fs: seq<Field>, k: string): (r: seq<Field>)
    ensures !HasKey(r, k)
    ensures forall i :: 0 <= i < |r| ==> r[i] in fs
  {
    if fs == [] then []
    else if fs[0].key == k then Without(fs[1..], k)
    else [fs[0]] + Without(fs[1..], k)
  }

  /** `{ ...o, k: v }`: an existing property keeps its position and takes the
      new value; a new property goes last. */
  function With(fs: seq<Field>, k: string, v: Json): (r: seq<Field>)
    ensures Lookup(r, k) == Some(v)
  {
    if fs == [] then [Field(k, v)]
    else if fs[0].key == k then [Field(k, v)] + fs[1..]
    else [fs[0]] + With(fs[1..], k, v)
  }

  /** Removing a property that `With` has just added gives back the original
      object: the key was absent, so `With` appended it last. */
  lemma {:induction false} WithoutAfterWith(fs: seq<Field>, k: string, v: Json)
    requires !HasKey(fs, k)
    ensures Without(With(fs, k, v), k) == fs
  {
    if fs == [] {
    } else {
      assert fs[0].key != k;
      assert !HasKey(fs[1..], k) by {
        forall i | 0 <= i < |fs[1..]| ensures fs[1..][i].key != k {
          assert fs[1..][i] == fs[i + 1];
        }
      }
      WithoutAfterWith(fs[1..], k, v);
      var w := With(fs[1..], k, v);
      assert With(fs, k, v) == [fs[0]] + w;
      assert ([fs[0]] + w)[0] == fs[0] && ([fs[0]] + w)[1..] == w;
      assert Without([fs[0]] + w, k) == [fs[0]] + fs[1..];
      assert [fs[0]] + fs[1..] == fs;
    }
  }

  /** A property value used as a store key: strings and numbers are valid
      keys, anything else makes the store operation fail. */
  function JsonKey(v: Json): Option<Key> {
    match v
    case JStr(s) => Some(KStr(s))
    case JNum(n) => Some(KNum(n))
    case _ => None
  }

  /** Index keys "0", "1", ... of an array-like value, as spread copies them. */
  function Indexed(xs: seq<Json>): (r: seq<Field>)
    ensures |r| == |xs|
    ensures forall i :: 0 <= i < |xs| ==> r[i] == Field(NatToString(i), xs[i])
  {
    seq(|xs|, i requires 0 <= i < |xs| => Field(NatToString(i), xs[i]))
  }

  /** The own enumerable properties `{ ...v }` copies: the fields of an object,
      the indices of an array or a string, and nothing for other values. */
  function Spread(v: Json): seq<Field> {
    match v
    case JObj(fs) => fs
    case JArr(xs) => Indexed(xs)
    case JStr(s) => Indexed(seq(|s|, i requires 0 <= i < |s| => JStr([s[i]])))
    case _ => []
  }

  function HexDigit(d: nat): char
    requires d < 16
  {
    "0123456789abcdef"[d]
  }

  /** One character of a JSON string literal. */
  function EscapeChar(c: char): string {
    if c == '"' then "\\\""
    else if c == '\\' then "\\\\"
    else if c as int == 8 then "\\b"
    else if c == '\t' then "\\t"
    else if c == '\n' then "\\n"
    else if c as int == 12 then "\\f"
    else if c == '\r' then "\\r"
    else if c as int < 0x20 then "\\u00" + [HexDigit(c as int / 16), HexDigit(c as int % 16)]
    else [c]
  }

  function Quote(s: string): string {
    "\"" + EscapeString(s) + "\""
  }

  function EscapeString(s: string): string {
    if s == [] then [] else EscapeChar(s[0]) + EscapeString(s[1..])
  }

  /** `JSON.stringify`. A date serialises through its timestamp here; its ISO
      rendering is not modelled. */
  function Stringify(v: Json): string
    decreases v
  {
    match v
    case JNull => "null"
    case JBool(b) => if b then "true" else "false"
    case JNum(n) => IntToString(n)
    case JStr(s) => Quote(s)
    case JDate(ms) => Quote(IntToString(ms))
    case JArr(xs) =>
      "[" + Join(seq(|xs|, i requires 0 <= i < |xs| => Stringify(xs[i])), ",") + "]"
    case JObj(fs) =>
      "{" + Join(seq(|fs|, i requires 0 <= i < |fs| =>
                     assert fs[i] in fs;
                     Quote(fs[i].key) + ":" + Stringify(fs[i].val)), ",") + "}"
  }
}

=== FILE: local_mutations.dfy ===
/** The local-first mutation hooks for transactions, templates and shopping
    sessions. Each mutation writes the local store first and then files one
    operation in the sync queue; the server listing, when it arrives, is
    folded into the local collection with the timestamp strategy. */
module LocalMutations {
  import opened Base
  import opened Json
  import opened Entities
  import opened LocalStore
  import opened ClientQueue
  import opened ConflictResolution

  /** The three kinds of record the hooks manage. */
  datatype Kind = TransactionKind | TemplateKind | SessionKind

  function StoreFor(kind: Kind): StoreName {
    match kind
    case TransactionKind => Transactions
    case TemplateKind => Templates
    case SessionKind => ShoppingSessions
  }

  function EntityFor(kind: Kind): (e: EntityType)
    ensures StoreOf(e) == Some(StoreFor(kind))
  {
    match kind
    case TransactionKind => TransactionEntity
    case TemplateKind => TemplateEntity
    case SessionKind => ShoppingSessionEntity
  }

  /** The fresh record of a create: the caller's fields, the new offline id,
      and both timestamps set to the current time. */
  function NewRecord(fields: map<string, Json>, nonce: string, now: int): (r: Record)
    ensures IsLocalKey(r.id)
    ensures r.fields.Keys == fields.Keys + {CreatedAtField, UpdatedAtField}
    ensures r.fields[CreatedAtField] == JDate(now) && r.fields[UpdatedAtField] == JDate(now)
    ensures forall f :: f in fields && f != CreatedAtField && f != UpdatedAtField ==> r.fields[f] == fields[f]
    ensures Timestamp(r) == now
  {
    Stamp(Stamp(Record(LocalKey(nonce), fields), CreatedAtField, now), UpdatedAtField, now)
  }

  /** The create `mutationFn`: stores the fresh record, enqueues one create
      operation carrying it under queue id `queueId`, and answers the offline
      id. `nonce` and `queueId` stand for the time-and-random id parts. */
  function CreateLocal(db: Db, kind: Kind, fields: map<string, Json>, nonce: string, queueId: string, now: int)
    : (r: (Db, Key))
    ensures IsLocalKey(r.1)
    ensures Get(r.0, StoreFor(kind), r.1) == Some(NewRecord(fields, nonce, now))
    ensures forall k :: k != r.1 ==> Get(r.0, StoreFor(kind), k) == Get(db, StoreFor(kind), k)
    ensures forall n :: n != StoreFor(kind) ==> Table(r.0, n) == Table(db, n)
    ensures queueId in r.0.queue && r.0.queue[queueId].status == Pending && r.0.queue[queueId].attempts == 0
    ensures r.0.queue[queueId].operation ==
            SyncOperation(EntityFor(kind), Create, NewRecord(fields, nonce, now), r.1)
    ensures forall id :: id != queueId ==>
              (id in r.0.queue <==> id in db.queue) && (id in db.queue ==> r.0.queue[id] == db.queue[id])
    ensures r.0.conflicts == db.conflicts
  {
    var rec := NewRecord(fields, nonce, now);
    var db1 := Save(db, StoreFor(kind), rec);
    (Enqueue(db1, SyncOperation(EntityFor(kind), Create, rec, rec.id), queueId, now), rec.id)
  }

  /** The update `mutationFn`: re-stamps `updatedAt`, saves (an upsert, so a
      missing record is created), and enqueues an update under the record's
      id. */
  function UpdateLocal(db: Db, kind: Kind, rec: Record, queueId: string, now: int): (r: (Db, Key))
    ensures r.1 == rec.id
    ensures Get(r.0, StoreFor(kind), rec.id) == Some(Stamp(rec, UpdatedAtField, now))
    ensures Timestamp(Get(r.0, StoreFor(kind), rec.id).value) == now
    ensures forall k :: k != rec.id ==> Get(r.0, StoreFor(kind), k) == Get(db, StoreFor(kind), k)
    ensures forall n :: n != StoreFor(kind) ==> Table(r.0, n) == Table(db, n)
    ensures queueId in r.0.queue && r.0.queue[queueId].status == Pending
    ensures r.0.queue[queueId].operation ==
            SyncOperation(EntityFor(kind), Update, Stamp(rec, UpdatedAtField, now), rec.id)
    ensures forall id :: id != queueId ==>
              (id in r.0.queue <==> id in db.queue) && (id in db.queue ==> r.0.queue[id] == db.queue[id])
  {
    var updated := Stamp(rec, UpdatedAtField, now);
    var db1 := Save(db, StoreFor(kind), updated);
    (Enqueue(db1, SyncOperation(EntityFor(kind), Update, updated, rec.id), queueId, now), rec.id)
  }

  /** The delete `mutationFn`: throws (None) and changes nothing when no
      record has the id; otherwise removes it and enqueues a delete whose
      payload is `{ id }`. */
  function DeleteLocal(db: Db, kind: Kind, id: Key, queueId: string, now: int): (r: Option<Db>)
    ensures r.None? <==> Get(db, StoreFor(kind), id).None?
    ensures r.Some? ==> Get(r.value, StoreFor(kind), id) == None
    ensures r.Some? ==> forall k :: k != id ==> Get(r.value, StoreFor(kind), k) == Get(db, StoreFor(kind), k)
    ensures r.Some? ==> forall n :: n != StoreFor(kind) ==> Table(r.value, n) == Table(db, n)
    ensures r.Some? ==> queueId in r.value.queue && r.value.queue[queueId].status == Pending
    ensures r.Some? ==> r.value.queue[queueId].operation == SyncOperation(EntityFor(kind), Delete, IdOnly(id), id)
    ensures r.Some? ==> forall q :: q != queueId ==>
              (q in r.value.queue <==> q in db.queue) && (q in db.queue ==> r.value.queue[q] == db.queue[q])
  {
    if Get(db, StoreFor(kind), id).None? then None
    else
      var db1 := Remove(db, StoreFor(kind), Some(id));
      Some(Enqueue(db1, SyncOperation(EntityFor(kind), Delete, IdOnly(id), id), queueId, now))
  }

  /** Creating a record and deleting it again leaves the collection as it
      was, with a create followed by a delete of the same id in the queue. */
  lemma {:induction false} CreateThenDelete(db: Db, kind: Kind, fields: map<string, Json>, nonce: string, q1: string, q2: string, now: int)
    requires LocalKey(nonce) !in Table(db, StoreFor(kind))
    requires q1 != q2
    ensures var (db1, id) := CreateLocal(db, kind, fields, nonce, q1, now);
      var db2 := DeleteLocal(db1, kind, id, q2, now);
      db2.Some? && Table(db2.value, StoreFor(kind)) == Table(db, StoreFor(kind)) &&
      db2.value.queue[q1].operation.action == Create && db2.value.queue[q2].operation.action == Delete &&
      db2.value.queue[q1].operation.id == id && db2.value.queue[q2].operation.id == id
  {
    var (db1, id) := CreateLocal(db, kind, fields, nonce, q1, now);
    var db2 := DeleteLocal(db1, kind, id, q2, now);
    var store := StoreFor(kind);
    assert Table(db2.value, store) == Table(db, store) by {
      forall k ensures k in Table(db2.value, store) <==> k in Table(db, store) {
        assert Get(db2.value, store, k).Some? <==> Get(db, store, k).Some?;
      }
      forall k | k in Table(db, store) ensures Table(db2.value, store)[k] == Table(db, store)[k] {
        assert Get(db2.value, store, k) == Get(db, store, k);
      }
    }
  }

  // ---------------------------------------------------------------------
  // Merging the server listing

  /** `xs.map(x => ({ ...x, [field]: new Date(now) }))` */
  function StampAll(xs: seq<Record>, field: string, now: int): (r: seq<Record>)
    ensures |r| == |xs|
    ensures forall i :: 0 <= i < |r| ==> r[i] == Stamp(xs[i], field, now)
  {
    if xs == [] then [] else [Stamp(xs[0], field, now)] + StampAll(xs[1..], field, now)
  }

  /** The server listing as the `onSuccess` handler passes it on: a non-array
      answer counts as empty, and templates and sessions get `createdAt`
      overwritten with the current time. */
  function ServerItems(kind: Kind, serverData: Option<seq<Record>>, now: int): (r: seq<Record>)
    ensures serverData.None? ==> r == []
    ensures serverData.Some? ==> |r| == |serverData.value|
    ensures serverData.Some? ==> forall i :: 0 <= i < |r| ==>
              r[i].id == serverData.value[i].id &&
              if kind == TransactionKind then r[i] == serverData.value[i]
              else r[i] == Stamp(serverData.value[i], CreatedAtField, now)
  {
    match serverData
    case None => []
    case Some(xs) => if kind == TransactionKind then xs else StampAll(xs, CreatedAtField, now)
  }

  /** The server-query `onSuccess`: reads every local record of the kind and
      merges the server listing into them with the timestamp strategy. When
      the server's ids render distinctly, each server item with no local copy
      or a strictly newer time is stored (stamped as the listing passes it
      on), and every other id keeps what it held. */
  method ServerMerge(db: Db, kind: Kind, serverData: Option<seq<Record>>, now: int)
    returns (db': Db, local: seq<Record>, server: seq<Record>)
    requires WellKeyed(Table(db, StoreFor(kind)))
    ensures server == ServerItems(kind, serverData, now)
    ensures Stored(db, StoreFor(kind), local)
    ensures forall k :: k in Table(db, StoreFor(kind)) ==> exists j | 0 <= j < |local| :: local[j].id == k
    ensures DistinctRenderedIds(server) ==>
              (forall i :: 0 <= i < |server| && ServerWins(local, server[i]) ==>
                 Get(db', StoreFor(kind), server[i].id) == Some(server[i])) &&
              (forall k :: k !in WinningIds(local, server) ==> Get(db', StoreFor(kind), k) == Get(db, StoreFor(kind), k))
    ensures db'.queue == db.queue && db'.conflicts == db.conflicts
    ensures forall n :: n != StoreFor(kind) ==> Table(db', n) == Table(db, n)
  {
    var store := StoreFor(kind);
    var ks, vs := GetAll(Table(db, store));
    local := vs;
    forall j | 0 <= j < |local| ensures Get(db, store, local[j].id) == Some(local[j]) {
      assert local[j].id == ks[j];
    }
    forall k | k in Table(db, store) ensures exists j | 0 <= j < |local| :: local[j].id == k {
      var j :| 0 <= j < |ks| && ks[j] == k;
      assert local[j].id == k;
    }
    server := ServerItems(kind, serverData, now);
    var merged := MergeData(db, local, server, store, ByTimestamp, now);
    db' := merged.0;
    if DistinctRenderedIds(server) {
      MergeDataTimestamp(db, local, server, store, now);
    }
  }
}

=== FILE: local_store.dfy ===
/** The on-device database: versioned schema upgrades, and the put / get /
    delete / clear operations every other component goes through. Every
    collection is a map from key to value; the value's own `id` is its key. */
module LocalStore {
  import opened Base
  import opened Json
  import opened Entities

  // ---------------------------------------------------------------------
  // Schema and versions

  datatype Schema = Schema(version: nat, stores: set<StoreName>)

  /** The object stores the client creates when it opens version 1. */
  const Version1Stores: set<StoreName> :=
    {Transactions, UserSettings, Templates, QueryCache, PendingTransactions}

  /** `if (!db.objectStoreNames.contains(name)) db.createObjectStore(name)` */
  function CreateIfAbsent(stores: set<StoreName>, name: StoreName): set<StoreName> {
    if name in stores then stores else stores + {name}
  }

  /** The client's upgrade handler: one guarded creation per store. */
  function InitUpgrade(stores: set<StoreName>): (r: set<StoreName>)
    ensures r == stores + Version1Stores
  {
    var s1 := CreateIfAbsent(stores, Transactions);
    var s2 := CreateIfAbsent(s1, UserSettings);
    var s3 := CreateIfAbsent(s2, Templates);
    var s4 := CreateIfAbsent(s3, QueryCache);
    CreateIfAbsent(s4, PendingTransactions)
  }

  /** Re-running the upgrade against an upgraded store changes nothing. */
  lemma {:induction false} InitUpgradeIdempotent(stores: set<StoreName>)
    ensures InitUpgrade(InitUpgrade(stores)) == InitUpgrade(stores)
  {
  }

  /** The client's upgrade never creates the queue, conflict or shopping-session
      stores: they exist afterwards only if they existed before. */
  lemma {:induction false} InitUpgradeOmitsSyncStores(stores: set<StoreName>)
    ensures SyncQueue in InitUpgrade(stores) <==> SyncQueue in stores
    ensures Conflicts in InitUpgrade(stores) <==> Conflicts in stores
    ensures ShoppingSessions in InitUpgrade(stores) <==> ShoppingSessions in stores
  {
  }

  /** `indexedDB.open(name, target)`: a stored version newer than the target
      fails (VersionError); an older one runs the upgrade handler, which
      receives the old version; an equal one opens as is. */
  function Open(s: Schema, target: nat, upgrade: (nat, set<StoreName>) -> set<StoreName>): (r: Option<Schema>)
    ensures r.None? <==> s.version > target
    ensures r.Some? ==> r.value.version == target
    ensures s.version == target ==> r == Some(s)
    ensures s.version < target ==> r == Some(Schema(target, upgrade(s.version, s.stores)))
  {
    if s.version > target then None
    else if s.version < target then Some(Schema(target, upgrade(s.version, s.stores)))
    else Some(s)
  }

  /** The client's `initDB`: version 1 with the upgrade above. */
  function InitDB(s: Schema): Option<Schema> {
    Open(s, 1, (oldVersion: nat, stores: set<StoreName>) => InitUpgrade(stores))
  }

  // ---------------------------------------------------------------------
  // Contents

  /** Each value is filed under its own `id` (the stores' key path). */
  predicate WellKeyed(t: map<Key, Record>) {
    forall k :: k in t ==> t[k].id == k
  }

  /** The contents of the database: the entity collections, the sync queue and
      the conflict collection. */
  datatype Db = Db(
    data: map<StoreName, map<Key, Record>>,
    queue: map<string, QueueItem>,
    conflicts: map<string, Conflict>)

  function Table(db: Db, name: StoreName): map<Key, Record> {
    if name in db.data then db.data[name] else map[]
  }

  /** `store.get(key)` */
  function Get(db: Db, name: StoreName, k: Key): Option<Record> {
    var t := Table(db, name);
    if k in t then Some(t[k]) else None
  }

  /** `saveToIndexedDB(name, record)`: `store.put`, an upsert by `id`. */
  function Save(db: Db, name: StoreName, r: Record): (db': Db)
    ensures Get(db', name, r.id) == Some(r)
    ensures forall k :: k != r.id ==> Get(db', name, k) == Get(db, name, k)
    ensures forall n :: n != name ==> Table(db', n) == Table(db, n)
    ensures db'.queue == db.queue && db'.conflicts == db.conflicts
    ensures WellKeyed(Table(db, name)) ==> WellKeyed(Table(db', name))
  {
    db.(data := db.data[name := Table(db, name)[r.id := r]])
  }

  /** A second save under the same id replaces the first. */
  lemma {:induction false} SaveSameIdReplaces(db: Db, name: StoreName, a: Record, b: Record)
    requires a.id == b.id
    ensures Save(Save(db, name, a), name, b) == Save(db, name, b)
  {
    var t := Table(db, name);
    assert Table(Save(db, name, a), name) == t[a.id := a];
    assert t[a.id := a][b.id := b] == t[b.id := b];
  }

  /** The last of `items` filed under `k`. */
  function LastWithId(items: seq<Record>, k: Key): (r: Option<Record>)
    ensures r.Some? ==> r.value in items && r.value.id == k
    ensures r.None? <==> forall i :: 0 <= i < |items| ==> items[i].id != k
  {
    if items == [] then None
    else if items[|items| - 1].id == k then Some(items[|items| - 1])
    else
      var r := LastWithId(items[..|items| - 1], k);
      assert forall i :: 0 <= i < |items| - 1 ==> items[..|items| - 1][i] == items[i];
      r
  }

  /** One save after another, in order: every key ends up holding the last
      item saved under it, and keys no item mentions keep their record. */
  function SaveAll(db: Db, name: StoreName, items: seq<Record>): (db': Db)
    ensures forall k :: LastWithId(items, k).Some? ==> Get(db', name, k) == LastWithId(items, k)
    ensures forall k :: LastWithId(items, k).None? ==> Get(db', name, k) == Get(db, name, k)
    ensures forall n :: n != name ==> Table(db', n) == Table(db, n)
    ensures db'.queue == db.queue && db'.conflicts == db.conflicts
  {
    if items == [] then db
    else Save(SaveAll(db, name, items[..|items| - 1]), name, items[|items| - 1])
  }

  /** `removeFromIndexedDB(name, key)`: deletes one record when a key is given,
      clears the whole store otherwise. */
  function Remove(db: Db, name: StoreName, key: Option<Key>): (db': Db)
    ensures key.Some? ==> Get(db', name, key.value) == None
    ensures key.Some? ==> forall k :: k != key.value ==> Get(db', name, k) == Get(db, name, k)
    ensures key.None? ==> Table(db', name) == map[]
    ensures forall n :: n != name ==> Table(db', n) == Table(db, n)
    ensures db'.queue == db.queue && db'.conflicts == db.conflicts
    ensures WellKeyed(Table(db, name)) ==> WellKeyed(Table(db', name))
  {
    match key
    case Some(k) => db.(data := db.data[name := Table(db, name) - {k}])
    case None => db.(data := db.data[name := map[]])
  }

  // ---------------------------------------------------------------------
  // Saving an array

  /** The last element of `items` filed under `k` whose put succeeded. */
  function LastStored(items: seq<Record>, ok: seq<bool>, k: Key): Option<Record>
    requires |ok| == |items|
  {
    if items == [] then None
    else if ok[|items| - 1] && items[|items| - 1].id == k then Some(items[|items| - 1])
    else LastStored(items[..|items| - 1], ok[..|items| - 1], k)
  }

  /** `saveToIndexedDB(name, array)`: one put per element, in order, each
      succeeding or failing on its own (`ok[i]`). The promise resolves true
      only when every put succeeded, at once for an empty array. */
  function PutAll(t: map<Key, Record>, items: seq<Record>, ok: seq<bool>): (r: (map<Key, Record>, bool))
    requires |ok| == |items|
    ensures r.1 <==> forall i :: 0 <= i < |ok| ==> ok[i]
    ensures forall k :: LastStored(items, ok, k).Some? ==>
              k in r.0 && r.0[k] == LastStored(items, ok, k).value
    ensures forall k :: LastStored(items, ok, k).None? ==>
              (k in r.0 <==> k in t) && (k in t ==> r.0[k] == t[k])
  {
    if items == [] then (t, true)
    else
      var n := |items| - 1;
      var prev := PutAll(t, items[..n], ok[..n]);
      var t' := if ok[n] then prev.0[items[n].id := items[n]] else prev.0;
      assert forall i :: 0 <= i < n ==> ok[..n][i] == ok[i];
      (t', prev.1 && ok[n])
  }

  // ---------------------------------------------------------------------
  // Reading every record

  /** `store.getAll()`: every key once, with its value, in an order the
      engine chooses. */
  method GetAll<K, V>(t: map<K, V>) returns (ks: seq<K>, vs: seq<V>)
    ensures |ks| == |vs| == |t|
    ensures forall i :: 0 <= i < |ks| ==> ks[i] in t && vs[i] == t[ks[i]]
    ensures forall k :: k in t ==> k in ks
    ensures forall i, j :: 0 <= i < j < |ks| ==> ks[i] != ks[j]
  {
    var rest := t.Keys;
    ks, vs := [], [];
    while rest != {}
      invariant rest <= t.Keys
      invariant |ks| == |vs|
      invariant forall i :: 0 <= i < |ks| ==> ks[i] in t && ks[i] !in rest && vs[i] == t[ks[i]]
      invariant forall k :: k in t ==> k in rest || k in ks
      invariant forall i, j :: 0 <= i < j < |ks| ==> ks[i] != ks[j]
      invariant |ks| + |rest| == |t.Keys|
      decreases rest
    {
      var k :| k in rest;
      ks, vs := ks + [k], vs + [t[k]];
      rest := rest - {k};
    }
  }

  /** What `getFromIndexedDB` resolved to, as the callers see it: nothing, a
      single value, an array, or a rejection they catch. */
  datatype Fetched<V> = Missing | Single(v: V) | Listed(vs: seq<V>) | Rejected

  /** The callers' normalisation `!result ? [] : Array.isArray(result) ?
      result : [result]`, with a caught rejection also giving `[]`. */
  function AsList<V>(f: Fetched<V>): (r: seq<V>)
    ensures f.Missing? || f.Rejected? ==> r == []
    ensures f.Single? ==> r == [f.v]
    ensures f.Listed? ==> r == f.vs
  {
    match f
    case Missing => []
    case Rejected => []
    case Single(v) => [v]
    case Listed(vs) => vs
  }

  // ---------------------------------------------------------------------
  // Date-based cleanup

  /** The date in property `field`, when it is truthy and readable as a date. */
  function DateOf(r: Record, field: string): Option<int> {
    if field !in r.fields then None
    else
      match r.fields[field]
      case JDate(ms) => Some(ms)
      case JNum(n) => if n != 0 then Some(n) else None
      case _ => None
  }

  predicate OlderThan(r: Record, field: string, olderThan: int) {
    var d := DateOf(r, field);
    d.Some? && d.value < olderThan
  }

  /** Reads every value, keeps those `doomed` selects, and deletes each of them
      by its own id: exactly the selected entries disappear, and the count of
      deletions is returned. */
  method DeleteWhere<K, V>(t: map<K, V>, doomed: V -> bool, idOf: V -> K)
    returns (t': map<K, V>, deleted: nat)
    requires forall k :: k in t ==> idOf(t[k]) == k
    ensures forall k :: k in t' <==> k in t && !doomed(t[k])
    ensures forall k :: k in t' ==> t'[k] == t[k]
    ensures deleted == |t| - |t'|
    ensures deleted == 0 <==> forall k :: k in t ==> !doomed(t[k])
  {
    var ks, all := GetAll(t);
    t', deleted := t, 0;
    var removed: set<K> := {};
    var i := 0;
    while i < |all|
      invariant 0 <= i <= |all|
      invariant forall k :: k in t' ==> k in t && t'[k] == t[k]
      invariant forall j :: 0 <= j < |ks| ==> (ks[j] in t' <==> i <= j || !doomed(t[ks[j]]))
      invariant forall k :: k in removed <==> k in t && k !in t'
      invariant deleted == |removed| == |t| - |t'|
    {
      var item := all[i];
      ghost var before := t';
      if doomed(item) {
        assert idOf(item) == ks[i] && ks[i] in t';
        t', deleted := t' - {ks[i]}, deleted + 1;
        removed := removed + {ks[i]};
      }
      assert forall j :: 0 <= j < |ks| && j != i ==> (ks[j] in t' <==> ks[j] in before);
      i := i + 1;
    }
    assert forall k :: k in t ==> k in ks;
    if forall k :: k in t ==> !doomed(t[k]) {
      assert removed == {};
    }
  }

  function RecordId(r: Record): Key {
    r.id
  }

  /** `cleanupOldData(name, olderThan, field)`: deletes exactly the records
      whose date in `field` is earlier than `olderThan` and reports how many;
      every other record stays as it was. */
  method CleanupOldData(t: map<Key, Record>, olderThan: int, field: string)
    returns (t': map<Key, Record>, deleted: nat)
    requires WellKeyed(t)
    ensures forall k :: k in t' <==> k in t && !OlderThan(t[k], field, olderThan)
    ensures forall k :: k in t' ==> t'[k] == t[k]
    ensures deleted == |t| - |t'|
    ensures deleted == 0 <==> forall k :: k in t ==> !OlderThan(t[k], field, olderThan)
  {
    t', deleted := DeleteWhere(t, (r: Record) => OlderThan(r, field, olderThan), RecordId);
  }
}

=== FILE: query_params.dfy ===
/** The transactions page's reading of its URL: a free-text description, a
    page number, and a tag list written `[tag1,tag2]`. A malformed page or tag
    list sends the browser back, but the page still computes its values from
    what it was given. */
module QueryParams {
  import opened Base

  /** A JavaScript number as `Number(...)` produces it; the string grammar
      of `Number` is not modelled, so the parameter arrives already
      converted. */
  datatype JsNumber = NaN | Finite(v: real)

  /** The three search parameters, each possibly absent. */
  datatype Search = Search(description: Option<string>, page: Option<JsNumber>, tags: Option<string>)

  /** What the page renders with, and whether it asked to go back. */
  datatype View = View(goesBack: bool, description: string, page: JsNumber, tags: seq<string>)

  // ---------------------------------------------------------------------
  // The tag-list pattern

  /** `[a-zA-Z0-9_]` */
  predicate IsWordChar(c: char) {
    ('a' <= c <= 'z') || ('A' <= c <= 'Z') || ('0' <= c <= '9') || c == '_'
  }

  predicate AllWord(p: string) {
    forall i :: 0 <= i < |p| ==> IsWordChar(p[i])
  }

  /** The part of `[a-zA-Z0-9_]+(,[a-zA-Z0-9_]+)*` after its first
      character: more word characters, or a comma followed by a word
      character. */
  predicate ScanRest(t: string)
    decreases |t|
  {
    t == [] ||
    (IsWordChar(t[0]) && ScanRest(t[1..])) ||
    (t[0] == ',' && |t| > 1 && IsWordChar(t[1]) && ScanRest(t[2..]))
  }

  /** `[a-zA-Z0-9_]+(,[a-zA-Z0-9_]+)*` over the whole of `t`. */
  predicate ScanList(t: string) {
    t != [] && IsWordChar(t[0]) && ScanRest(t[1..])
  }

  /** `/^\[[a-zA-Z0-9_]+(,[a-zA-Z0-9_]+)*]$/.test(s)` */
  predicate TagPattern(s: string) {
    |s| >= 2 && s[0] == '[' && s[|s| - 1] == ']' && ScanList(s[1..|s| - 1])
  }

  /** Every piece is a non-empty word. */
  predicate WordPieces(ps: seq<string>) {
    forall i :: 0 <= i < |ps| ==> ps[i] != [] && AllWord(ps[i])
  }

  /** Every piece after the first is a non-empty word. */
  predicate TailWords(ps: seq<string>) {
    forall i :: 1 <= i < |ps| ==> ps[i] != [] && AllWord(ps[i])
  }

  lemma {:induction false} AllWordCons(c: char, p: string)
    ensures AllWord([c] + p) <==> IsWordChar(c) && AllWord(p)
  {
    if AllWord([c] + p) {
      assert ([c] + p)[0] == c;
      forall i | 0 <= i < |p| ensures IsWordChar(p[i]) {
        assert ([c] + p)[i + 1] == p[i];
      }
    }
    if IsWordChar(c) && AllWord(p) {
      forall i | 0 <= i < |[c] + p| ensures IsWordChar(([c] + p)[i]) {
        if i > 0 {
          assert ([c] + p)[i] == p[i - 1];
        }
      }
    }
  }

  lemma {:induction false} TailWordsCons(x: string, ps: seq<string>)
    ensures TailWords([x] + ps) <==> (ps != [] ==> ps[0] != [] && AllWord(ps[0])) && TailWords(ps)
  {
    var r := [x] + ps;
    assert forall i :: 0 <= i < |ps| ==> r[i + 1] == ps[i];
    if TailWords(r) {
      forall i | 1 <= i < |ps| ensures ps[i] != [] && AllWord(ps[i]) {
        assert r[i + 1] == ps[i];
      }
    }
    if (ps != [] ==> ps[0] != [] && AllWord(ps[0])) && TailWords(ps) {
      forall i | 1 <= i < |r| ensures r[i] != [] && AllWord(r[i]) {
        assert r[i] == ps[i - 1];
      }
    }
  }

  /** The scanner accepts exactly the strings whose comma-separated pieces
      are words, the first possibly empty. */
  lemma {:induction false} ScanRestSplit(t: string)
    ensures ScanRest(t) <==> AllWord(Split(t, ',')[0]) && TailWords(Split(t, ','))
    decreases |t|
  {
    if t != [] {
      var r := Split(t, ',');
      if t[0] == ',' {
        var u := t[1..];
        assert r == [[]] + Split(u, ',');
        if |t| > 1 {
          var ru := Split(u, ',');
          if IsWordChar(t[1]) {
            ScanRestSplit(t[2..]);
            assert u[1..] == t[2..];
            var rr := Split(t[2..], ',');
            assert ru == [[t[1]] + rr[0]] + rr[1..];
            AllWordCons(t[1], rr[0]);
            TailWordsCons([], ru);
            TailWordsCons([t[1]] + rr[0], rr[1..]);
            assert rr == [rr[0]] + rr[1..];
          } else {
            assert r[1] == ru[0];
            if u[0] != ',' {
              assert ru[0][0] == t[1];
            }
          }
        } else {
          assert r[1] == [];
        }
      } else {
        var rest := Split(t[1..], ',');
        ScanRestSplit(t[1..]);
        assert r == [[t[0]] + rest[0]] + rest[1..];
        AllWordCons(t[0], rest[0]);
        TailWordsCons([t[0]] + rest[0], rest[1..]);
        TailWordsCons(rest[0], rest[1..]);
        assert rest == [rest[0]] + rest[1..];
      }
    }
  }

  /** The whole-list pattern: a non-empty list of non-empty words. */
  lemma {:induction false} ScanListSplit(t: string)
    ensures ScanList(t) <==> WordPieces(Split(t, ','))
  {
    ScanRestSplit(t);
    var r := Split(t, ',');
    if t != [] {
      if t[0] == ',' {
        assert r[0] == [];
      } else {
        var rest := Split(t[1..], ',');
        ScanRestSplit(t[1..]);
        assert r == [[t[0]] + rest[0]] + rest[1..];
        assert r[0][0] == t[0];
        AllWordCons(t[0], rest[0]);
      }
    } else {
      assert r == [[]];
    }
  }

  // ---------------------------------------------------------------------
  // Reading the parameters

  /** `searchTags.slice(1, -1).split(',').filter(Boolean)` */
  function ParseTags(searchTags: string): (r: seq<string>)
    ensures forall i :: 0 <= i < |r| ==> r[i] != [] && ',' !in r[i]
  {
    Filter(Split(JsSlice(searchTags, 1, -1), ','), (p: string) => p != [])
  }

  /** An absent or empty `tags` parameter means no tags. */
  lemma {:induction false} ParseNoTags()
    ensures ParseTags("") == []
  {
    assert JsSlice("", 1, -1) == "";
    assert Split("", ',') == [""];
  }

  /** The pieces between the brackets of an accepted value are words. */
  lemma {:induction false} AcceptedPieces(s: string)
    requires TagPattern(s)
    ensures WordPieces(Split(s[1..|s| - 1], ','))
  {
    ScanListSplit(s[1..|s| - 1]);
  }

  /** An accepted tag list parses into a non-empty list of words that
      renders back to the parameter. */
  lemma {:induction false} AcceptedTagsRoundTrip(s: string)
    requires TagPattern(s)
    ensures var tags := ParseTags(s);
      tags != [] && WordPieces(tags) &&
      "[" + Join(tags, ",") + "]" == s
  {
    var inner := s[1..|s| - 1];
    var pieces := Split(inner, ',');
    AcceptedPieces(s);
    assert JsSlice(s, 1, -1) == inner;
    FilterAll(pieces, (p: string) => p != []);
    assert ParseTags(s) == pieces;
    JoinSplit(inner, ',');
    assert s == "[" + inner + "]";
  }

  /** Conversely, any non-empty list of words renders to an accepted value
      that parses back to the same list. */
  lemma {:induction false} RenderedTagsAccepted(tags: seq<string>)
    requires tags != [] && WordPieces(tags)
    ensures TagPattern("[" + Join(tags, ",") + "]")
    ensures ParseTags("[" + Join(tags, ",") + "]") == tags
  {
    var inner := Join(tags, ",");
    var s := "[" + inner + "]";
    forall i | 0 <= i < |tags| ensures ',' !in tags[i] {
      assert !IsWordChar(',');
    }
    SplitJoin(tags, ',');
    ScanListSplit(inner);
    assert s[1..|s| - 1] == inner;
    assert JsSlice(s, 1, -1) == inner;
    FilterAll(tags, (p: string) => p != []);
  }

  /** A present page that is NaN or below 1 sends the browser back. */
  predicate BadPage(page: Option<JsNumber>) {
    page.Some? && (page.value.NaN? || page.value.v < 1.0)
  }

  /** The page's reading of its search parameters. */
  function ReadParams(q: Search): (v: View)
    ensures v.goesBack <==> BadPage(q.page) || (q.tags.Some? && q.tags.value != "" && !TagPattern(q.tags.value))
    ensures q.description.None? ==> v.description == ""
    ensures q.description.Some? ==> v.description == q.description.value
    ensures q.page.None? ==> v.page == Finite(1.0)
    ensures q.page.Some? ==> v.page == q.page.value
    ensures q.tags.Some? && q.tags.value != "" && TagPattern(q.tags.value) ==>
              v.tags != [] && "[" + Join(v.tags, ",") + "]" == q.tags.value
    ensures q.tags.None? || q.tags == Some("") ==> v.tags == []
  {
    var description := if q.description.Some? then q.description.value else "";
    var searchTags := if q.tags.Some? then q.tags.value else "";
    var badTags := searchTags != "" && !TagPattern(searchTags);
    var page := if q.page.None? then Finite(1.0) else q.page.value;
    var tags := ParseTags(searchTags);
    assert TagPattern(searchTags) && searchTags != "" ==> tags != [] && "[" + Join(tags, ",") + "]" == searchTags by {
      if TagPattern(searchTags) && searchTags != "" {
        AcceptedTagsRoundTrip(searchTags);
      }
    }
    assert searchTags == "" ==> tags == [] by {
      ParseNoTags();
    }
    View(BadPage(q.page) || badTags, description, page, tags)
  }
}

=== FILE: security.dfy ===
/** Cache hygiene for locally stored data: recognising and masking sensitive
    properties, HTML-escaping strings before caching, and sealing records with
    a 32-bit checksum that is verified (and stripped) when they are read
    back. */
module Security {
  import opened Base
  import opened Json
  import opened LocalStore

  // ---------------------------------------------------------------------
  // Sensitive data

  const SensitiveWords: seq<string> := ["password", "token", "secret", "credit", "card", "cvv", "ssn", "social"]

  /** The lower-cased key contains one of the sensitive words. */
  predicate IsSensitiveKey(key: string) {
    exists w | w in SensitiveWords :: Contains(Lower(key), w)
  }

  /** `isSensitiveData(v)`: a truthy object some of whose own keys is
      sensitive. Arrays are objects whose keys are their indices. */
  predicate IsSensitiveData(v: Json) {
    Truthy(v) && IsObjectType(v) &&
    exists i | 0 <= i < |Spread(v)| :: IsSensitiveKey(Spread(v)[i].key)
  }

  /** A string of digits contains no sensitive word: every word starts with a
      letter. */
  lemma {:induction false} DigitsNotSensitive(s: string)
    requires forall i :: 0 <= i < |s| ==> IsDigit(s[i])
    ensures !IsSensitiveKey(s)
  {
    var low := Lower(s);
    forall w | w in SensitiveWords ensures !Contains(low, w) {
      assert |w| > 0 && !IsDigit(w[0]);
      forall j | 0 <= j <= |low| - |w| ensures !OccursAt(low, w, j) {
        assert low[j..j + |w|][0] == low[j] == LowerChar(s[j]) == s[j];
      }
    }
  }

  /** An array is never sensitive, whatever its elements hold. */
  lemma {:induction false} ArraysNeverSensitive(xs: seq<Json>)
    ensures !IsSensitiveData(JArr(xs))
  {
    forall i | 0 <= i < |xs| ensures !IsSensitiveKey(Spread(JArr(xs))[i].key) {
      DigitsNotSensitive(NatToString(i));
    }
  }

  /** `secureCacheData(key, v)`: sensitive data is refused (null), anything
      else passes through unchanged. */
  function SecureCacheData(v: Json): (r: Option<Json>)
    ensures r.None? <==> IsSensitiveData(v)
    ensures r.Some? ==> r.value == v
  {
    if IsSensitiveData(v) then None else Some(v)
  }

  const Stars: string := "********"

  /** `maskSensitiveData(v)`: a copy of a truthy object in which sensitive
      properties read `********` and other object-valued properties are
      masked in turn; anything else is returned as it is. Spreading an array
      copies its index properties into a plain object, and a date has none. */
  function Mask(v: Json): (r: Json)
    ensures !Truthy(v) || !IsObjectType(v) ==> r == v
    decreases v, 0
  {
    if !Truthy(v) || !IsObjectType(v) then v
    else match v
      case JObj(fs) =>
        JObj(seq(|fs|, i requires 0 <= i < |fs| =>
               assert fs[i] in fs;
               MaskEntry(fs[i].key, fs[i].val)))
      case JArr(xs) => JObj(seq(|xs|, i requires 0 <= i < |xs| => MaskEntry(NatToString(i), xs[i])))
      case _ => JObj([])
  }

  function MaskEntry(key: string, val: Json): (f: Field)
    decreases val, 1
  {
    if IsSensitiveKey(key) then Field(key, JStr(Stars))
    else if IsObjectType(val) then Field(key, Mask(val))
    else Field(key, val)
  }

  /** No secret is visible: every sensitive property reads `********`, at any
      depth of nested objects. */
  predicate Masked(v: Json)
    decreases v
  {
    v.JObj? ==>
      forall i :: 0 <= i < |v.fields| ==>
        (IsSensitiveKey(v.fields[i].key) ==> v.fields[i].val == JStr(Stars)) &&
        (assert v.fields[i] in v.fields; Masked(v.fields[i].val))
  }

  /** Masking keeps the keys of what it copies, in order, hides every
      sensitive value at any depth, and changes nothing else: a property
      with a harmless key keeps a plain value, and an object value is
      masked in turn. */
  lemma {:induction false} MaskHides(v: Json)
    ensures Masked(Mask(v))
    ensures Truthy(v) && IsObjectType(v) ==>
              Mask(v).JObj? && |Mask(v).fields| == |Spread(v)| &&
              forall i :: 0 <= i < |Spread(v)| ==> Mask(v).fields[i].key == Spread(v)[i].key
    ensures Truthy(v) && IsObjectType(v) ==>
              forall i :: 0 <= i < |Spread(v)| && !IsSensitiveKey(Spread(v)[i].key) ==>
                Mask(v).fields[i].val == if IsObjectType(Spread(v)[i].val) then Mask(Spread(v)[i].val) else Spread(v)[i].val
    decreases v
  {
    if Truthy(v) && IsObjectType(v) {
      var fs := Spread(v);
      var r := Mask(v);
      assert |r.fields| == |fs|;
      forall i | 0 <= i < |fs| ensures r.fields[i] == MaskEntry(fs[i].key, fs[i].val) {
      }
      forall i | 0 <= i < |fs| ensures Masked(r.fields[i].val) {
        var val := fs[i].val;
        assert val < v by {
          if v.JObj? { assert v.fields[i] in v.fields; }
        }
        if !IsSensitiveKey(fs[i].key) && IsObjectType(val) {
          MaskHides(val);
        }
      }
    }
  }

  /** Masking twice is masking once. */
  lemma {:induction false} MaskIdempotent(v: Json)
    ensures Mask(Mask(v)) == Mask(v)
    decreases v
  {
    if Truthy(v) && IsObjectType(v) {
      var fs := Spread(v);
      var r := Mask(v);
      MaskHides(v);
      forall i | 0 <= i < |fs| ensures r.fields[i] == MaskEntry(fs[i].key, fs[i].val) {
      }
      forall i | 0 <= i < |fs|
        ensures MaskEntry(r.fields[i].key, r.fields[i].val) == r.fields[i]
      {
        var val := fs[i].val;
        assert val < v by {
          if v.JObj? { assert v.fields[i] in v.fields; }
        }
        if !IsSensitiveKey(fs[i].key) && IsObjectType(val) {
          MaskIdempotent(val);
        }
      }
      assert Mask(r) == r;
    }
  }

  /** Masking does not make data cacheable: the sensitive keys are still
      there, so `secureCacheData` still refuses the masked copy. */
  lemma {:induction false} MaskedStillRefused(v: Json)
    requires IsSensitiveData(v)
    ensures SecureCacheData(Mask(v)).None?
  {
    MaskHides(v);
    var i :| 0 <= i < |Spread(v)| && IsSensitiveKey(Spread(v)[i].key);
    assert IsSensitiveKey(Spread(Mask(v))[i].key);
  }

  // ---------------------------------------------------------------------
  // HTML escaping

  /** `s.replace(/c/g, rep)` for a single character `c`. */
  function ReplaceAll(s: string, c: char, rep: string): (r: string)
    ensures c !in rep ==> c !in r
    ensures forall d :: d in r ==> d in s || d in rep
  {
    if s == [] then []
    else (if s[0] == c then rep else [s[0]]) + ReplaceAll(s[1..], c, rep)
  }

  /** Replacing a character that does not occur changes nothing. */
  lemma {:induction false} ReplaceAllAbsent(s: string, c: char, rep: string)
    requires c !in s
    ensures ReplaceAll(s, c, rep) == s
  {
    if s != [] {
      ReplaceAllAbsent(s[1..], c, rep);
    }
  }

  const Specials: set<char> := {'<', '>', '"', '\'', '`', '$'}

  /** No character of `s` is in `cs`. */
  predicate Avoids(s: string, cs: set<char>) {
    forall c :: c in s ==> c !in cs
  }

  /** A replacement whose text avoids the replaced character and the
      characters already removed keeps them all out. */
  lemma {:induction false} ReplaceStep(s: string, c: char, rep: string, cs: set<char>)
    requires Avoids(s, cs) && Avoids(rep, cs + {c})
    ensures Avoids(ReplaceAll(s, c, rep), cs + {c})
  {
  }

  /** Each escape avoids its own character and those escaped before it. */
  lemma {:induction false} EscapesSafe()
    ensures Avoids("&lt;", {'<'})
    ensures Avoids("&gt;", {'<', '>'})
    ensures Avoids("&quot;", {'<', '>', '"'})
    ensures Avoids("&#39;", {'<', '>', '"', '\''})
    ensures Avoids("&#96;", {'<', '>', '"', '\'', '`'})
    ensures Avoids("&#36;", Specials)
  {
  }

  /** The chain of six replacements applied to a cached string. */
  function SanitizeString(s: string): (r: string)
    ensures forall c :: c in r ==> c !in Specials
  {
    var s1 := ReplaceAll(s, '<', "&lt;");
    var s2 := ReplaceAll(s1, '>', "&gt;");
    var s3 := ReplaceAll(s2, '"', "&quot;");
    var s4 := ReplaceAll(s3, '\'', "&#39;");
    var s5 := ReplaceAll(s4, '`', "&#96;");
    var r := ReplaceAll(s5, '$', "&#36;");
    assert Avoids(r, Specials) by {
      EscapesSafe();
      ReplaceStep(s, '<', "&lt;", {});
      ReplaceStep(s1, '>', "&gt;", {'<'});
      ReplaceStep(s2, '"', "&quot;", {'<', '>'});
      ReplaceStep(s3, '\'', "&#39;", {'<', '>', '"'});
      ReplaceStep(s4, '`', "&#96;", {'<', '>', '"', '\''});
      ReplaceStep(s5, '$', "&#36;", {'<', '>', '"', '\'', '`'});
    }
    r
  }

  /** A string with none of the six characters is left as it is; in
      particular sanitising twice is sanitising once, because `&` itself is
      never escaped. */
  lemma {:induction false} SanitizeStringFixes(s: string)
    requires forall c :: c in s ==> c !in Specials
    ensures SanitizeString(s) == s
  {
    ReplaceAllAbsent(s, '<', "&lt;");
    ReplaceAllAbsent(s, '>', "&gt;");
    ReplaceAllAbsent(s, '"', "&quot;");
    ReplaceAllAbsent(s, '\'', "&#39;");
    ReplaceAllAbsent(s, '`', "&#96;");
    ReplaceAllAbsent(s, '$', "&#36;");
  }

  lemma {:induction false} SanitizeStringIdempotent(s: string)
    ensures SanitizeString(SanitizeString(s)) == SanitizeString(s)
  {
    SanitizeStringFixes(SanitizeString(s));
  }

  /** `sanitizeDataForCache(v)`: falsy values unchanged, strings escaped,
      arrays element-wise, other objects key-wise (a date has no keys, so it
      becomes `{}`), everything else unchanged. */
  function SanitizeData(v: Json): (r: Json)
    decreases v
  {
    if !Truthy(v) then v
    else match v
      case JStr(s) => JStr(SanitizeString(s))
      case JArr(xs) => JArr(seq(|xs|, i requires 0 <= i < |xs| => SanitizeData(xs[i])))
      case JObj(fs) =>
        JObj(seq(|fs|, i requires 0 <= i < |fs| =>
               assert fs[i] in fs;
               Field(fs[i].key, SanitizeData(fs[i].val))))
      case JDate(_) => JObj([])
      case _ => v
  }

  /** No string anywhere in the value holds one of the six characters. */
  predicate Clean(v: Json)
    decreases v
  {
    match v
    case JStr(s) => forall c :: c in s ==> c !in Specials
    case JArr(xs) => forall i :: 0 <= i < |xs| ==> Clean(xs[i])
    case JObj(fs) => forall i :: 0 <= i < |fs| ==> (assert fs[i] in fs; Clean(fs[i].val))
    case _ => true
  }

  /** Sanitised data is clean and keeps the shape of the input: the same
      array length and the same keys in the same order. */
  lemma {:induction false} SanitizeDataCleans(v: Json)
    ensures Clean(SanitizeData(v))
    ensures v.JArr? ==> SanitizeData(v).JArr? && |SanitizeData(v).items| == |v.items|
    ensures v.JObj? ==> (SanitizeData(v).JObj? && |SanitizeData(v).fields| == |v.fields| &&
                         forall i :: 0 <= i < |v.fields| ==> SanitizeData(v).fields[i].key == v.fields[i].key)
    decreases v
  {
    match v
    case JArr(xs) =>
      forall i | 0 <= i < |xs| ensures Clean(SanitizeData(xs[i])) {
        SanitizeDataCleans(xs[i]);
      }
    case JObj(fs) =>
      forall i | 0 <= i < |fs| ensures Clean(SanitizeData(fs[i].val)) {
        assert fs[i] in fs;
        SanitizeDataCleans(fs[i].val);
      }
    case _ =>
  }

  /** Sanitising twice is sanitising once. */
  lemma {:induction false} SanitizeDataIdempotent(v: Json)
    ensures SanitizeData(SanitizeData(v)) == SanitizeData(v)
    decreases v
  {
    if Truthy(v) {
      match v
      case JStr(s) =>
        SanitizeStringIdempotent(s);
        if SanitizeString(s) == [] {
          assert !Truthy(SanitizeData(v));
        }
      case JArr(xs) =>
        var r := SanitizeData(v);
        forall i | 0 <= i < |xs| ensures SanitizeData(r.items[i]) == r.items[i] {
          SanitizeDataIdempotent(xs[i]);
        }
      case JObj(fs) =>
        var r := SanitizeData(v);
        forall i | 0 <= i < |fs| ensures SanitizeData(r.fields[i].val) == r.fields[i].val {
          assert fs[i] in fs;
          SanitizeDataIdempotent(fs[i].val);
        }
      case _ =>
    }
  }

  // ---------------------------------------------------------------------
  // The browser checksum

  const Two32: int := 0x1_0000_0000
  const Two31: int := 0x8000_0000

  /** ECMAScript ToInt32: the integer congruent to `x` modulo 2^32 in
      [-2^31, 2^31). */
  function ToInt32(x: int): (r: int)
    ensures -Two31 <= r < Two31
    ensures (r - x) % Two32 == 0
  {
    var m := x % Two32;
    if m >= Two31 then m - Two32 else m
  }

  lemma {:induction false} ToInt32Congruent(a: int, b: int)
    requires (a - b) % Two32 == 0
    ensures ToInt32(a) == ToInt32(b)
  {
    assert a % Two32 == b % Two32 by {
      var q := (a - b) / Two32;
      assert a - b == q * Two32;
      assert a == b + q * Two32;
    }
  }

  /** One round of the loop: `hash = ((hash << 5) - hash) + c; hash = hash & hash`.
      The shift works on the 32-bit value, the subtraction and addition in
      exact arithmetic, and the mask truncates back to 32 bits. */
  function HashStep(h: int, c: char): int {
    ToInt32(ToInt32(h * 32) - h + c as int)
  }

  /** A round multiplies by 31 and adds the character, modulo 2^32. */
  lemma {:induction false} HashStepIsTimes31(h: int, c: char)
    ensures HashStep(h, c) == ToInt32(31 * h + c as int)
  {
    var a := ToInt32(h * 32);
    assert (a - h * 32) % Two32 == 0;
    assert (a - h + c as int) - (31 * h + c as int) == a - h * 32;
    ToInt32Congruent(a - h + c as int, 31 * h + c as int);
  }

  lemma {:induction false} MultipleOfTwo32(k: int)
    ensures (k * Two32) % Two32 == 0
  {
  }

  /** Congruence modulo 2^32 survives one step of the polynomial. */
  lemma {:induction false} Times31Congruent(a: int, b: int, c: int)
    requires (a - b) % Two32 == 0
    ensures ((31 * a + c) - (31 * b + c)) % Two32 == 0
  {
    var q := (a - b) / Two32;
    assert a - b == q * Two32;
    assert (31 * a + c) - (31 * b + c) == (31 * q) * Two32;
    MultipleOfTwo32(31 * q);
  }

  /** The loop over the serialised string, from hash 0. */
  function Hash(s: string): (h: int)
    ensures -Two31 <= h < Two31
  {
    if s == [] then 0 else HashStep(Hash(s[..|s| - 1]), s[|s| - 1])
  }

  /** The polynomial the loop evaluates: the characters as base-31 digits. */
  function Poly(s: string): int {
    if s == [] then 0 else 31 * Poly(s[..|s| - 1]) + s[|s| - 1] as int
  }

  /** The checksum is the familiar string hash `s[0]*31^(n-1) + ... + s[n-1]`
      reduced to a signed 32-bit integer. */
  lemma {:induction false} HashIsPoly(s: string)
    ensures Hash(s) == ToInt32(Poly(s))
  {
    if s != [] {
      var init, c := s[..|s| - 1], s[|s| - 1];
      HashIsPoly(init);
      HashStepIsTimes31(Hash(init), c);
      Times31Congruent(Hash(init), Poly(init), c as int);
      ToInt32Congruent(31 * Hash(init) + c as int, 31 * Poly(init) + c as int);
    }
  }

  function HexChar(d: nat): char
    requires d < 16
  {
    HexDigit(d)
  }

  /** `n.toString(16)` for a natural number. */
  function NatToHex(n: nat): (s: string)
    ensures |s| > 0
    ensures forall i :: 0 <= i < |s| ==> s[i] in "0123456789abcdef"
  {
    if n < 16 then [HexChar(n)] else NatToHex(n / 16) + [HexChar(n % 16)]
  }

  function HexCharValue(c: char): nat {
    if '0' <= c <= '9' then c as int - '0' as int
    else if 'a' <= c <= 'f' then c as int - 'a' as int + 10
    else 0
  }

  function HexValue(s: string): nat {
    if s == [] then 0 else HexValue(s[..|s| - 1]) * 16 + HexCharValue(s[|s| - 1])
  }

  /** Each digit reads back as its value. */
  lemma {:induction false} HexCharRoundTrip(d: nat)
    requires d < 16
    ensures HexCharValue(HexChar(d)) == d
  {
  }

  lemma {:induction false} HexValueOfNatToHex(n: nat)
    ensures HexValue(NatToHex(n)) == n
  {
    HexCharRoundTrip(n % 16);
    if n < 16 {
      assert NatToHex(n) == [HexChar(n)];
      assert HexValue(NatToHex(n)) == HexValue([]) * 16 + HexCharValue(HexChar(n));
    } else {
      var s := NatToHex(n);
      var front := NatToHex(n / 16);
      assert s == front + [HexChar(n % 16)];
      assert s[..|s| - 1] == front && s[|s| - 1] == HexChar(n % 16);
      HexValueOfNatToHex(n / 16);
      assert HexValue(s) == HexValue(front) * 16 + HexCharValue(HexChar(n % 16));
    }
  }

  /** `h.toString(16)`: a minus sign, then the digits of the magnitude. */
  function IntToHex(h: int): string {
    if h < 0 then "-" + NatToHex(-h) else NatToHex(h)
  }

  /** Distinct checksums render differently, so comparing rendered checksums
      compares the checksums. */
  lemma {:induction false} IntToHexInjective(a: int, b: int)
    requires IntToHex(a) == IntToHex(b)
    ensures a == b
  {
    var s := IntToHex(a);
    assert '-' !in "0123456789abcdef";
    if a < 0 {
      assert s[0] == '-';
      assert b < 0;
      assert NatToHex(-a) == s[1..] == NatToHex(-b);
    } else {
      assert s[0] != '-';
      assert b >= 0;
    }
    HexValueOfNatToHex(if a < 0 then -a else a);
    HexValueOfNatToHex(if b < 0 then -b else b);
  }

  /** `createDataHash(v)` in the browser. */
  function CreateDataHash(v: Json): string {
    IntToHex(Hash(Stringify(v)))
  }

  // ---------------------------------------------------------------------
  // Sealing and checking

  const IntegrityField: string := "_integrity"

  /** The object `saveWithIntegrityCheck` stores: the data's own properties
      plus `_integrity`, the checksum of the data as given. */
  function Seal(v: Json): (r: Json)
    ensures r.JObj? && Lookup(r.fields, IntegrityField) == Some(JStr(CreateDataHash(v)))
  {
    JObj(With(Spread(v), IntegrityField, JStr(CreateDataHash(v))))
  }

  /** `verifyDataIntegrity(v)`: a truthy object with an `_integrity` property
      whose value is the checksum of the other properties. */
  predicate VerifyDataIntegrity(v: Json) {
    v.JObj? && HasKey(v.fields, IntegrityField) &&
    Lookup(v.fields, IntegrityField) == Some(JStr(CreateDataHash(JObj(Without(v.fields, IntegrityField)))))
  }

  /** What was sealed verifies, provided it was a plain object without an
      `_integrity` property of its own. */
  lemma {:induction false} SealVerifies(fs: seq<Field>)
    requires !HasKey(fs, IntegrityField)
    ensures VerifyDataIntegrity(Seal(JObj(fs)))
  {
    WithoutAfterWith(fs, IntegrityField, JStr(CreateDataHash(JObj(fs))));
  }

  /** `const { _integrity, ...rest } = v` when the property is present. */
  function Strip(v: Json): (r: Json)
    ensures v.JObj? ==> r.JObj? && !HasKey(r.fields, IntegrityField)
  {
    if v.JObj? then JObj(Without(v.fields, IntegrityField)) else v
  }

  lemma {:induction false} StripSeal(fs: seq<Field>)
    requires !HasKey(fs, IntegrityField)
    ensures Strip(Seal(JObj(fs))) == JObj(fs)
  {
    WithoutAfterWith(fs, IntegrityField, JStr(CreateDataHash(JObj(fs))));
  }

  /** The store key of an object, read from its `id` property. */
  function IdOf(v: Json): Option<Key> {
    if v.JObj? then
      match Lookup(v.fields, "id")
      case Some(x) => JsonKey(x)
      case None => None
    else None
  }

  /** `saveWithIntegrityCheck(store, v)`: puts the sealed object under its
      id; without a valid id the put fails and the answer is false. */
  function SaveWithIntegrityCheck(t: map<Key, Json>, v: Json): (r: (map<Key, Json>, bool))
    ensures r.1 <==> IdOf(Seal(v)).Some?
    ensures r.1 ==> r.0 == t[IdOf(Seal(v)).value := Seal(v)]
    ensures !r.1 ==> r.0 == t
  {
    match IdOf(Seal(v))
    case Some(k) => (t[k := Seal(v)], true)
    case None => (t, false)
  }

  /** What `getWithIntegrityCheck` answers. */
  datatype Checked = NoData | Item(v: Json) | Items(vs: seq<Json>)

  /** A value `'id' in v` throws for: anything that is not an object. */
  predicate Primitive(v: Json) {
    !(v.JArr? || v.JDate? || v.JObj?)
  }

  /** `'id' in item` for an object: only plain objects carry properties here. */
  predicate HasId(v: Json) {
    v.JObj? && HasKey(v.fields, "id")
  }

  /** Only deletions happened: every entry left is an entry of `t`. */
  predicate SubTable(t': map<Key, Json>, t: map<Key, Json>) {
    forall k :: k in t' ==> k in t && t'[k] == t[k]
  }

  /** The deletions of the invalid items that carry an id, one after
      another. A delete under an invalid key rejects and ends the read with
      null (false here); the deletions before it have already happened. */
  function RemoveAll(t: map<Key, Json>, invalid: seq<Json>): (r: (map<Key, Json>, bool))
    ensures r.1 <==> forall i :: 0 <= i < |invalid| && HasId(invalid[i]) ==> IdOf(invalid[i]).Some?
    ensures r.1 ==> forall k :: k in r.0 <==> k in t && forall i :: 0 <= i < |invalid| ==> IdOf(invalid[i]) != Some(k)
    ensures SubTable(r.0, t)
    decreases |invalid|
  {
    if invalid == [] then (t, true)
    else
      var v := invalid[0];
      var rest := invalid[1..];
      assert forall i :: 0 <= i < |rest| ==> rest[i] == invalid[i + 1];
      if !HasId(v) then
        var r := RemoveAll(t, rest);
        assert IdOf(v).None?;
        r
      else match IdOf(v)
        case None => (t, false)
        case Some(k) => RemoveAll(t - {k}, rest)
  }

  /** The valid items with `_integrity` stripped, in order. */
  function StripValid(items: seq<Json>): (r: seq<Json>)
    ensures |r| <= |items|
    ensures forall v :: v in r ==> exists i | 0 <= i < |items| :: VerifyDataIntegrity(items[i]) && v == Strip(items[i])
    ensures forall i :: 0 <= i < |items| && VerifyDataIntegrity(items[i]) ==> Strip(items[i]) in r
  {
    if items == [] then []
    else (if VerifyDataIntegrity(items[0]) then [Strip(items[0])] else []) + StripValid(items[1..])
  }

  /** The array branch of `getWithIntegrityCheck`: when some item fails the
      check, the invalid items that carry an id are deleted (an invalid item
      that is not an object makes `'id' in item` throw, and the answer is
      null); the answer is the valid items, stripped. */
  function CheckList(t: map<Key, Json>, items: seq<Json>): (r: (map<Key, Json>, Checked))
    ensures r.1.Items? ==> r.1.vs == StripValid(items)
    ensures r.1.Items? ==>
              forall k :: k in r.0 <==> k in t && forall i :: 0 <= i < |items| && !VerifyDataIntegrity(items[i]) ==> IdOf(items[i]) != Some(k)
    ensures (forall i :: 0 <= i < |items| ==> VerifyDataIntegrity(items[i])) ==> r == (t, Items(StripValid(items)))
    ensures r.1.NoData? <==>
              exists i | 0 <= i < |items| :: !VerifyDataIntegrity(items[i]) && (Primitive(items[i]) || (HasId(items[i]) && IdOf(items[i]).None?))
    ensures r.1.NoData? || r.1.Items?
    ensures SubTable(r.0, t)
  {
    var invalid := Invalid(items);
    if |invalid| == 0 then
      NoInvalid(items);
      (t, Items(StripValid(items)))
    else if exists i | 0 <= i < |invalid| :: Primitive(invalid[i]) then
      (t, NoData)
    else
      var removal := RemoveAll(t, invalid);
      InvalidIds(items, invalid, t, removal.0);
      if !removal.1 then (removal.0, NoData)
      else (removal.0, Items(StripValid(items)))
  }

  /** `getWithIntegrityCheck(store, key)` over what the read returned (an
      array answer takes the array branch); a single invalid item is deleted
      when a truthy key was given and the answer is null; a valid single item
      is returned stripped. */
  function GetWithIntegrityCheck(t: map<Key, Json>, f: Fetched<Json>, key: Option<Key>): (r: (map<Key, Json>, Checked))
    ensures f.Missing? || f.Rejected? ==> r == (t, NoData)
    ensures f.Single? && !f.v.JArr? && !VerifyDataIntegrity(f.v) ==> r.1 == NoData
    ensures f.Single? && !f.v.JArr? && !VerifyDataIntegrity(f.v) ==>
              r.0 == if Truthy(f.v) && key.Some? && KeyTruthy(key.value) then t - {key.value} else t
    ensures f.Single? && VerifyDataIntegrity(f.v) ==> r == (t, Item(Strip(f.v)))
    ensures f.Single? && f.v.JArr? ==> r == CheckList(t, f.v.items)
    ensures f.Listed? ==> r == CheckList(t, f.vs)
    ensures r.1.Item? ==> f.Single? && VerifyDataIntegrity(f.v)
    ensures SubTable(r.0, t)
  {
    match f
    case Missing => (t, NoData)
    case Rejected => (t, NoData)
    case Single(v) =>
      if !Truthy(v) then (t, NoData)
      else if v.JArr? then CheckList(t, v.items)
      else CheckSingle(t, v, key)
    case Listed(items) => CheckList(t, items)
  }

  /** The single-record branch: an invalid record is deleted under a truthy
      key and read as null, a valid one is returned stripped. */
  function CheckSingle(t: map<Key, Json>, v: Json, key: Option<Key>): (r: (map<Key, Json>, Checked))
    ensures !VerifyDataIntegrity(v) ==> r.1 == NoData
    ensures !VerifyDataIntegrity(v) ==> r.0 == if key.Some? && KeyTruthy(key.value) then t - {key.value} else t
    ensures VerifyDataIntegrity(v) ==> r == (t, Item(Strip(v)))
    ensures SubTable(r.0, t)
  {
    if !VerifyDataIntegrity(v) then
      if key.Some? && KeyTruthy(key.value) then (t - {key.value}, NoData) else (t, NoData)
    else (t, Item(Strip(v)))
  }

  /** The items that fail the check, in order. */
  function Invalid(items: seq<Json>): (r: seq<Json>)
    ensures forall v :: v in r ==> v in items && !VerifyDataIntegrity(v)
    ensures forall i :: 0 <= i < |items| && !VerifyDataIntegrity(items[i]) ==> items[i] in r
  {
    Filter(items, (v: Json) => !VerifyDataIntegrity(v))
  }

  lemma {:induction false} NoInvalid(items: seq<Json>)
    requires |Invalid(items)| == 0
    ensures forall i :: 0 <= i < |items| ==> VerifyDataIntegrity(items[i])
  {
  }

  /** Facts about the invalid items restated over the whole list. */
  lemma {:induction false} InvalidIds(items: seq<Json>, invalid: seq<Json>, t: map<Key, Json>, t': map<Key, Json>)
    requires invalid == Invalid(items)
    ensures (forall k :: k in t' <==> k in t && forall i :: 0 <= i < |invalid| ==> IdOf(invalid[i]) != Some(k)) ==>
              forall k :: k in t' <==> k in t && forall i :: 0 <= i < |items| && !VerifyDataIntegrity(items[i]) ==> IdOf(items[i]) != Some(k)
    ensures (exists i | 0 <= i < |invalid| :: HasId(invalid[i]) && IdOf(invalid[i]).None?) <==>
              (exists i | 0 <= i < |items| :: !VerifyDataIntegrity(items[i]) && HasId(items[i]) && IdOf(items[i]).None?)
    ensures (exists i | 0 <= i < |invalid| :: Primitive(invalid[i])) <==>
              (exists i | 0 <= i < |items| :: !VerifyDataIntegrity(items[i]) && Primitive(items[i]))
  {
    forall i | 0 <= i < |items| && !VerifyDataIntegrity(items[i]) ensures items[i] in invalid {
    }
    forall i | 0 <= i < |invalid| ensures exists j | 0 <= j < |items| :: items[j] == invalid[i] && !VerifyDataIntegrity(items[j]) {
      assert invalid[i] in items;
    }
    forall k ensures (forall i :: 0 <= i < |invalid| ==> IdOf(invalid[i]) != Some(k)) <==>
                     (forall i :: 0 <= i < |items| && !VerifyDataIntegrity(items[i]) ==> IdOf(items[i]) != Some(k))
    {
      forall i | 0 <= i < |items| && !VerifyDataIntegrity(items[i]) && (forall j :: 0 <= j < |invalid| ==> IdOf(invalid[j]) != Some(k))
        ensures IdOf(items[i]) != Some(k)
      {
        assert items[i] in invalid;
      }
    }
  }

  /** Sealing a plain object and reading it back by its id gives the object
      as it was, and the store keeps the sealed copy. */
  lemma {:induction false} SealThenGet(t: map<Key, Json>, fs: seq<Field>, k: Key)
    requires !HasKey(fs, IntegrityField)
    requires IdOf(Seal(JObj(fs))) == Some(k)
    ensures var (t', ok) := SaveWithIntegrityCheck(t, JObj(fs));
      ok && k in t' && GetWithIntegrityCheck(t', Single(t'[k]), Some(k)) == (t', Item(JObj(fs)))
  {
    SealVerifies(fs);
    StripSeal(fs);
  }
}

=== FILE: server_transactions.dfy ===
/** The server's transaction router: balance bookkeeping in integer cents,
    the ownership and not-found guards, tag replacement, paging of the listing
    and its grouping by shopping session. Create and update run as one
    database transaction, so a thrown error leaves the state as it was; delete
    adjusts the balance and removes the row as two separate statements. */
module ServerTransactions {
  import opened Base

  type UserId = int

  /** A row of the transactions table; `cents` is the stored integer amount. */
  datatype Txn = Txn(id: nat, owner: UserId, cents: int, isIncome: bool, currency: string,
                     description: string, createdAt: int)

  datatype TagRow = TagRow(txn: nat, text: string)

  datatype Link = Link(session: nat, txn: nat)

  datatype SessionRow = SessionRow(id: nat, owner: UserId, name: Option<string>)

  /** The tables the routers touch, with the next auto-increment ids. */
  datatype Server = Server(balance: map<UserId, int>, txns: seq<Txn>, tags: seq<TagRow>,
                           links: seq<Link>, sessions: seq<SessionRow>,
                           nextTxn: nat, nextSession: nat)

  /** The fields a create or update takes from its input. */
  datatype TxnInput = TxnInput(cents: int, isIncome: bool, currency: string, description: string, createdAt: int)

  /** Primary keys are unique and below the next auto-increment value. */
  ghost predicate WellFormed(s: Server) {
    (forall i, j :: 0 <= i < j < |s.txns| ==> s.txns[i].id != s.txns[j].id) &&
    (forall i :: 0 <= i < |s.txns| ==> s.txns[i].id < s.nextTxn) &&
    (forall i :: 0 <= i < |s.sessions| ==> s.sessions[i].id < s.nextSession)
  }

  // ---------------------------------------------------------------------
  // Balances

  /** What a transaction contributes to its owner's balance. */
  function Signed(isIncome: bool, cents: int): int {
    if isIncome then cents else -cents
  }

  /** `update users set balance = balance + delta where id = u`: no row, no
      change. */
  function Adjust(bal: map<UserId, int>, u: UserId, delta: int): (r: map<UserId, int>)
    ensures r.Keys == bal.Keys
    ensures u in bal ==> r[u] == bal[u] + delta
    ensures forall v :: v in bal && v != u ==> r[v] == bal[v]
  {
    if u in bal then bal[u := bal[u] + delta] else bal
  }

  /** The sum of the signed amounts of `u`'s transactions. */
  function Total(txns: seq<Txn>, u: UserId): int {
    if txns == [] then 0
    else (if txns[0].owner == u then Signed(txns[0].isIncome, txns[0].cents) else 0) + Total(txns[1..], u)
  }

  lemma {:induction false} TotalAppend(a: seq<Txn>, b: seq<Txn>, u: UserId)
    ensures Total(a + b, u) == Total(a, u) + Total(b, u)
  {
    if a == [] {
      assert a + b == b;
    } else {
      assert (a + b)[1..] == a[1..] + b;
      TotalAppend(a[1..], b, u);
    }
  }

  /** The part of the balance the transaction rows do not explain. Every
      mutation keeps it for every user: the balance always moves by exactly
      the change in the signed sum of the user's rows. */
  function Drift(s: Server, u: UserId): int
    requires u in s.balance
  {
    s.balance[u] - Total(s.txns, u)
  }

  // ---------------------------------------------------------------------
  // Lookup

  /** Position of the row with id `id`, if any. */
  function FindTxn(txns: seq<Txn>, id: nat): (r: Option<nat>)
    ensures r.Some? ==> r.value < |txns| && txns[r.value].id == id
    ensures r.Some? ==> forall j :: 0 <= j < r.value ==> txns[j].id != id
    ensures r.None? ==> forall j :: 0 <= j < |txns| ==> txns[j].id != id
  {
    if txns == [] then None
    else if txns[0].id == id then Some(0)
    else match FindTxn(txns[1..], id)
      case None => None
      case Some(k) => Some(k + 1)
  }

  predicate Owns(s: Server, u: UserId, id: nat) {
    exists i | 0 <= i < |s.txns| :: s.txns[i].id == id && s.txns[i].owner == u
  }

  /** Position of the first row with id `id` owned by `u`, if any. */
  function FindOwned(txns: seq<Txn>, id: nat, u: UserId): (r: Option<nat>)
    ensures r.Some? ==> r.value < |txns| && txns[r.value].id == id && txns[r.value].owner == u
    ensures r.None? ==> forall j :: 0 <= j < |txns| ==> txns[j].id != id || txns[j].owner != u
  {
    if txns == [] then None
    else if txns[0].id == id && txns[0].owner == u then Some(0)
    else match FindOwned(txns[1..], id, u)
      case None => None
      case Some(k) => Some(k + 1)
  }

  function TagsOf(tags: seq<TagRow>, id: nat): (r: seq<string>)
    ensures |r| <= |tags|
  {
    if tags == [] then []
    else (if tags[0].txn == id then [tags[0].text] else []) + TagsOf(tags[1..], id)
  }

  function WithoutTags(tags: seq<TagRow>, id: nat): (r: seq<TagRow>)
    ensures TagsOf(r, id) == []
    ensures forall other :: other != id ==> TagsOf(r, other) == TagsOf(tags, other)
  {
    if tags == [] then []
    else
      var head := if tags[0].txn == id then [] else [tags[0]];
      var rest := WithoutTags(tags[1..], id);
      assert tags == [tags[0]] + tags[1..];
      forall x ensures TagsOf(head + rest, x) == TagsOf(head, x) + TagsOf(rest, x) {
        TagsOfAppend(head, rest, x);
      }
      head + rest
  }

  /** The rows `tags.map(text => ({ transactionId: id, text }))` inserts. */
  function TagRows(id: nat, texts: seq<string>): (r: seq<TagRow>)
    ensures TagsOf(r, id) == texts
    ensures forall other :: other != id ==> TagsOf(r, other) == []
  {
    if texts == [] then [] else [TagRow(id, texts[0])] + TagRows(id, texts[1..])
  }

  lemma {:induction false} TagsOfAppend(a: seq<TagRow>, b: seq<TagRow>, id: nat)
    ensures TagsOf(a + b, id) == TagsOf(a, id) + TagsOf(b, id)
  {
    if a == [] {
      assert a + b == b;
    } else {
      var ab := a + b;
      assert ab[0] == a[0] && ab[1..] == a[1..] + b;
      TagsOfAppend(a[1..], b, id);
      var h := if a[0].txn == id then [a[0].text] else [];
      assert TagsOf(ab, id) == h + TagsOf(a[1..] + b, id);
      assert TagsOf(a, id) == h + TagsOf(a[1..], id);
    }
  }

  function WithoutLinksTo(links: seq<Link>, txn: nat): (r: seq<Link>)
    ensures forall l :: l in r <==> l in links && l.txn != txn
  {
    if links == [] then []
    else (if links[0].txn == txn then [] else [links[0]]) + WithoutLinksTo(links[1..], txn)
  }

  predicate SessionOwned(s: Server, u: UserId, id: int) {
    exists i | 0 <= i < |s.sessions| :: s.sessions[i].id == id && s.sessions[i].owner == u
  }

  // ---------------------------------------------------------------------
  // create

  /** `create`: inserts the row under the next id, moves the owner's balance
      by the signed amount, inserts the tags, and links the row to the given
      session (which must be the caller's, or everything is rolled back:
      None) or to a newly created session. */
  function Create(s: Server, u: UserId, input: TxnInput, tags: seq<string>,
                  sessionId: Option<int>, createSession: bool, sessionName: Option<string>): (r: Option<Server>)
    ensures r.None? <==> sessionId.Some? && sessionId.value != 0 && !SessionOwned(s, u, sessionId.value)
    ensures r.Some? ==> r.value.txns == s.txns + [Txn(s.nextTxn, u, input.cents, input.isIncome, input.currency, input.description, input.createdAt)]
    ensures r.Some? ==> r.value.balance == Adjust(s.balance, u, Signed(input.isIncome, input.cents))
    ensures r.Some? ==> TagsOf(r.value.tags, s.nextTxn) == TagsOf(s.tags, s.nextTxn) + tags
    ensures r.Some? && sessionId.Some? && sessionId.value != 0 ==>
              r.value.links == s.links + [Link(sessionId.value as nat, s.nextTxn)] && r.value.sessions == s.sessions
    ensures r.Some? && !(sessionId.Some? && sessionId.value != 0) && createSession ==>
              r.value.sessions == s.sessions + [SessionRow(s.nextSession, u, if sessionName == Some("") then None else sessionName)] &&
              r.value.links == s.links + [Link(s.nextSession, s.nextTxn)]
    ensures r.Some? && !(sessionId.Some? && sessionId.value != 0) && !createSession ==>
              r.value.links == s.links && r.value.sessions == s.sessions
  {
    var id := s.nextTxn;
    var row := Txn(id, u, input.cents, input.isIncome, input.currency, input.description, input.createdAt);
    var s1 := s.(txns := s.txns + [row],
                 balance := Adjust(s.balance, u, Signed(input.isIncome, input.cents)),
                 tags := s.tags + TagRows(id, tags),
                 nextTxn := id + 1);
    TagsOfAppend(s.tags, TagRows(id, tags), id);
    if sessionId.Some? && sessionId.value != 0 then
      if !SessionOwned(s, u, sessionId.value) then None
      else Some(s1.(links := s1.links + [Link(sessionId.value as nat, id)]))
    else if createSession then
      var name := if sessionName.Some? && sessionName.value != "" then sessionName else None;
      Some(s1.(sessions := s1.sessions + [SessionRow(s.nextSession, u, name)],
               links := s1.links + [Link(s.nextSession, id)],
               nextSession := s.nextSession + 1))
    else Some(s1)
  }

  // ---------------------------------------------------------------------
  // delete

  /** `delete`: false and no change unless the caller owns a row with the id;
      otherwise the owner's balance gives back the signed amount and the row
      goes, with its tags and session links (the foreign keys cascade). Ids
      are primary keys, so the row found is the only one with the id. */
  function Delete(s: Server, u: UserId, id: nat): (r: (Server, bool))
    ensures r.1 <==> Owns(s, u, id)
    ensures !r.1 ==> r.0 == s
    ensures r.1 ==> |r.0.txns| == |s.txns| - 1 && TagsOf(r.0.tags, id) == [] &&
                    forall l :: l in r.0.links ==> l.txn != id
    ensures r.1 ==> FindOwned(s.txns, id, u).Some?
    ensures r.1 ==>
              var k := FindOwned(s.txns, id, u).value;
              r.0.txns == s.txns[..k] + s.txns[k + 1..] &&
              r.0.balance == Adjust(s.balance, u, -Signed(s.txns[k].isIncome, s.txns[k].cents))
    ensures r.1 ==> forall other :: other != id ==> TagsOf(r.0.tags, other) == TagsOf(s.tags, other)
    ensures r.1 ==> forall l :: l in r.0.links <==> l in s.links && l.txn != id
    ensures r.0.sessions == s.sessions && r.0.nextTxn == s.nextTxn && r.0.nextSession == s.nextSession
  {
    match FindOwned(s.txns, id, u)
    case None => (s, false)
    case Some(k) =>
      var t := s.txns[k];
      (s.(balance := Adjust(s.balance, u, -Signed(t.isIncome, t.cents)),
          txns := s.txns[..k] + s.txns[k + 1..],
          tags := WithoutTags(s.tags, id),
          links := WithoutLinksTo(s.links, id)), true)
  }

  /** After a delete no row carries the id. */
  lemma {:induction false} DeleteRemovesRow(s: Server, u: UserId, id: nat)
    requires WellFormed(s)
    ensures forall j :: 0 <= j < |Delete(s, u, id).0.txns| ==> Delete(s, u, id).0.txns[j].id != id || !Delete(s, u, id).1
  {
    match FindOwned(s.txns, id, u)
    case None =>
    case Some(k) =>
      var s' := Delete(s, u, id).0;
      forall j | 0 <= j < |s'.txns| ensures s'.txns[j].id != id {
        if j < k { assert s'.txns[j] == s.txns[j]; }
        else { assert s'.txns[j] == s.txns[j + 1]; }
      }
  }

  // ---------------------------------------------------------------------
  // update

  /** The balance change `update` applies, branch by branch: the same kind
      moves by the difference of the amounts, a changed kind undoes the old
      amount and applies the new one. */
  function UpdateDelta(oldIncome: bool, oldCents: int, newIncome: bool, newCents: int): int {
    if oldIncome == newIncome then
      var difference := newCents - oldCents;
      if difference == 0 then 0
      else if newIncome then difference else -difference
    else
      (if oldIncome then -oldCents else oldCents) + (if newIncome then newCents else -newCents)
  }

  /** Both branches amount to removing the old signed amount and adding the
      new one. */
  lemma {:induction false} UpdateDeltaIsSwap(oldIncome: bool, oldCents: int, newIncome: bool, newCents: int)
    ensures UpdateDelta(oldIncome, oldCents, newIncome, newCents) ==
            Signed(newIncome, newCents) - Signed(oldIncome, oldCents)
  {
  }

  /** `update`: throws (None) when no row has the id or it is someone else's;
      otherwise moves the balance, rewrites the row's fields from the input
      (id and owner stay), and replaces the row's tags by the input list. */
  function Update(s: Server, u: UserId, id: nat, input: TxnInput, tags: seq<string>): (r: Option<Server>)
    ensures r.None? <==> FindTxn(s.txns, id).None? || s.txns[FindTxn(s.txns, id).value].owner != u
    ensures r.Some? ==> TagsOf(r.value.tags, id) == tags
    ensures r.Some? ==> forall other :: other != id ==> TagsOf(r.value.tags, other) == TagsOf(s.tags, other)
    ensures r.Some? ==> |r.value.txns| == |s.txns| && r.value.links == s.links && r.value.sessions == s.sessions
    ensures r.Some? ==>
              var k := FindTxn(s.txns, id).value;
              r.value.txns == s.txns[k := Txn(id, u, input.cents, input.isIncome, input.currency, input.description, input.createdAt)] &&
              r.value.balance == Adjust(s.balance, u, Signed(input.isIncome, input.cents) - Signed(s.txns[k].isIncome, s.txns[k].cents))
    ensures r.Some? ==> r.value.nextTxn == s.nextTxn && r.value.nextSession == s.nextSession
  {
    match FindTxn(s.txns, id)
    case None => None
    case Some(k) =>
      var t := s.txns[k];
      if t.owner != u then None
      else
        var row := Txn(id, t.owner, input.cents, input.isIncome, input.currency, input.description, input.createdAt);
        var newTags := WithoutTags(s.tags, id) + TagRows(id, tags);
        UpdateDeltaIsSwap(t.isIncome, t.cents, input.isIncome, input.cents);
        TagsOfAppend(WithoutTags(s.tags, id), TagRows(id, tags), id);
        forall other | other != id ensures TagsOf(newTags, other) == TagsOf(s.tags, other) {
          TagsOfAppend(WithoutTags(s.tags, id), TagRows(id, tags), other);
        }
        Some(s.(balance := Adjust(s.balance, u, UpdateDelta(t.isIncome, t.cents, input.isIncome, input.cents)),
                txns := s.txns[k := row],
                tags := newTags))
  }

  // ---------------------------------------------------------------------
  // The bookkeeping invariant

  lemma {:induction false} TotalRemove(txns: seq<Txn>, k: nat, u: UserId)
    requires k < |txns|
    ensures Total(txns, u) ==
            Total(txns[..k] + txns[k + 1..], u) + (if txns[k].owner == u then Signed(txns[k].isIncome, txns[k].cents) else 0)
  {
    assert txns == txns[..k] + ([txns[k]] + txns[k + 1..]);
    TotalAppend(txns[..k], [txns[k]] + txns[k + 1..], u);
    TotalAppend([txns[k]], txns[k + 1..], u);
    TotalAppend(txns[..k], txns[k + 1..], u);
  }

  lemma {:induction false} TotalReplace(txns: seq<Txn>, k: nat, row: Txn, u: UserId)
    requires k < |txns|
    ensures Total(txns[k := row], u) ==
            Total(txns, u) - (if txns[k].owner == u then Signed(txns[k].isIncome, txns[k].cents) else 0)
                           + (if row.owner == u then Signed(row.isIncome, row.cents) else 0)
  {
    TotalRemove(txns, k, u);
    TotalRemove(txns[k := row], k, u);
    assert txns[k := row][..k] + txns[k := row][k + 1..] == txns[..k] + txns[k + 1..];
  }

  /** A successful create keeps every user's drift. */
  lemma {:induction false} CreateKeepsDrift(s: Server, u: UserId, input: TxnInput, tags: seq<string>,
                         sessionId: Option<int>, createSession: bool, sessionName: Option<string>, v: UserId)
    requires v in s.balance
    requires Create(s, u, input, tags, sessionId, createSession, sessionName).Some?
    ensures var s' := Create(s, u, input, tags, sessionId, createSession, sessionName).value;
      v in s'.balance && Drift(s', v) == Drift(s, v)
  {
    var s' := Create(s, u, input, tags, sessionId, createSession, sessionName).value;
    TotalAppend(s.txns, [Txn(s.nextTxn, u, input.cents, input.isIncome, input.currency, input.description, input.createdAt)], v);
  }

  /** A delete keeps every user's drift. */
  lemma {:induction false} DeleteKeepsDrift(s: Server, u: UserId, id: nat, v: UserId)
    requires v in s.balance
    ensures v in Delete(s, u, id).0.balance && Drift(Delete(s, u, id).0, v) == Drift(s, v)
  {
    match FindOwned(s.txns, id, u)
    case None =>
    case Some(k) =>
      TotalRemove(s.txns, k, v);
  }

  /** A successful update keeps every user's drift: the balance moves by the
      new signed amount less the old one. */
  lemma {:induction false} UpdateKeepsDrift(s: Server, u: UserId, id: nat, input: TxnInput, tags: seq<string>, v: UserId)
    requires v in s.balance
    requires Update(s, u, id, input, tags).Some?
    ensures var s' := Update(s, u, id, input, tags).value;
      v in s'.balance && Drift(s', v) == Drift(s, v)
  {
    var k := FindTxn(s.txns, id).value;
    var t := s.txns[k];
    UpdateDeltaIsSwap(t.isIncome, t.cents, input.isIncome, input.cents);
    TotalReplace(s.txns, k, Txn(id, t.owner, input.cents, input.isIncome, input.currency, input.description, input.createdAt), v);
  }

  /** Each mutation keeps the primary-key discipline. */
  lemma {:induction false} CreateWellFormed(s: Server, u: UserId, input: TxnInput, tags: seq<string>,
                         sessionId: Option<int>, createSession: bool, sessionName: Option<string>)
    requires WellFormed(s)
    requires Create(s, u, input, tags, sessionId, createSession, sessionName).Some?
    ensures WellFormed(Create(s, u, input, tags, sessionId, createSession, sessionName).value)
  {
  }

  lemma {:induction false} DeleteWellFormed(s: Server, u: UserId, id: nat)
    requires WellFormed(s)
    ensures WellFormed(Delete(s, u, id).0)
  {
    match FindOwned(s.txns, id, u)
    case None =>
    case Some(k) =>
      var s' := Delete(s, u, id).0;
      forall j | 0 <= j < |s'.txns| ensures s'.txns[j] == s.txns[if j < k then j else j + 1] {
      }
  }

  lemma {:induction false} UpdateWellFormed(s: Server, u: UserId, id: nat, input: TxnInput, tags: seq<string>)
    requires WellFormed(s)
    requires Update(s, u, id, input, tags).Some?
    ensures WellFormed(Update(s, u, id, input, tags).value)
  {
  }

  // ---------------------------------------------------------------------
  // getList: paging

  /** SQLite's `LIMIT limit OFFSET offset`: a negative offset counts as zero,
      a negative limit means no limit. */
  function SqlitePage<T>(rows: seq<T>, offset: int, limit: int): (r: seq<T>)
    ensures 0 <= offset && 0 <= limit ==>
              r == rows[Min(offset, |rows|)..Min(offset + limit, |rows|)]
    ensures |r| <= |rows|
  {
    var from := if offset < 0 then 0 else Min(offset, |rows|);
    var to := if limit < 0 then |rows| else Min(from + limit, |rows|);
    rows[from..to]
  }

  function Min(a: int, b: int): int {
    if a < b then a else b
  }

  /** The rows of page `page`, `perPage` to a page. */
  function ListPage<T>(rows: seq<T>, page: int, perPage: int): seq<T> {
    SqlitePage(rows, (page - 1) * perPage, perPage)
  }

  /** Consecutive pages tile the rows: no row is skipped or repeated. */
  lemma {:induction false} PagesTile<T>(rows: seq<T>, offset: int, limit: int)
    requires 0 <= offset && 0 <= limit
    ensures SqlitePage(rows, offset, limit) + SqlitePage(rows, offset + limit, limit) ==
            SqlitePage(rows, offset, 2 * limit)
  {
  }

  /** Page 0 is accepted by the input schema and shows the first page: its
      negative offset counts as zero. */
  lemma {:induction false} PageZeroIsFirstPage<T>(rows: seq<T>, perPage: int)
    requires perPage >= 0
    ensures ListPage(rows, 0, perPage) == ListPage(rows, 1, perPage)
  {
    assert (0 - 1) * perPage == -perPage;
  }

  // ---------------------------------------------------------------------
  // getList: shaping and grouping

  /** A row of the listing query: the transaction, its tags as
      `GROUP_CONCAT` renders them (null without tags), and the left-joined
      session. */
  datatype Row = Row(txn: Txn, tags: Option<string>, sessionId: Option<int>, sessionName: Option<string>)

  datatype SessionRef = SessionRef(id: int, name: Option<string>)

  /** A transaction as the listing returns it. */
  datatype Listed = Listed(txn: Txn, tags: seq<string>, session: Option<SessionRef>)

  datatype Group = Group(id: int, name: Option<string>, txns: seq<Listed>)

  datatype ListResult = Flat(items: seq<Listed>) | Grouped(groups: seq<Group>, ungrouped: seq<Listed>)

  /** `el.sessionId ? {...} : null`: a session id of 0 is falsy. */
  predicate InSession(row: Row) {
    row.sessionId.Some? && row.sessionId.value != 0
  }

  /** The row reshaped: tags split on commas, the session folded into one
      property. */
  function Clean(row: Row): (l: Listed)
    ensures l.session.Some? <==> InSession(row)
    ensures l.txn == row.txn
  {
    Listed(row.txn,
           if row.tags.Some? then Split(row.tags.value, ',') else [],
           if InSession(row) then Some(SessionRef(row.sessionId.value, row.sessionName)) else None)
  }

  /** Tags without commas survive the `GROUP_CONCAT` / `split(',')` trip. */
  lemma {:induction false} TagsRoundTrip(row: Row, texts: seq<string>)
    requires |texts| >= 1 && forall i :: 0 <= i < |texts| ==> ',' !in texts[i]
    requires row.tags == Some(Join(texts, ","))
    ensures Clean(row).tags == texts
  {
    SplitJoin(texts, ',');
  }

  /** The non-null session ids, in row order. */
  function SessionIds(rows: seq<Row>): (r: seq<int>)
    ensures forall x :: x in r <==> exists i | 0 <= i < |rows| :: rows[i].sessionId == Some(x)
  {
    if rows == [] then []
    else
      var rest := SessionIds(rows[1..]);
      assert forall i :: 0 <= i < |rows[1..]| ==> rows[1..][i] == rows[i + 1];
      (if rows[0].sessionId.Some? then [rows[0].sessionId.value] else []) + rest
  }

  /** `resp.find(t => t.sessionId === id)?.sessionName ?? null` */
  function FirstName(rows: seq<Row>, id: int): Option<string> {
    if rows == [] then None
    else if rows[0].sessionId == Some(id) then rows[0].sessionName
    else FirstName(rows[1..], id)
  }

  /** The empty groups, one per distinct session id, in first-appearance
      order. */
  function InitialGroups(rows: seq<Row>): (gs: seq<Group>)
    ensures |gs| == |Dedup(SessionIds(rows))|
    ensures forall k :: 0 <= k < |gs| ==>
              gs[k] == Group(Dedup(SessionIds(rows))[k], FirstName(rows, Dedup(SessionIds(rows))[k]), [])
  {
    var ids := Dedup(SessionIds(rows));
    seq(|ids|, k requires 0 <= k < |ids| => Group(ids[k], FirstName(rows, ids[k]), []))
  }

  function FindGroup(gs: seq<Group>, id: int): (r: Option<nat>)
    ensures r.Some? ==> r.value < |gs| && gs[r.value].id == id
    ensures r.None? ==> forall k :: 0 <= k < |gs| ==> gs[k].id != id
  {
    if gs == [] then None
    else if gs[0].id == id then Some(0)
    else match FindGroup(gs[1..], id)
      case None => None
      case Some(k) => Some(k + 1)
  }

  /** The accumulators of the `reduce`: the groups, the ungrouped list, and
      the flat result. */
  datatype Acc = Acc(groups: seq<Group>, ungrouped: seq<Listed>, flat: seq<Listed>)

  /** One step of the `reduce`. */
  function Step(a: Acc, row: Row, grouping: bool): Acc {
    var l := Clean(row);
    if grouping then
      if InSession(row) then
        match FindGroup(a.groups, row.sessionId.value)
        case Some(k) => a.(groups := a.groups[k := a.groups[k].(txns := a.groups[k].txns + [l])])
        case None => a.(flat := a.flat + [l])
      else a.(ungrouped := a.ungrouped + [l])
    else a.(flat := a.flat + [l])
  }

  /** The `reduce` over the rows, left to right. */
  function Reduce(rows: seq<Row>, groups: seq<Group>, grouping: bool): Acc {
    if rows == [] then Acc(groups, [], [])
    else Step(Reduce(rows[..|rows| - 1], groups, grouping), rows[|rows| - 1], grouping)
  }

  /** The shaped listing of the page's rows. */
  function GetList(rows: seq<Row>, groupBySession: bool): ListResult {
    var groups := if groupBySession then InitialGroups(rows) else [];
    var a := Reduce(rows, groups, groupBySession);
    if groupBySession then Grouped(a.groups, a.ungrouped) else Flat(a.flat)
  }

  /** The cleaned rows of session `id`, in row order. */
  function Members(rows: seq<Row>, id: int): seq<Listed> {
    if rows == [] then []
    else
      var last := rows[|rows| - 1];
      Members(rows[..|rows| - 1], id) + (if InSession(last) && last.sessionId.value == id then [Clean(last)] else [])
  }

  /** The cleaned rows outside any session, in row order. */
  function Unsessioned(rows: seq<Row>): seq<Listed> {
    if rows == [] then []
    else
      var last := rows[|rows| - 1];
      Unsessioned(rows[..|rows| - 1]) + (if InSession(last) then [] else [Clean(last)])
  }

  function CleanAll(rows: seq<Row>): (r: seq<Listed>)
    ensures |r| == |rows| && forall i :: 0 <= i < |rows| ==> r[i] == Clean(rows[i])
  {
    seq(|rows|, i requires 0 <= i < |rows| => Clean(rows[i]))
  }

  /** The fold fills the groups faithfully when every in-session row has a
      group: group k holds exactly its session's rows and the ungrouped list
      the rows without a session, each in row order; nothing reaches the flat
      list. */
  lemma {:induction false} ReduceGroups(rows: seq<Row>, groups: seq<Group>)
    requires forall i, j :: 0 <= i < j < |groups| ==> groups[i].id != groups[j].id
    requires forall k :: 0 <= k < |groups| ==> groups[k].txns == []
    requires forall i :: 0 <= i < |rows| && InSession(rows[i]) ==> exists k | 0 <= k < |groups| :: groups[k].id == rows[i].sessionId.value
    ensures var a := Reduce(rows, groups, true);
      |a.groups| == |groups| && a.flat == [] && a.ungrouped == Unsessioned(rows) &&
      forall k :: 0 <= k < |groups| ==>
        a.groups[k].id == groups[k].id && a.groups[k].name == groups[k].name &&
        a.groups[k].txns == Members(rows, groups[k].id)
  {
    if rows != [] {
      var init := rows[..|rows| - 1];
      var last := rows[|rows| - 1];
      assert forall i :: 0 <= i < |init| ==> init[i] == rows[i];
      ReduceGroups(init, groups);
      var a := Reduce(init, groups, true);
      if InSession(last) {
        var id := last.sessionId.value;
        var k0 := FindGroup(a.groups, id);
        assert k0.Some? by {
          var k :| 0 <= k < |groups| && groups[k].id == id;
          assert a.groups[k].id == id;
        }
        var k := k0.value;
        forall j | 0 <= j < |groups| && j != k ensures groups[j].id != id {
          assert groups[k].id == id;
        }
      }
    }
  }

  /** `getList`'s grouping: the groups are the distinct non-null session ids
      of the page in first-appearance order, each named after its first row;
      every row with a (truthy) session lands in its group, every other row
      in `ungroupedTransactions`, each in row order. */
  lemma {:induction false} GetListGrouped(rows: seq<Row>)
    ensures var r := GetList(rows, true);
      r.Grouped? &&
      |r.groups| == |Dedup(SessionIds(rows))| &&
      r.ungrouped == Unsessioned(rows) &&
      forall k :: 0 <= k < |r.groups| ==>
        r.groups[k].id == Dedup(SessionIds(rows))[k] &&
        r.groups[k].name == FirstName(rows, r.groups[k].id) &&
        r.groups[k].txns == Members(rows, r.groups[k].id)
  {
    var gs := InitialGroups(rows);
    var ids := Dedup(SessionIds(rows));
    forall i | 0 <= i < |rows| && InSession(rows[i])
      ensures exists k | 0 <= k < |gs| :: gs[k].id == rows[i].sessionId.value
    {
      var x := rows[i].sessionId.value;
      assert x in SessionIds(rows);
      var k :| 0 <= k < |ids| && ids[k] == x;
      assert gs[k].id == x;
    }
    ReduceGroups(rows, gs);
  }

  lemma {:induction false} ReduceFlat(rows: seq<Row>)
    ensures Reduce(rows, [], false).flat == CleanAll(rows)
  {
    if rows != [] {
      ReduceFlat(rows[..|rows| - 1]);
    }
  }

  /** Without grouping the listing is every row of the page, reshaped, in
      order. */
  lemma {:induction false} GetListFlat(rows: seq<Row>)
    ensures GetList(rows, false) == Flat(CleanAll(rows))
  {
    ReduceFlat(rows);
  }

  /** A session id of 0 gets a group that stays empty, while its rows go to
      the ungrouped list. */
  lemma {:induction false} SessionZeroGroupEmpty(rows: seq<Row>, i: nat)
    requires i < |rows| && rows[i].sessionId == Some(0)
    ensures var r := GetList(rows, true);
      (exists k | 0 <= k < |r.groups| :: r.groups[k].id == 0 && r.groups[k].txns == []) &&
      Clean(rows[i]) in r.ungrouped
  {
    GetListGrouped(rows);
    var ids := Dedup(SessionIds(rows));
    assert 0 in SessionIds(rows);
    var k :| 0 <= k < |ids| && ids[k] == 0;
    MembersOfZero(rows);
    UnsessionedHolds(rows, i);
  }

  lemma {:induction false} MembersOfZero(rows: seq<Row>)
    ensures Members(rows, 0) == []
  {
    if rows != [] {
      MembersOfZero(rows[..|rows| - 1]);
    }
  }

  lemma {:induction false} UnsessionedHolds(rows: seq<Row>, i: nat)
    requires i < |rows| && !InSession(rows[i])
    ensures Clean(rows[i]) in Unsessioned(rows)
  {
    var init := rows[..|rows| - 1];
    if i < |rows| - 1 {
      assert init[i] == rows[i];
      UnsessionedHolds(init, i);
    }
  }

  /** The group ids come in the order of the rows that first mention them. */
  lemma {:induction false} GroupOrder(rows: seq<Row>)
    ensures var ids := Dedup(SessionIds(rows));
      forall i, j :: 0 <= i < j < |ids| ==> IndexOf(SessionIds(rows), ids[i]) < IndexOf(SessionIds(rows), ids[j])
  {
    DedupFirstOrder(SessionIds(rows));
  }
}

=== FILE: service_worker.dfy ===
/** The service worker's background sync: its own schema upgrade (version 2),
    its drain of the sync queue, the request it builds for each item, and the
    older drain of the `pendingTransactions` collection. Unlike the client,
    it retries failed items, checks the response status, and counts the
    current attempt when deciding to escalate. */
module ServiceWorker {
  import opened Base
  import opened Json
  import opened Entities
  import opened LocalStore
  import opened Sorting
  import opened ClientQueue

  // ---------------------------------------------------------------------
  // Schema

  /** The worker's upgrade handler, which consults the old version. */
  function WorkerUpgrade(oldVersion: nat, stores: set<StoreName>): (r: set<StoreName>)
    ensures r == stores + (if oldVersion < 1 then {PendingTransactions} else {})
                        + (if oldVersion < 2 then {SyncQueue} else {})
  {
    var s1 := if oldVersion < 1 then CreateIfAbsent(stores, PendingTransactions) else stores;
    if oldVersion < 2 then CreateIfAbsent(s1, SyncQueue) else s1
  }

  /** The worker's `openDB()`: version 2. */
  function WorkerOpen(s: Schema): Option<Schema> {
    Open(s, 2, WorkerUpgrade)
  }

  /** Creating only absent stores makes the upgrade idempotent. */
  lemma {:induction false} WorkerUpgradeIdempotent(oldVersion: nat, stores: set<StoreName>)
    ensures WorkerUpgrade(oldVersion, WorkerUpgrade(oldVersion, stores)) == WorkerUpgrade(oldVersion, stores)
  {
  }

  /** Opening twice is the same as opening once. */
  lemma {:induction false} WorkerOpenTwice(s: Schema)
    requires WorkerOpen(s).Some?
    ensures WorkerOpen(WorkerOpen(s).value) == WorkerOpen(s)
  {
  }

  /** From an empty database, the worker creates exactly the pending and queue
      stores. */
  lemma {:induction false} WorkerOpenFresh()
    ensures WorkerOpen(Schema(0, {})) == Some(Schema(2, {PendingTransactions, SyncQueue}))
  {
    assert WorkerUpgrade(0, {}) == {PendingTransactions, SyncQueue};
  }

  /** Once the worker has opened version 2, the client's version-1 open is
      refused. */
  lemma {:induction false} ClientOpenAfterWorkerFails(s: Schema)
    requires WorkerOpen(s).Some?
    ensures InitDB(WorkerOpen(s).value) == None
  {
  }

  /** After the client created version 1, the worker adds only the queue
      store; neither open ever creates the conflict or shopping-session
      stores. */
  lemma {:induction false} ClientThenWorker(s: Schema)
    requires s.version == 0
    ensures InitDB(s).Some? && WorkerOpen(InitDB(s).value).Some?
    ensures WorkerOpen(InitDB(s).value).value.stores == s.stores + Version1Stores + {SyncQueue}
    ensures Conflicts in WorkerOpen(InitDB(s).value).value.stores <==> Conflicts in s.stores
    ensures ShoppingSessions in WorkerOpen(InitDB(s).value).value.stores <==> ShoppingSessions in s.stores
  {
  }

  // ---------------------------------------------------------------------
  // Requests

  datatype Body = DataBody(data: Record) | IdBody(id: Key)

  datatype Request = Request(url: string, body: Body)

  function EntityPath(e: EntityType): string
    requires !e.UnknownEntity?
  {
    match e
    case TransactionEntity => "transactions"
    case TemplateEntity => "templates"
    case ShoppingSessionEntity => "shoppingSessions"
  }

  function ActionPath(a: Action): string
    requires !a.UnknownAction?
  {
    match a
    case Create => "create"
    case Update => "update"
    case Delete => "delete"
  }

  const ApiRoot: string := "/api/trpc/"

  /** The request `syncItemWithServer` sends for an operation: the URL is the
      type's prefix followed by the action, a delete sends `{ id }` and the
      other actions send the operation's data; an unknown type or action
      throws before anything is sent. */
  function WorkerRequest(op: SyncOperation): (r: Option<Request>)
    ensures r.None? <==> op.entity.UnknownEntity? || op.action.UnknownAction?
    ensures r.Some? ==> r.value.url == ApiRoot + EntityPath(op.entity) + "." + ActionPath(op.action)
    ensures r.Some? && op.action == Delete ==> r.value.body == IdBody(op.id)
    ensures r.Some? && op.action != Delete ==> r.value.body == DataBody(op.data)
  {
    if op.entity.UnknownEntity? || op.action.UnknownAction? then None
    else
      var url := ApiRoot + EntityPath(op.entity) + "." + ActionPath(op.action);
      Some(Request(url, if op.action == Delete then IdBody(op.id) else DataBody(op.data)))
  }

  /** The characters of a request URL that tell the routes apart: the first
      and third of the type's prefix, and the first of the action. */
  lemma {:induction false} UrlMarks(op: SyncOperation)
    requires WorkerRequest(op).Some?
    ensures var u := WorkerRequest(op).value.url;
      var n := |ApiRoot| + |EntityPath(op.entity)| + 1;
      |ApiRoot| + 2 < |u| && n < |u| &&
      u[|ApiRoot|] == EntityPath(op.entity)[0] && u[|ApiRoot| + 2] == EntityPath(op.entity)[2] &&
      u[n] == ActionPath(op.action)[0]
  {
    var p := EntityPath(op.entity);
    var tail := "." + ActionPath(op.action);
    var pt := p + tail;
    assert WorkerRequest(op).value.url == ApiRoot + pt;
    assert |p| >= 9 && |tail| >= 7;
    assert pt[0] == p[0] && pt[2] == p[2] && pt[|p| + 1] == tail[1];
    assert tail[1] == ActionPath(op.action)[0];
  }

  /** Routing is unambiguous: the URL determines the type and the action. */
  lemma {:induction false} WorkerRequestRoutes(a: SyncOperation, b: SyncOperation)
    requires WorkerRequest(a).Some? && WorkerRequest(b).Some?
    requires WorkerRequest(a).value.url == WorkerRequest(b).value.url
    ensures a.entity == b.entity && a.action == b.action
  {
    UrlMarks(a);
    UrlMarks(b);
    var pa, pb := EntityPath(a.entity), EntityPath(b.entity);
    assert pa[0] == pb[0] && pa[2] == pb[2];
    assert a.entity == b.entity;
    assert ActionPath(a.action)[0] == ActionPath(b.action)[0];
  }

  // ---------------------------------------------------------------------
  // Delivery and the drain

  /** Whether the worker's `syncItemWithServer` resolves: the request could
      be built, the server answered with a 2xx status, and for a create of a
      local id the body could be read. */
  predicate WorkerDelivers(op: SyncOperation, reply: Reply) {
    WorkerRequest(op).Some? && reply.Response? && reply.ok &&
    !(LocalCreate(op) && reply.payload.Unparsable?)
  }

  /** The keys of the local store that a delivery may write: a local create
      answered with 2xx touches its local id and the `id` the worker reads
      out of the body. */
  predicate WorkerTouches(op: SyncOperation, reply: Reply, k: Key) {
    LocalCreate(op) && reply.Response? && reply.ok && (k == op.id || reply.payload == NonKey(Some(k)))
  }

  /** The worker's `syncItemWithServer`: `None` when it throws. A local
      create answered with an id moves the record to that id in the store of
      its type, without touching any other property. */
  function WorkerDeliver(db: Db, op: SyncOperation, reply: Reply): (r: Option<Db>)
    ensures r.Some? <==> WorkerDelivers(op, reply)
    ensures reply.Response? && !reply.ok ==> r.None?
    ensures r.Some? && LocalCreate(op) && WorkerNewId(reply.payload).MoveTo? ==>
              r.value == Rebind(db, StoreOf(op.entity).value, op.id, WorkerNewId(reply.payload).key, None)
    ensures r.Some? && !(LocalCreate(op) && WorkerNewId(reply.payload).MoveTo?) ==>
              r.value == db
  {
    if WorkerRequest(op).None? || reply.Unreachable? || !reply.ok then None
    else if LocalCreate(op) then
      if reply.payload.Unparsable? then None
      else
        match WorkerNewId(reply.payload)
        case MoveTo(serverId) => Some(Rebind(db, StoreOf(op.entity).value, op.id, serverId, None))
        case _ => Some(db)
    else Some(db)
  }

  /** The worker moves the record under its server id with every property,
      `updatedAt` included, exactly as stored; the client re-stamps it. */
  lemma {:induction false} WorkerRebindKeepsFields(db: Db, op: SyncOperation, reply: Reply)
    requires WorkerDelivers(op, reply) && LocalCreate(op) && WorkerNewId(reply.payload).MoveTo?
    requires Get(db, StoreOf(op.entity).value, op.id).Some?
    ensures var store, k := StoreOf(op.entity).value, WorkerNewId(reply.payload).key;
      Get(WorkerDeliver(db, op, reply).value, store, k) == Some(Get(db, store, op.id).value.(id := k))
  {
  }

  /** Against the tRPC envelope the worker's create succeeds without moving
      anything: the item leaves the queue and the record keeps its local id. */
  lemma {:induction false} WorkerKeepsLocalId(db: Db, item: QueueItem)
    requires LocalCreate(item.operation) && WorkerRequest(item.operation).Some?
    ensures var d := WorkerAttempt(db, item, Response(true, CreateEnvelope));
      item.id !in d.queue && d.data == db.data
  {
    assert WorkerNewId(CreateEnvelope) == Keep;
  }

  /** Items the worker attempts: pending and failed ones. */
  predicate Retried(s: Status) {
    s == Pending || s == Failed
  }

  /** The item after a failed worker attempt: the incremented count is kept,
      and reaching 5 escalates. */
  function FailedRetry(item: QueueItem): (f: QueueItem)
    ensures f.attempts == item.attempts + 1
    ensures f.status == ManualResolutionRequired <==> item.attempts + 1 >= MaxAttempts
    ensures f.status == Failed <==> item.attempts + 1 < MaxAttempts
    ensures f.id == item.id && f.operation == item.operation && f.createdAt == item.createdAt
  {
    MarkProcessing(item).(status := FailedStatus(item.attempts + 1))
  }

  /** One iteration of `syncData` on a retried item. */
  function WorkerAttempt(db: Db, item: QueueItem, reply: Reply): (db': Db)
    ensures WorkerDelivers(item.operation, reply) ==> item.id !in db'.queue
    ensures !WorkerDelivers(item.operation, reply) ==>
              item.id in db'.queue && db'.queue[item.id] == FailedRetry(item) && db'.data == db.data
    ensures WorkerDelivers(item.operation, reply) && LocalCreate(item.operation) &&
            WorkerNewId(reply.payload).MoveTo? ==>
              db'.data == Rebind(db, StoreOf(item.operation.entity).value, item.operation.id,
                                 WorkerNewId(reply.payload).key, None).data
    ensures (WorkerDelivers(item.operation, reply) &&
             !(LocalCreate(item.operation) && WorkerNewId(reply.payload).MoveTo?)) ==> db'.data == db.data
    ensures forall n, k :: !WorkerTouches(item.operation, reply, k) ==> Get(db', n, k) == Get(db, n, k)
    ensures forall id :: id != item.id ==>
              (id in db'.queue <==> id in db.queue) && (id in db.queue ==> db'.queue[id] == db.queue[id])
    ensures db'.conflicts == db.conflicts
  {
    var marked := MarkProcessing(item);
    var db1 := db.(queue := db.queue[item.id := marked]);
    match WorkerDeliver(db1, item.operation, reply)
    case Some(db2) => db2.(queue := db2.queue - {item.id})
    case None => db1.(queue := db1.queue[item.id := marked.(status := FailedStatus(marked.attempts))])
  }

  function DrainWorker(db: Db, items: seq<QueueItem>, net: QueueItem -> Reply): Db
    decreases |items|
  {
    if items == [] then db
    else
      var db1 := if Retried(items[0].status) then WorkerAttempt(db, items[0], net(items[0])) else db;
      DrainWorker(db1, items[1..], net)
  }

  function RetriedIds(items: seq<QueueItem>): set<string> {
    set i | 0 <= i < |items| && Retried(items[i].status) :: items[i].id
  }

  lemma {:induction false} DrainWorkerQueue(db: Db, items: seq<QueueItem>, net: QueueItem -> Reply)
    requires DistinctIds(items)
    ensures var d := DrainWorker(db, items, net);
      (forall id :: id !in RetriedIds(items) ==>
         (id in d.queue <==> id in db.queue) && (id in db.queue ==> d.queue[id] == db.queue[id])) &&
      (forall i :: (0 <= i < |items| && Retried(items[i].status) &&
                    WorkerDelivers(items[i].operation, net(items[i]))) ==>
         items[i].id !in d.queue) &&
      (forall i :: (0 <= i < |items| && Retried(items[i].status) &&
                    !WorkerDelivers(items[i].operation, net(items[i]))) ==>
         items[i].id in d.queue && d.queue[items[i].id] == FailedRetry(items[i]))
  {
    DrainWorkerFrame(db, items, net);
    DrainWorkerOutcome(db, items, net);
  }

  /** Queue entries the pass does not attempt are left as they were. */
  lemma {:induction false} DrainWorkerFrame(db: Db, items: seq<QueueItem>, net: QueueItem -> Reply)
    ensures var d := DrainWorker(db, items, net);
      forall id :: id !in RetriedIds(items) ==>
        (id in d.queue <==> id in db.queue) && (id in db.queue ==> d.queue[id] == db.queue[id])
    decreases |items|
  {
    if items != [] {
      var item := items[0];
      var db1 := if Retried(item.status) then WorkerAttempt(db, item, net(item)) else db;
      var rest := items[1..];
      DrainWorkerFrame(db1, rest, net);
      assert DrainWorker(db, items, net) == DrainWorker(db1, rest, net);
      assert forall id :: id in RetriedIds(rest) ==> id in RetriedIds(items) by {
        forall id | id in RetriedIds(rest) ensures id in RetriedIds(items) {
          var j :| 0 <= j < |rest| && Retried(rest[j].status) && rest[j].id == id;
          assert rest[j] == items[j + 1];
        }
      }
      assert Retried(item.status) ==> item.id in RetriedIds(items);
    }
  }

  /** Each attempted entry is gone when delivered and counts one more failed
      attempt otherwise. */
  lemma {:induction false} DrainWorkerOutcome(db: Db, items: seq<QueueItem>, net: QueueItem -> Reply)
    requires DistinctIds(items)
    ensures var d := DrainWorker(db, items, net);
      (forall i :: (0 <= i < |items| && Retried(items[i].status) &&
                    WorkerDelivers(items[i].operation, net(items[i]))) ==>
         items[i].id !in d.queue) &&
      (forall i :: (0 <= i < |items| && Retried(items[i].status) &&
                    !WorkerDelivers(items[i].operation, net(items[i]))) ==>
         items[i].id in d.queue && d.queue[items[i].id] == FailedRetry(items[i]))
    decreases |items|
  {
    if items != [] {
      var item := items[0];
      var db1 := if Retried(item.status) then WorkerAttempt(db, item, net(item)) else db;
      var rest := items[1..];
      assert DistinctIds(rest);
      assert forall j :: 0 <= j < |rest| ==> rest[j] == items[j + 1];
      DrainWorkerOutcome(db1, rest, net);
      DrainWorkerFrame(db1, rest, net);
      assert DrainWorker(db, items, net) == DrainWorker(db1, rest, net);
      assert item.id !in RetriedIds(rest);
    }
  }

  /** A pass writes the local store only where a local create it attempts
      was answered with 2xx: a key that no such create touches keeps its
      record in every collection. */
  lemma {:induction false} DrainWorkerData(db: Db, items: seq<QueueItem>, net: QueueItem -> Reply, n: StoreName, k: Key)
    requires forall i :: 0 <= i < |items| && Retried(items[i].status) ==>
               !WorkerTouches(items[i].operation, net(items[i]), k)
    ensures Get(DrainWorker(db, items, net), n, k) == Get(db, n, k)
    decreases |items|
  {
    if items != [] {
      var item := items[0];
      var db1 := if Retried(item.status) then WorkerAttempt(db, item, net(item)) else db;
      var rest := items[1..];
      assert forall j :: 0 <= j < |rest| ==> rest[j] == items[j + 1];
      DrainWorkerData(db1, rest, net, n, k);
      assert DrainWorker(db, items, net) == DrainWorker(db1, rest, net);
    }
  }

  /** `syncData()`: one pass over the queue sorted by enqueue time. Pending
      and failed items are attempted: each is gone exactly when delivered and
      otherwise carries one more attempt, escalated from 5 on. Processing and
      manual items are untouched. */
  method SyncData(db: Db, net: QueueItem -> Reply) returns (db': Db, order: seq<QueueItem>)
    requires QueueWellKeyed(db.queue)
    ensures Snapshot(db.queue, order) && SortedBy(order, CreatedAtKey)
    ensures db' == DrainWorker(db, order, net)
    ensures forall id :: id in db.queue && !Retried(db.queue[id].status) ==>
              id in db'.queue && db'.queue[id] == db.queue[id]
    ensures forall id :: id in db.queue && Retried(db.queue[id].status) ==>
              (id !in db'.queue <==> WorkerDelivers(db.queue[id].operation, net(db.queue[id])))
    ensures forall id :: id in db.queue && Retried(db.queue[id].status) && id in db'.queue ==>
              db'.queue[id] == FailedRetry(db.queue[id])
    ensures forall n, k :: (forall i :: 0 <= i < |order| && Retried(order[i].status) ==>
                              !WorkerTouches(order[i].operation, net(order[i]), k)) ==>
              Get(db', n, k) == Get(db, n, k)
  {
    var ks, items := GetAll(db.queue);
    SortedSnapshot(db.queue, ks, items);
    order := SortBy(items, CreatedAtKey);
    db' := DrainWorker(db, order, net);
    DrainWorkerQueue(db, order, net);
    SnapshotRetried(db.queue, order);
    forall n, k | forall i :: 0 <= i < |order| && Retried(order[i].status) ==>
                    !WorkerTouches(order[i].operation, net(order[i]), k)
      ensures Get(db', n, k) == Get(db, n, k)
    {
      DrainWorkerData(db, order, net, n, k);
    }
  }

  /** On a snapshot, the retried ids are exactly the queue's pending and
      failed entries. */
  lemma {:induction false} SnapshotRetried(q: map<string, QueueItem>, order: seq<QueueItem>)
    requires Snapshot(q, order)
    ensures forall id :: id in q ==> (Retried(q[id].status) <==> id in RetriedIds(order))
  {
    forall id | id in q
      ensures Retried(q[id].status) <==> id in RetriedIds(order)
    {
      var i :| 0 <= i < |order| && order[i].id == id;
      if id in RetriedIds(order) {
        var j :| 0 <= j < |order| && Retried(order[j].status) && order[j].id == id;
        assert i == j;
      }
    }
  }

  // ---------------------------------------------------------------------
  // Retrying to escalation

  /** An item after `n` worker passes that all fail to deliver it. */
  function FailRepeatedly(item: QueueItem, n: nat): QueueItem
    decreases n
  {
    if n == 0 then item
    else FailRepeatedly(if Retried(item.status) then FailedRetry(item) else item, n - 1)
  }

  /** Under the worker, an undeliverable item is retried once per pass until
      its count reaches 5, and then waits for manual resolution. */
  lemma {:induction false} WorkerEscalates(item: QueueItem, n: nat)
    requires Retried(item.status) && item.attempts < MaxAttempts
    ensures var r := FailRepeatedly(item, n);
      (item.attempts + n < MaxAttempts ==> r.attempts == item.attempts + n) &&
      (0 < n && item.attempts + n < MaxAttempts ==> r.status == Failed) &&
      (item.attempts + n >= MaxAttempts ==> r.attempts == MaxAttempts && r.status == ManualResolutionRequired)
    decreases n
  {
    if n > 0 {
      var next := FailedRetry(item);
      if next.attempts < MaxAttempts {
        WorkerEscalates(next, n - 1);
      } else {
        StaysManual(next, n - 1);
      }
    }
  }

  /** The tail of WorkerEscalates: an item waiting for manual resolution is
      skipped by every further pass, so any number of them leaves it as it
      is. */
  lemma {:induction false} StaysManual(item: QueueItem, n: nat)
    requires item.status == ManualResolutionRequired
    ensures FailRepeatedly(item, n) == item
    decreases n
  {
    if n > 0 {
      StaysManual(item, n - 1);
    }
  }

  // ---------------------------------------------------------------------
  // The older pending-transactions drain

  /** Position of the first transaction whose send throws, or the length. */
  function FirstUnreachable(items: seq<Record>, net: Record -> Reply): (n: nat)
    ensures n <= |items|
    ensures forall i :: 0 <= i < n ==> !net(items[i]).Unreachable?
    ensures n < |items| ==> net(items[n]).Unreachable?
  {
    if items == [] then 0
    else if net(items[0]).Unreachable? then 0
    else 1 + FirstUnreachable(items[1..], net)
  }

  predicate Acknowledged(items: seq<Record>, net: Record -> Reply, k: Key) {
    exists i | 0 <= i < FirstUnreachable(items, net) :: items[i].id == k && net(items[i]).ok
  }

  /** `syncTransactions()`: sends each stored transaction in turn; a 2xx
      answer deletes it, any other answer keeps it and moves on, and a send
      that throws ends the pass. */
  function SyncTransactions(t: map<Key, Record>, items: seq<Record>, net: Record -> Reply): (r: map<Key, Record>)
    ensures forall k :: k in r <==> k in t && !Acknowledged(items, net, k)
    ensures forall k :: k in r ==> r[k] == t[k]
  {
    if items == [] || net(items[0]).Unreachable? then t
    else
      var t1 := if net(items[0]).ok then t - {items[0].id} else t;
      var r := SyncTransactions(t1, items[1..], net);
      assert forall i :: 0 <= i < |items| - 1 ==> items[1..][i] == items[i + 1];
      assert forall k :: Acknowledged(items, net, k) <==>
        (k == items[0].id && net(items[0]).ok) || Acknowledged(items[1..], net, k) by {
        forall k ensures Acknowledged(items, net, k) <==>
          (k == items[0].id && net(items[0]).ok) || Acknowledged(items[1..], net, k)
        {
          if Acknowledged(items[1..], net, k) {
            var i :| 0 <= i < FirstUnreachable(items[1..], net) && items[1..][i].id == k && net(items[1..][i]).ok;
            assert items[i + 1].id == k && net(items[i + 1]).ok;
          }
          if Acknowledged(items, net, k) {
            var i :| 0 <= i < FirstUnreachable(items, net) && items[i].id == k && net(items[i]).ok;
            if i > 0 {
              assert items[1..][i - 1] == items[i];
            }
          }
        }
      }
      r
  }

  /** `addPendingTransaction(tx)`: a falsy id is replaced by the decimal
      rendering of the current time before the put. */
  function AddPendingTransaction(t: map<Key, Record>, id: Json, fields: map<string, Json>, now: nat)
    : (r: Option<map<Key, Record>>)
    ensures r.None? <==> Truthy(id) && JsonKey(id).None?
    ensures r.Some? ==> exists k :: r.value == t[k := Record(k, fields)]
    ensures !Truthy(id) ==> r == Some(t[KStr(NatToString(now)) := Record(KStr(NatToString(now)), fields)])
    ensures Truthy(id) && r.Some? ==> r.value == t[JsonKey(id).value := Record(JsonKey(id).value, fields)]
    ensures r.Some? && WellKeyed(t) ==> WellKeyed(r.value)
  {
    var key := if Truthy(id) then JsonKey(id) else Some(KStr(NatToString(now)));
    match key
    case None => None
    case Some(k) => Some(t[k := Record(k, fields)])
  }

  /** A generated id is all digits, so it never looks like an offline id. */
  lemma {:induction false} GeneratedIdIsNotLocal(now: nat)
    ensures !IsLocalKey(KStr(NatToString(now)))
  {
    var s := NatToString(now);
    if |LocalPrefix| <= |s| {
      assert s[0] == LocalPrefix[0] ==> IsDigit(LocalPrefix[0]);
    }
  }
}

=== FILE: shopping_sessions.dfy ===
/** The server's shopping-session router: sessions group transactions
    through link rows. Creating a session or adding to one first checks that
    every requested transaction is the caller's; adding skips links that
    already exist; totals are kept per currency. */
module ShoppingSessions {
  import opened Base
  import opened ServerTransactions
  import opened Sorting

  // ---------------------------------------------------------------------
  // Keywords

  /** The characters `\s` matches: the ECMAScript white space and line
      terminators. */
  predicate IsSpace(c: char) {
    var n := c as int;
    (9 <= n <= 13) || n == 32 || n == 0xA0 || n == 0x1680 || (0x2000 <= n <= 0x200A) ||
    n == 0x2028 || n == 0x2029 || n == 0x202F || n == 0x205F || n == 0x3000 || n == 0xFEFF
  }

  /** The string after its leading white space. */
  function SkipSpaces(s: string): (r: string)
    ensures |r| <= |s| && r == s[|s| - |r|..]
    ensures r == [] || !IsSpace(r[0])
    ensures forall i :: 0 <= i < |s| - |r| ==> IsSpace(s[i])
  {
    if s != [] && IsSpace(s[0]) then SkipSpaces(s[1..]) else s
  }

  /** `s.split(/\s+/)`: the pieces between runs of white space; a leading or
      trailing run leaves an empty first or last piece. */
  function SplitSpaces(s: string): (r: seq<string>)
    ensures |r| >= 1
    ensures forall i :: 0 <= i < |r| ==> forall c :: c in r[i] ==> !IsSpace(c)
    decreases |s|
  {
    if s == [] then [[]]
    else if IsSpace(s[0]) then [[]] + SplitSpaces(SkipSpaces(s))
    else
      var rest := SplitSpaces(s[1..]);
      [[s[0]] + rest[0]] + rest[1..]
  }

  function Concat(parts: seq<string>): string {
    if parts == [] then [] else parts[0] + Concat(parts[1..])
  }

  /** The characters of `s` that are not white space, in order. */
  function NonSpace(s: string): string {
    if s == [] then [] else (if IsSpace(s[0]) then [] else [s[0]]) + NonSpace(s[1..])
  }

  lemma {:induction false} NonSpaceOfSpaces(s: string, n: nat)
    requires n <= |s| && forall i :: 0 <= i < n ==> IsSpace(s[i])
    ensures NonSpace(s) == NonSpace(s[n..])
  {
    if n > 0 {
      NonSpaceOfSpaces(s[1..], n - 1);
      assert s[1..][n - 1..] == s[n..];
    }
  }

  /** The pieces hold every non-space character of the string, in order,
      and nothing else: splitting only drops the white space. */
  lemma {:induction false} SplitSpacesKeepsText(s: string)
    ensures Concat(SplitSpaces(s)) == NonSpace(s)
    decreases |s|
  {
    if s != [] {
      if IsSpace(s[0]) {
        var t := SkipSpaces(s);
        SplitSpacesKeepsText(t);
        NonSpaceOfSpaces(s, |s| - |t|);
        assert s[|s| - |t|..] == t;
        assert ([[]] + SplitSpaces(t))[1..] == SplitSpaces(t);
      } else {
        var rest := SplitSpaces(s[1..]);
        SplitSpacesKeepsText(s[1..]);
        assert ([[s[0]] + rest[0]] + rest[1..])[1..] == rest[1..];
        assert Concat(rest) == rest[0] + Concat(rest[1..]);
      }
    }
  }

  /** Every piece occurs in the string. */
  lemma {:induction false} SplitSpacesPiecesOccur(s: string)
    ensures forall i :: 0 <= i < |SplitSpaces(s)| ==> Contains(s, SplitSpaces(s)[i])
    decreases |s|
  {
    var r := SplitSpaces(s);
    if s == [] {
      assert OccursAt(s, r[0], 0);
    } else if IsSpace(s[0]) {
      SplitSpacesPiecesOccur(SkipSpaces(s));
      PiecesAfterSpaces(s);
    } else {
      SplitSpacesPiecesOccur(s[1..]);
      PiecesAfterLetter(s);
    }
  }

  lemma {:induction false} OccursLater(s: string, off: nat, sub: string, j: nat)
    requires off <= |s| && OccursAt(s[off..], sub, j)
    ensures OccursAt(s, sub, off + j)
  {
    assert s[off + j..off + j + |sub|] == s[off..][j..j + |sub|];
  }

  lemma {:induction false} PiecesAfterSpaces(s: string)
    requires s != [] && IsSpace(s[0])
    requires forall i :: 0 <= i < |SplitSpaces(SkipSpaces(s))| ==> Contains(SkipSpaces(s), SplitSpaces(SkipSpaces(s))[i])
    ensures forall i :: 0 <= i < |SplitSpaces(s)| ==> Contains(s, SplitSpaces(s)[i])
  {
    var t := SkipSpaces(s);
    var r := SplitSpaces(s);
    var off := |s| - |t|;
    assert s[off..] == t;
    forall i | 0 <= i < |r| ensures Contains(s, r[i]) {
      if i == 0 {
        assert OccursAt(s, r[0], 0);
      } else {
        assert r[i] == SplitSpaces(t)[i - 1];
        var j :| 0 <= j <= |t| - |r[i]| && OccursAt(t, r[i], j);
        OccursLater(s, off, r[i], j);
      }
    }
  }

  lemma {:induction false} PiecesAfterLetter(s: string)
    requires s != [] && !IsSpace(s[0])
    requires forall i :: 0 <= i < |SplitSpaces(s[1..])| ==> Contains(s[1..], SplitSpaces(s[1..])[i])
    ensures forall i :: 0 <= i < |SplitSpaces(s)| ==> Contains(s, SplitSpaces(s)[i])
  {
    var rest := SplitSpaces(s[1..]);
    var r := SplitSpaces(s);
    assert r == [[s[0]] + rest[0]] + rest[1..];
    forall i | 0 <= i < |r| ensures Contains(s, r[i]) {
      if i == 0 {
        FirstPieceOccurs(s);
      } else {
        assert r[i] == rest[i];
        assert Contains(s[1..], rest[i]);
        var j :| 0 <= j <= |s[1..]| - |rest[i]| && OccursAt(s[1..], rest[i], j);
        OccursLater(s, 1, rest[i], j);
      }
    }
  }

  /** A string that starts with a letter has its first piece at the front. */
  lemma {:induction false} FirstPieceOccurs(s: string)
    requires s != [] && !IsSpace(s[0])
    ensures OccursAt(s, SplitSpaces(s)[0], 0)
  {
    var rest := SplitSpaces(s[1..]);
    assert SplitSpaces(s)[0] == [s[0]] + rest[0];
    PieceStartsAtFront(s[1..]);
    assert s[..1 + |rest[0]|] == [s[0]] + s[1..][..|rest[0]|];
  }

  /** The first piece is a prefix of the string. */
  lemma {:induction false} PieceStartsAtFront(s: string)
    ensures OccursAt(s, SplitSpaces(s)[0], 0)
    decreases |s|
  {
    if s != [] && !IsSpace(s[0]) {
      PieceStartsAtFront(s[1..]);
      var rest := SplitSpaces(s[1..]);
      assert s[..1 + |rest[0]|] == [s[0]] + s[1..][..|rest[0]|];
    }
  }

  /** `word.length > 3` */
  predicate IsLong(w: string) {
    |w| > 3
  }

  /** The words longer than three characters, in order: exactly what
      `filter(word => word.length > 3)` keeps. */
  function LongWords(ws: seq<string>): (r: seq<string>)
    ensures forall i :: 0 <= i < |r| ==> |r[i]| > 3 && r[i] in ws
    ensures r == Filter(ws, IsLong)
  {
    if ws == [] then []
    else (if |ws[0]| > 3 then [ws[0]] else []) + LongWords(ws[1..])
  }

  /** `extractKeywords(description)`: the first three words of the
      lower-cased description that are longer than three characters. */
  function ExtractKeywords(description: string): (r: seq<string>)
    ensures |r| <= 3
    ensures var long := Filter(SplitSpaces(Lower(description)), IsLong);
      r == long[..if |long| < 3 then |long| else 3]
  {
    var words := LongWords(SplitSpaces(Lower(description)));
    assert JsSlice(words, 0, 3) == words[..if |words| < 3 then |words| else 3];
    JsSlice(words, 0, 3)
  }

  /** No whitespace and no upper-case ASCII letter. */
  predicate LowerWord(w: string) {
    forall c :: c in w ==> !IsSpace(c) && !('A' <= c <= 'Z')
  }

  /** Words longer than three characters, without whitespace and without
      upper-case letters. */
  predicate LongLowerWords(ws: seq<string>) {
    forall i :: 0 <= i < |ws| ==> |ws[i]| > 3 && LowerWord(ws[i])
  }

  /** Every keyword is longer than three characters, without whitespace and
      without upper-case letters. */
  lemma {:induction false} KeywordsAreLowerWords(description: string)
    ensures LongLowerWords(ExtractKeywords(description))
  {
    var ws := SplitSpaces(Lower(description));
    var words := LongWords(ws);
    var r := ExtractKeywords(description);
    assert words == Filter(ws, IsLong);
    LongWordsLower(description);
    PrefixOfLowerWords(words, r);
  }

  lemma {:induction false} PrefixOfLowerWords(words: seq<string>, r: seq<string>)
    requires |r| <= |words| && r == words[..|r|]
    requires LongLowerWords(words)
    ensures LongLowerWords(r)
  {
    forall i | 0 <= i < |r| ensures |r[i]| > 3 && LowerWord(r[i]) {
      assert r[i] == words[i];
    }
  }

  /** The long words of a lower-cased text are lower-case words. */
  lemma {:induction false} LongWordsLower(description: string)
    ensures LongLowerWords(LongWords(SplitSpaces(Lower(description))))
  {
    var low := Lower(description);
    var ws := SplitSpaces(low);
    var words := LongWords(ws);
    SplitSpacesPiecesOccur(low);
    forall i | 0 <= i < |words| ensures LowerWord(words[i]) {
      var j :| 0 <= j < |ws| && ws[j] == words[i];
      assert Contains(low, ws[j]);
      PartOfLower(description, ws[j]);
    }
  }

  /** Any part of a lower-cased text has no upper-case letter. */
  lemma {:induction false} PartOfLower(description: string, w: string)
    requires Contains(Lower(description), w)
    ensures forall c :: c in w ==> !('A' <= c <= 'Z')
  {
    var low := Lower(description);
    var k :| 0 <= k <= |low| - |w| && OccursAt(low, w, k);
    forall c | c in w ensures !('A' <= c <= 'Z') {
      var m :| 0 <= m < |w| && w[m] == c;
      assert c == low[k + m];
    }
  }

  /** Each keyword occurs in the lower-cased description, so the `LIKE`
      search it feeds can match the description it came from. */
  lemma {:induction false} KeywordsOccur(description: string)
    ensures forall i :: 0 <= i < |ExtractKeywords(description)| ==>
              Contains(Lower(description), ExtractKeywords(description)[i])
  {
    var low := Lower(description);
    SplitSpacesPiecesOccur(low);
    var words := LongWords(SplitSpaces(low));
    forall i | 0 <= i < |ExtractKeywords(description)| ensures Contains(low, ExtractKeywords(description)[i]) {
      assert ExtractKeywords(description)[i] == words[i];
    }
  }

  /** No word is longer than three characters. */
  predicate ShortWords(ws: seq<string>) {
    forall i :: 0 <= i < |ws| ==> |ws[i]| <= 3
  }

  /** A description has keywords exactly when one of its words is longer
      than three characters. */
  lemma {:induction false} KeywordsOfShortWords(description: string)
    ensures ExtractKeywords(description) == [] <==> ShortWords(SplitSpaces(Lower(description)))
  {
    var words := LongWords(SplitSpaces(Lower(description)));
    NoLongWords(SplitSpaces(Lower(description)));
    assert |ExtractKeywords(description)| == if |words| < 3 then |words| else 3;
  }

  lemma {:induction false} NoLongWords(ws: seq<string>)
    ensures LongWords(ws) == [] <==> ShortWords(ws)
  {
    if ws != [] {
      NoLongWords(ws[1..]);
      assert forall i :: 1 <= i < |ws| ==> ws[i] == ws[1..][i - 1];
    }
  }

  // ---------------------------------------------------------------------
  // SQLite's LIKE

  /** One pattern character against one text character: `_` matches any
      character, and any other character matches itself up to ASCII case. */
  predicate LikeChar(p: char, c: char) {
    p == '_' || LowerChar(p) == LowerChar(c)
  }

  /** SQLite's `text LIKE pattern` without an ESCAPE clause: `%` matches any
      run of characters, including none, and `_` exactly one. */
  predicate Like(text: string, pattern: string)
    decreases |pattern|, |text|
  {
    if pattern == [] then text == []
    else if pattern[0] == '%' then Like(text, pattern[1..]) || (text != [] && Like(text[1..], pattern))
    else text != [] && LikeChar(pattern[0], text[0]) && Like(text[1..], pattern[1..])
  }

  /** The pattern `'%' + keyword + '%'` built for each keyword. */
  function Around(keyword: string): string {
    "%" + keyword + "%"
  }

  /** `or(...keywordConditions)`: the description is `LIKE` one of the
      keyword patterns. */
  predicate LikeAny(description: string, keywords: seq<string>) {
    exists i | 0 <= i < |keywords| :: Like(description, Around(keywords[i]))
  }

  /** A keyword without `%` or `_`, so its pattern has no wildcard inside. */
  predicate Literal(keyword: string) {
    '%' !in keyword && '_' !in keyword
  }

  lemma {:induction false} LowerDrop(t: string, k: nat)
    requires k <= |t|
    ensures Lower(t[k..]) == Lower(t)[k..]
  {
    assert forall j :: 0 <= j < |t| - k ==> Lower(t[k..])[j] == Lower(t)[k..][j];
  }

  /** A trailing `%` matches any rest of the text. */
  lemma {:induction false} LikeRest(t: string)
    ensures Like(t, "%")
    decreases |t|
  {
    if t != [] {
      LikeRest(t[1..]);
    }
  }

  /** A leading `%` may skip any number of characters. */
  lemma {:induction false} LikeSkip(t: string, q: string, k: nat)
    requires k <= |t| && Like(t[k..], q)
    ensures Like(t, "%" + q)
    decreases k
  {
    assert ("%" + q)[1..] == q;
    if k > 0 {
      assert t[1..][k - 1..] == t[k..];
      LikeSkip(t[1..], q, k - 1);
    }
  }

  /** A leading `%` matches only by skipping some number of characters. */
  lemma {:induction false} LikeSkipped(t: string, q: string)
    requires Like(t, "%" + q)
    ensures exists k :: 0 <= k <= |t| && Like(t[k..], q)
    decreases |t|
  {
    assert ("%" + q)[1..] == q;
    if Like(t, q) {
      assert t[0..] == t;
    } else {
      LikeSkipped(t[1..], q);
      var k :| 0 <= k <= |t[1..]| && Like(t[1..][k..], q);
      assert t[1..][k..] == t[k + 1..];
    }
  }

  /** A text whose lower-cased front is `p` is `LIKE p + r` when the rest
      of it is `LIKE r`, whatever `p` holds. */
  lemma {:induction false} FrontLike(t: string, p: string, r: string)
    requires |p| <= |t| && Lower(t)[..|p|] == p
    requires Like(t[|p|..], r)
    ensures Like(t, p + r)
    decreases |p|
  {
    if p == [] {
      assert t[0..] == t && p + r == r;
    } else {
      var rest := p[1..] + r;
      assert (p + r)[1..] == rest;
      assert Lower(t)[0] == p[0];
      LowerDrop(t, 1);
      assert Lower(t[1..])[..|p| - 1] == p[1..];
      assert t[1..][|p| - 1..] == t[|p|..];
      FrontLike(t[1..], p[1..], r);
      if p[0] == '%' {
        assert t[1..][0..] == t[1..];
        LikeSkip(t[1..], rest, 0);
        assert p + r == "%" + rest;
        assert Like(t[1..], p + r);
      } else {
        assert LikeChar(p[0], t[0]);
      }
    }
  }

  /** Conversely, a text `LIKE p%` for a lower-case `p` without wildcards
      has `p` as its lower-cased front. */
  lemma {:induction false} LikeFront(t: string, p: string)
    requires Literal(p) && forall c :: c in p ==> !('A' <= c <= 'Z')
    requires Like(t, p + "%")
    ensures |p| <= |t| && Lower(t)[..|p|] == p
    decreases |p|
  {
    if p != [] {
      assert (p + "%")[0] == p[0] && (p + "%")[1..] == p[1..] + "%";
      assert p[0] in p;
      assert forall c :: c in p[1..] ==> c in p;
      LikeFront(t[1..], p[1..]);
      LowerDrop(t, 1);
      assert Lower(t)[..|p|] == [Lower(t)[0]] + Lower(t[1..])[..|p| - 1];
    }
  }

  /** For a keyword without wildcards, `LIKE '%kw%'` is exactly a
      case-insensitive substring test. */
  lemma {:induction false} LikeIsContains(t: string, keyword: string)
    requires Literal(keyword) && forall c :: c in keyword ==> !('A' <= c <= 'Z')
    ensures Like(t, Around(keyword)) <==> Contains(Lower(t), keyword)
  {
    var q := keyword + "%";
    assert Around(keyword) == "%" + q;
    if Like(t, Around(keyword)) {
      LikeSkipped(t, q);
      var k :| 0 <= k <= |t| && Like(t[k..], q);
      LikeFront(t[k..], keyword);
      LowerDrop(t, k);
      assert OccursAt(Lower(t), keyword, k);
    }
    if Contains(Lower(t), keyword) {
      ContainsLike(t, keyword);
    }
  }

  /** Any substring of the lower-cased text matches its own pattern, even
      one holding `%` or `_`. */
  lemma {:induction false} ContainsLike(t: string, keyword: string)
    requires Contains(Lower(t), keyword)
    ensures Like(t, Around(keyword))
  {
    var k :| 0 <= k <= |Lower(t)| - |keyword| && OccursAt(Lower(t), keyword, k);
    LowerDrop(t, k);
    assert Lower(t[k..])[..|keyword|] == keyword;
    LikeRest(t[k..][|keyword|..]);
    FrontLike(t[k..], keyword, "%");
    LikeSkip(t, keyword + "%", k);
    assert Around(keyword) == "%" + (keyword + "%");
  }

  /** A keyword ending in `%` matches every text that contains the keyword
      without it: its pattern ends in `%%`. */
  lemma {:induction false} TrailingPercent(t: string, p: string)
    requires Contains(Lower(t), p)
    ensures Like(t, Around(p + "%"))
  {
    var k :| 0 <= k <= |Lower(t)| - |p| && OccursAt(Lower(t), p, k);
    LowerDrop(t, k);
    var u := t[k..];
    assert Lower(u)[..|p|] == p;
    var v := u[|p|..];
    LikeRest(v);
    assert v[0..] == v;
    LikeSkip(v, "%", 0);
    FrontLike(u, p, "%%");
    assert p + "%%" == (p + "%") + "%";
    LikeSkip(t, (p + "%") + "%", k);
    assert Around(p + "%") == "%" + ((p + "%") + "%");
  }

  /** So a keyword holding `%` is a wildcard: the description "100% juice"
      yields the keyword "100%", whose pattern `%100%%` matches "100 apples",
      which does not contain "100%". */
  lemma {:induction false} WildcardKeyword(t: string, keyword: string)
    requires t == "100 apples" && keyword == "100%"
    ensures Like(t, Around(keyword))
    ensures !Contains(Lower(t), keyword)
  {
    var p := keyword[..3];
    assert keyword == p + "%";
    assert OccursAt(Lower(t), p, 0);
    TrailingPercent(t, p);
    NoPercent(t, keyword);
  }

  /** A text without `%` has no part holding `%`. */
  lemma {:induction false} NoPercent(t: string, keyword: string)
    requires '%' in keyword
    requires forall j :: 0 <= j < |t| ==> t[j] != '%'
    ensures !Contains(Lower(t), keyword)
  {
    var low := Lower(t);
    var m :| 0 <= m < |keyword| && keyword[m] == '%';
    forall k | 0 <= k <= |low| - |keyword| ensures !OccursAt(low, keyword, k) {
      assert low[k + m] == LowerChar(t[k + m]);
    }
  }

  /** A description matches the pattern of each of its own keywords. */
  lemma {:induction false} KeywordsMatchOwn(description: string)
    ensures forall i :: 0 <= i < |ExtractKeywords(description)| ==>
              Like(description, Around(ExtractKeywords(description)[i]))
  {
    KeywordsOccur(description);
    forall i | 0 <= i < |ExtractKeywords(description)|
      ensures Like(description, Around(ExtractKeywords(description)[i]))
    {
      ContainsLike(description, ExtractKeywords(description)[i]);
    }
  }

  function Newest(t: Txn): int {
    -t.createdAt
  }

  /** The `WHERE` clause of `findSimilarTransactions`: the caller's row,
      recent enough, and `LIKE` one of the keyword patterns. */
  predicate Similar(t: Txn, u: UserId, since: int, keywords: seq<string>) {
    t.owner == u && t.createdAt >= since && LikeAny(t.description, keywords)
  }

  /** The matching rows, newest first: each matching row as often as it is
      stored, and no other row. */
  function SimilarRows(txns: seq<Txn>, u: UserId, since: int, keywords: seq<string>): (r: seq<Txn>)
    ensures forall t :: multiset(r)[t] == if Similar(t, u, since, keywords) then multiset(txns)[t] else 0
    ensures SortedBy(r, Newest)
  {
    var hits := Filter(txns, (t: Txn) => Similar(t, u, since, keywords));
    FilterCount(txns, (t: Txn) => Similar(t, u, since, keywords));
    SortBy(hits, Newest)
  }

  /** `findSimilarTransactions`: nothing without keywords; otherwise the
      caller's transactions since `since` whose description is `LIKE` the
      pattern `%keyword%` of some keyword, newest first. */
  function FindSimilar(s: Server, u: UserId, description: string, since: int): (r: seq<Txn>)
    ensures ExtractKeywords(description) == [] ==> r == []
    ensures forall t :: t in r <==>
              ExtractKeywords(description) != [] && t in s.txns && t.owner == u && t.createdAt >= since &&
              LikeAny(t.description, ExtractKeywords(description))
    ensures SortedBy(r, Newest)
    ensures forall t :: multiset(r)[t] ==
              if ExtractKeywords(description) != [] && t.owner == u && t.createdAt >= since &&
                 LikeAny(t.description, ExtractKeywords(description))
              then multiset(s.txns)[t] else 0
  {
    var keywords := ExtractKeywords(description);
    if keywords == [] then []
    else
      var r := SimilarRows(s.txns, u, since, keywords);
      assert forall t :: t in r <==> t in multiset(r);
      assert forall t :: t in s.txns <==> t in multiset(s.txns);
      r
  }

  // ---------------------------------------------------------------------
  // The ownership guard

  /** The requested ids that name a transaction of the caller: what the
      `inArray` select returns, one row per id since ids are primary keys. */
  function OwnedAmong(s: Server, u: UserId, ids: seq<nat>): set<nat> {
    set i | i in ids && Owns(s, u, i)
  }

  /** The guard `found.length === ids.length`. */
  predicate AllOwned(s: Server, u: UserId, ids: seq<nat>) {
    |OwnedAmong(s, u, ids)| == |ids|
  }

  function Elements(ids: seq<nat>): set<nat> {
    set i | i in ids
  }

  lemma {:induction false} ElementsCard(ids: seq<nat>)
    ensures |Elements(ids)| <= |ids|
    ensures |Elements(ids)| == |ids| <==> Distinct(ids)
  {
    if ids != [] {
      var rest := ids[1..];
      ElementsCard(rest);
      var whole := Elements(ids);
      var tail := Elements(rest);
      assert whole == {ids[0]} + tail;
      if ids[0] in rest {
        assert whole == tail;
        var k :| 0 <= k < |rest| && rest[k] == ids[0];
        assert ids[k + 1] == ids[0];
      } else {
        assert ids[0] !in tail;
        assert |whole| == |tail| + 1;
        assert Distinct(ids) <==> Distinct(rest) by {
          if Distinct(rest) {
            forall a, b | 0 <= a < b < |ids| ensures ids[a] != ids[b] {
              if a == 0 { assert ids[b] == rest[b - 1]; }
              else { assert ids[a] == rest[a - 1] && ids[b] == rest[b - 1]; }
            }
          }
          if Distinct(ids) {
            forall a, b | 0 <= a < b < |rest| ensures rest[a] != rest[b] {
              assert rest[a] == ids[a + 1] && rest[b] == ids[b + 1];
            }
          }
        }
      }
    }
  }

  lemma {:induction false} SubsetSameSize(a: set<nat>, b: set<nat>)
    requires a <= b && |a| == |b|
    ensures a == b
  {
    if a != b {
      var x :| x in b && x !in a;
      assert a <= b - {x};
      SubsetCard(a, b - {x});
    }
  }

  lemma {:induction false} SubsetCard(a: set<nat>, b: set<nat>)
    requires a <= b
    ensures |a| <= |b|
    decreases |b|
  {
    if b != {} {
      var x :| x in b;
      SubsetCard(a - {x}, b - {x});
    }
  }

  /** The count guard passes exactly when the ids are distinct and every one
      names a transaction of the caller: a repeated id fails it too. */
  lemma {:induction false} AllOwnedMeans(s: Server, u: UserId, ids: seq<nat>)
    ensures AllOwned(s, u, ids) <==> Distinct(ids) && forall i :: 0 <= i < |ids| ==> Owns(s, u, ids[i])
  {
    var a := OwnedAmong(s, u, ids);
    var b := Elements(ids);
    ElementsCard(ids);
    assert a <= b;
    SubsetCard(a, b);
    if AllOwned(s, u, ids) {
      SubsetSameSize(a, b);
      forall i | 0 <= i < |ids| ensures Owns(s, u, ids[i]) {
        assert ids[i] in b;
      }
    }
    if Distinct(ids) && forall i :: 0 <= i < |ids| ==> Owns(s, u, ids[i]) {
      forall x | x in b ensures x in a {
        var i :| 0 <= i < |ids| && ids[i] == x;
      }
      assert a == b;
    }
  }

  // ---------------------------------------------------------------------
  // Links

  /** No session links the same transaction twice. */
  predicate NoDuplicateLinks(links: seq<Link>) {
    Distinct(links)
  }

  function LinksFor(sid: nat, ids: seq<nat>): (r: seq<Link>)
    ensures |r| == |ids| && forall i :: 0 <= i < |ids| ==> r[i] == Link(sid, ids[i])
  {
    seq(|ids|, i requires 0 <= i < |ids| => Link(sid, ids[i]))
  }

  /** The ids not yet linked to the session, in request order. */
  function Unlinked(links: seq<Link>, sid: nat, ids: seq<nat>): (r: seq<nat>)
    ensures forall x :: x in r <==> x in ids && Link(sid, x) !in links
    ensures Distinct(ids) ==> Distinct(r)
  {
    if ids == [] then []
    else
      var rest := Unlinked(links, sid, ids[1..]);
      assert Distinct(ids) ==> Distinct(ids[1..]) && ids[0] !in ids[1..];
      (if Link(sid, ids[0]) in links then [] else [ids[0]]) + rest
  }

  /** Insert links for the ids not linked yet. */
  function AddLinks(links: seq<Link>, sid: nat, ids: seq<nat>): (r: seq<Link>)
    ensures forall l :: l in r <==> l in links || (l.session == sid && l.txn in ids)
    ensures Distinct(links) && Distinct(ids) ==> Distinct(r)
  {
    var unseen := Unlinked(links, sid, ids);
    var r := links + LinksFor(sid, unseen);
    assert Distinct(links) && Distinct(ids) ==> Distinct(r) by {
      if Distinct(links) && Distinct(ids) {
        forall a, b | 0 <= a < b < |r| ensures r[a] != r[b] {
          if b >= |links| && a < |links| {
            assert r[b] == Link(sid, unseen[b - |links|]);
            assert r[a] in links;
          }
        }
      }
    }
    r
  }

  /** Adding links that are all there already changes nothing. */
  lemma {:induction false} UnlinkedOfLinked(links: seq<Link>, sid: nat, ids: seq<nat>)
    requires forall i :: 0 <= i < |ids| ==> Link(sid, ids[i]) in links
    ensures Unlinked(links, sid, ids) == []
  {
    if ids != [] {
      UnlinkedOfLinked(links, sid, ids[1..]);
    }
  }

  /** Remove the session's links to the ids. */
  function RemoveLinks(links: seq<Link>, sid: nat, ids: seq<nat>): (r: seq<Link>)
    ensures forall l :: l in r <==> l in links && !(l.session == sid && l.txn in ids)
  {
    if links == [] then []
    else
      (if links[0].session == sid && links[0].txn in ids then [] else [links[0]]) + RemoveLinks(links[1..], sid, ids)
  }

  // ---------------------------------------------------------------------
  // Mutations

  /** `createSession`: throws (None) unless every requested id names a
      distinct transaction of the caller; otherwise creates the session under
      the next id and links each requested transaction to it. */
  function CreateSession(s: Server, u: UserId, name: Option<string>, ids: seq<nat>): (r: Option<(Server, nat)>)
    ensures r.None? <==> !AllOwned(s, u, ids)
    ensures r.Some? ==> (r.value.1 == s.nextSession &&
                         r.value.0.sessions == s.sessions + [SessionRow(s.nextSession, u, name)] &&
                         forall l :: l in r.value.0.links <==> l in s.links || (l.session == s.nextSession && l.txn in ids))
    ensures r.Some? ==> r.value.0.txns == s.txns && r.value.0.balance == s.balance
    ensures r.Some? ==> r.value.0 == s.(sessions := r.value.0.sessions, links := r.value.0.links,
                                        nextSession := s.nextSession + 1)
  {
    if !AllOwned(s, u, ids) then None
    else
      var sid := s.nextSession;
      Some((s.(sessions := s.sessions + [SessionRow(sid, u, name)],
               links := s.links + LinksFor(sid, ids),
               nextSession := sid + 1), sid))
  }

  /** `addTransactionsToSession`: an empty list is a success with no
      checks; otherwise the session must be the caller's and every id a
      distinct transaction of the caller (None: thrown), and only the ids not
      linked yet are inserted. */
  function AddToSession(s: Server, u: UserId, sid: nat, ids: seq<nat>): (r: Option<Server>)
    ensures ids == [] ==> r == Some(s)
    ensures ids != [] ==> (r.None? <==> !SessionOwned(s, u, sid) || !AllOwned(s, u, ids))
    ensures r.Some? ==> r.value == s.(links := AddLinks(s.links, sid, ids))
  {
    if ids == [] then Some(s)
    else if !SessionOwned(s, u, sid) then None
    else if !AllOwned(s, u, ids) then None
    else Some(s.(links := AddLinks(s.links, sid, ids)))
  }

  /** After a successful add every requested transaction is linked to the
      session, nothing else changed, and no link is duplicated. */
  lemma {:induction false} AddToSessionLinks(s: Server, u: UserId, sid: nat, ids: seq<nat>)
    requires AddToSession(s, u, sid, ids).Some?
    ensures var s' := AddToSession(s, u, sid, ids).value;
      (forall i :: 0 <= i < |ids| ==> Link(sid, ids[i]) in s'.links) &&
      (forall l :: l in s.links ==> l in s'.links) &&
      (forall l :: l in s'.links && l !in s.links ==> l.session == sid && l.txn in ids) &&
      (NoDuplicateLinks(s.links) ==> NoDuplicateLinks(s'.links))
  {
    if ids != [] {
      AllOwnedMeans(s, u, ids);
    }
  }

  /** Repeating an add adds nothing. */
  lemma {:induction false} AddToSessionIdempotent(s: Server, u: UserId, sid: nat, ids: seq<nat>)
    requires AddToSession(s, u, sid, ids).Some?
    ensures AddToSession(AddToSession(s, u, sid, ids).value, u, sid, ids) == AddToSession(s, u, sid, ids)
  {
    var s' := AddToSession(s, u, sid, ids).value;
    if ids != [] {
      assert SessionOwned(s', u, sid) && OwnedAmong(s', u, ids) == OwnedAmong(s, u, ids);
      AddToSessionLinks(s, u, sid, ids);
      UnlinkedOfLinked(s'.links, sid, ids);
      assert AddLinks(s'.links, sid, ids) == s'.links;
    }
  }

  /** `removeTransactionsFromSession`: an empty list is a success with no
      checks; otherwise the session must be the caller's (None: thrown), and
      exactly its links to the given ids go. */
  function RemoveFromSession(s: Server, u: UserId, sid: nat, ids: seq<nat>): (r: Option<Server>)
    ensures ids == [] ==> r == Some(s)
    ensures ids != [] ==> (r.None? <==> !SessionOwned(s, u, sid))
    ensures r.Some? ==> forall l :: l in r.value.links <==> l in s.links && !(l.session == sid && l.txn in ids)
    ensures r.Some? ==> r.value.txns == s.txns && r.value.sessions == s.sessions
    ensures r.Some? ==> r.value == s.(links := r.value.links)
  {
    if ids == [] then Some(s)
    else if !SessionOwned(s, u, sid) then None
    else Some(s.(links := RemoveLinks(s.links, sid, ids)))
  }

  /** Removing and then adding back the same transactions restores the
      session's links as a set. */
  lemma {:induction false} RemoveThenAdd(s: Server, u: UserId, sid: nat, ids: seq<nat>)
    requires forall i :: 0 <= i < |ids| ==> Link(sid, ids[i]) in s.links
    requires RemoveFromSession(s, u, sid, ids).Some?
    requires AddToSession(RemoveFromSession(s, u, sid, ids).value, u, sid, ids).Some?
    ensures var s' := AddToSession(RemoveFromSession(s, u, sid, ids).value, u, sid, ids).value;
      forall l :: l in s'.links <==> l in s.links
  {
  }

  /** `updateSession`: the session must be the caller's (None: thrown);
      then the name changes only when one is given, the add list goes
      through the same guard and de-duplication as `addTransactionsToSession`
      (a failing guard rolls the name back too), and the remove list drops
      the session's links to those ids. */
  function UpdateSession(s: Server, u: UserId, sid: nat, name: Option<string>,
                         add: seq<nat>, remove: seq<nat>): (r: Option<Server>)
    ensures r.None? <==> !SessionOwned(s, u, sid) || (add != [] && !AllOwned(s, u, add))
    ensures r.Some? && name.None? ==> r.value.sessions == s.sessions
    ensures r.Some? && name.Some? ==> (|r.value.sessions| == |s.sessions| &&
              forall i :: 0 <= i < |s.sessions| ==>
                r.value.sessions[i] == if s.sessions[i].id == sid then s.sessions[i].(name := name) else s.sessions[i])
    ensures r.Some? ==> forall l :: l in r.value.links <==>
              (l in s.links || (l.session == sid && l.txn in add)) && !(l.session == sid && l.txn in remove)
    ensures r.Some? ==> r.value.txns == s.txns && r.value.balance == s.balance
    ensures r.Some? ==> r.value == s.(sessions := r.value.sessions, links := r.value.links)
  {
    if !SessionOwned(s, u, sid) then None
    else if add != [] && !AllOwned(s, u, add) then None
    else
      var sessions := if name.Some? then Rename(s.sessions, sid, name) else s.sessions;
      var links := if add != [] then AddLinks(s.links, sid, add) else s.links;
      var links' := if remove != [] then RemoveLinks(links, sid, remove) else links;
      Some(s.(sessions := sessions, links := links'))
  }

  function Rename(sessions: seq<SessionRow>, sid: nat, name: Option<string>): (r: seq<SessionRow>)
    ensures |r| == |sessions|
    ensures forall i :: 0 <= i < |sessions| ==>
              r[i] == if sessions[i].id == sid then sessions[i].(name := name) else sessions[i]
  {
    seq(|sessions|, i requires 0 <= i < |sessions| =>
          if sessions[i].id == sid then sessions[i].(name := name) else sessions[i])
  }

  /** `deleteSession`: the session must be the caller's (None: thrown); its
      row goes and its links cascade. */
  function DeleteSession(s: Server, u: UserId, sid: nat): (r: Option<Server>)
    ensures r.None? <==> !SessionOwned(s, u, sid)
    ensures r.Some? ==> forall x :: x in r.value.sessions <==> x in s.sessions && x.id != sid
    ensures r.Some? ==> forall l :: l in r.value.links <==> l in s.links && l.session != sid
    ensures r.Some? ==> r.value == s.(sessions := r.value.sessions, links := r.value.links)
  {
    if !SessionOwned(s, u, sid) then None
    else Some(s.(sessions := Filter(s.sessions, (x: SessionRow) => x.id != sid),
                 links := Filter(s.links, (l: Link) => l.session != sid)))
  }

  // ---------------------------------------------------------------------
  // Totals

  /** The `reduce` over a session's transactions: per currency, the running
      sum of signed amounts (a missing or zero entry is first set to 0). */
  function Totals(txns: seq<Txn>): map<string, int> {
    if txns == [] then map[]
    else
      var acc := Totals(txns[..|txns| - 1]);
      var t := txns[|txns| - 1];
      var acc1 := if t.currency !in acc || acc[t.currency] == 0 then acc[t.currency := 0] else acc;
      acc1[t.currency := acc1[t.currency] + Signed(t.isIncome, t.cents)]
  }

  /** The signed sum of the transactions in currency `c`. */
  function CurrencySum(txns: seq<Txn>, c: string): int {
    if txns == [] then 0
    else (if txns[0].currency == c then Signed(txns[0].isIncome, txns[0].cents) else 0) + CurrencySum(txns[1..], c)
  }

  lemma {:induction false} CurrencySumSnoc(txns: seq<Txn>, t: Txn, c: string)
    ensures CurrencySum(txns + [t], c) == CurrencySum(txns, c) + (if t.currency == c then Signed(t.isIncome, t.cents) else 0)
  {
    if txns == [] {
      assert txns + [t] == [t];
    } else {
      assert (txns + [t])[1..] == txns[1..] + [t];
      CurrencySumSnoc(txns[1..], t, c);
    }
  }

  lemma {:induction false} CurrencySumAbsent(txns: seq<Txn>, c: string)
    requires forall i :: 0 <= i < |txns| ==> txns[i].currency != c
    ensures CurrencySum(txns, c) == 0
  {
    if txns != [] {
      CurrencySumAbsent(txns[1..], c);
    }
  }

  /** Each currency of the session has a total, and it is the sum of +amount
      for income and -amount for expenses in that currency. */
  lemma {:induction false} TotalsAreSums(txns: seq<Txn>)
    ensures forall c :: c in Totals(txns) <==> exists i | 0 <= i < |txns| :: txns[i].currency == c
    ensures forall c :: c in Totals(txns) ==> Totals(txns)[c] == CurrencySum(txns, c)
  {
    if txns != [] {
      var init := txns[..|txns| - 1];
      var t := txns[|txns| - 1];
      var acc := Totals(init);
      TotalsAreSums(init);
      assert txns == init + [t];
      forall c ensures CurrencySum(txns, c) == CurrencySum(init, c) + (if t.currency == c then Signed(t.isIncome, t.cents) else 0) {
        CurrencySumSnoc(init, t, c);
      }
      if t.currency !in acc {
        CurrencySumAbsent(init, t.currency);
      }
      forall c | c in Totals(txns) ensures exists i | 0 <= i < |txns| :: txns[i].currency == c {
        if c != t.currency {
          assert c in acc;
          var i :| 0 <= i < |init| && init[i].currency == c;
          assert txns[i] == init[i];
        }
      }
      forall c | exists i | 0 <= i < |txns| :: txns[i].currency == c ensures c in Totals(txns) {
        var i :| 0 <= i < |txns| && txns[i].currency == c;
        if i < |init| { assert init[i] == txns[i]; }
      }
    }
  }
}

=== FILE: sorting.dfy ===
/** `Array.prototype.sort` with a numeric comparator `(a, b) => key(a) - key(b)`.
    The language guarantees a stable sort, so the result is determined
    completely: it is ordered by key, it is a permutation of the input, and
    elements with equal keys keep their input order. */
module Sorting {

  predicate SortedBy<T>(xs: seq<T>, key: T -> int) {
    forall i, j :: 0 <= i < j < |xs| ==> key(xs[i]) <= key(xs[j])
  }

  /** The elements of `xs` whose key is `k`, in their order in `xs`. */
  function KeyClass<T>(xs: seq<T>, key: T -> int, k: int): seq<T> {
    if xs == [] then []
    else (if key(xs[0]) == k then [xs[0]] else []) + KeyClass(xs[1..], key, k)
  }

  lemma {:induction false} KeyClassAppend<T>(a: seq<T>, b: seq<T>, key: T -> int, k: int)
    ensures KeyClass(a + b, key, k) == KeyClass(a, key, k) + KeyClass(b, key, k)
  {
    if a == [] {
      assert a + b == b;
    } else {
      var ab := a + b;
      assert ab[0] == a[0] && ab[1..] == a[1..] + b;
      KeyClassAppend(a[1..], b, key, k);
      var h := if key(a[0]) == k then [a[0]] else [];
      assert KeyClass(ab, key, k) == h + KeyClass(a[1..] + b, key, k);
      assert KeyClass(a, key, k) == h + KeyClass(a[1..], key, k);
    }
  }

  lemma {:induction false} KeyClassEmpty<T>(xs: seq<T>, key: T -> int, k: int)
    requires forall i :: 0 <= i < |xs| ==> key(xs[i]) != k
    ensures KeyClass(xs, key, k) == []
  {
    if xs != [] {
      KeyClassEmpty(xs[1..], key, k);
    }
  }

  /** Places `x` after every element whose key is not greater than its own. */
  function Insert<T>(x: T, xs: seq<T>, key: T -> int): (r: seq<T>)
    requires SortedBy(xs, key)
    ensures |r| == |xs| + 1
    ensures SortedBy(r, key)
    ensures multiset(r) == multiset(xs) + multiset{x}
  {
    if xs == [] then [x]
    else if key(x) < key(xs[0]) then [x] + xs
    else
      var rest := Insert(x, xs[1..], key);
      LowerBound(rest, xs[1..], x, key, key(xs[0]));
      assert xs == [xs[0]] + xs[1..];
      [xs[0]] + rest
  }

  /** A bound below every element of `ys` and below `x` is below every
      element of a permutation of them. */
  lemma {:induction false} LowerBound<T>(r: seq<T>, ys: seq<T>, x: T, key: T -> int, lo: int)
    requires multiset(r) == multiset(ys) + multiset{x}
    requires lo <= key(x) && forall i :: 0 <= i < |ys| ==> lo <= key(ys[i])
    ensures forall i :: 0 <= i < |r| ==> lo <= key(r[i])
  {
    forall i | 0 <= i < |r| ensures lo <= key(r[i]) {
      assert r[i] in multiset(r);
      if r[i] != x {
        assert r[i] in multiset(ys);
        var j :| 0 <= j < |ys| && ys[j] == r[i];
      }
    }
  }

  lemma {:induction false} InsertKeyClass<T>(x: T, xs: seq<T>, key: T -> int, k: int)
    requires SortedBy(xs, key)
    ensures KeyClass(Insert(x, xs, key), key, k) ==
            KeyClass(xs, key, k) + (if key(x) == k then [x] else [])
  {
    if xs == [] {
      assert Insert(x, xs, key) == [x] + [];
      KeyClassAppend([x], [], key, k);
    } else if key(x) < key(xs[0]) {
      InsertFrontKeyClass(x, xs, key, k);
    } else {
      var rest := Insert(x, xs[1..], key);
      assert Insert(x, xs, key) == [xs[0]] + rest;
      InsertKeyClass(x, xs[1..], key, k);
      ConsKeyClass(xs[0], rest, key, k);
    }
  }

  lemma {:induction false} InsertFrontKeyClass<T>(x: T, xs: seq<T>, key: T -> int, k: int)
    requires SortedBy(xs, key) && xs != [] && key(x) < key(xs[0])
    ensures KeyClass([x] + xs, key, k) == KeyClass(xs, key, k) + (if key(x) == k then [x] else [])
  {
    if key(x) == k {
      KeyClassEmpty(xs, key, k);
    }
    KeyClassAppend([x], xs, key, k);
  }

  lemma {:induction false} ConsKeyClass<T>(y: T, rest: seq<T>, key: T -> int, k: int)
    ensures KeyClass([y] + rest, key, k) == (if key(y) == k then [y] else []) + KeyClass(rest, key, k)
  {
    assert ([y] + rest)[1..] == rest;
  }

  /** Stable ascending sort by `key`. */
  function SortBy<T>(xs: seq<T>, key: T -> int): (r: seq<T>)
    ensures |r| == |xs|
    ensures SortedBy(r, key)
    ensures multiset(r) == multiset(xs)
  {
    if xs == [] then []
    else
      var init := xs[..|xs| - 1];
      assert xs == init + [xs[|xs| - 1]];
      Insert(xs[|xs| - 1], SortBy(init, key), key)
  }

  /** Stability: sorting keeps the relative order of equal-key elements. */
  lemma {:induction false} SortByStable<T>(xs: seq<T>, key: T -> int, k: int)
    ensures KeyClass(SortBy(xs, key), key, k) == KeyClass(xs, key, k)
  {
    if xs != [] {
      var init := xs[..|xs| - 1];
      var x := xs[|xs| - 1];
      var sorted := SortBy(init, key);
      assert SortBy(xs, key) == Insert(x, sorted, key);
      SortByStable(init, key, k);
      InsertKeyClass(x, sorted, key, k);
      SnocKeyClass(xs, key, k);
    }
  }

  lemma {:induction false} SnocKeyClass<T>(xs: seq<T>, key: T -> int, k: int)
    requires xs != []
    ensures KeyClass(xs, key, k) ==
            KeyClass(xs[..|xs| - 1], key, k) + (if key(xs[|xs| - 1]) == k then [xs[|xs| - 1]] else [])
  {
    var x := xs[|xs| - 1];
    assert xs == xs[..|xs| - 1] + [x];
    KeyClassAppend(xs[..|xs| - 1], [x], key, k);
    assert [x][1..] == [];
  }
}

=== FILE: transaction_query.dfy ===
/** The local transaction listing: the filters applied one after another,
    the newest-first sort, and then either grouping by shopping session or a
    page of the sorted list. */
module TransactionQuery {
  import opened Base
  import opened Sorting

  datatype SessionRef = SessionRef(id: int, name: Option<string>)

  /** A stored transaction as the listing reads it; `createdAt` is the time in
      milliseconds. */
  datatype LocalTxn = LocalTxn(
    id: Key,
    description: string,
    tags: Option<seq<string>>,
    createdAt: int,
    session: Option<SessionRef>)

  /** The listing parameters after defaulting: page 1, 10 per page, an empty
      description and no tags unless given. An absent number is `None`; a
      present 0 is falsy and switches its filter off as well. */
  datatype Params = Params(
    page: int,
    perPage: int,
    description: string,
    tags: seq<string>,
    startDate: Option<int>,
    endDate: Option<int>,
    sessionId: Option<int>,
    groupBySession: bool)

  // ---------------------------------------------------------------------
  // The filters

  /** `if (params.startDate)`: present and non-zero. */
  predicate Given(n: Option<int>) {
    n.Some? && n.value != 0
  }

  predicate DescriptionMatches(p: Params, t: LocalTxn) {
    Contains(Lower(t.description), Lower(p.description))
  }

  /** The transaction has a tags array holding every requested tag. */
  predicate HasAllTags(p: Params, t: LocalTxn) {
    t.tags.Some? && forall tag :: tag in p.tags ==> tag in t.tags.value
  }

  predicate NotBefore(p: Params, t: LocalTxn)
    requires Given(p.startDate)
  {
    t.createdAt >= p.startDate.value
  }

  /** An upper bound applies unless it is absent, 0 or -1. */
  predicate EndActive(p: Params) {
    Given(p.endDate) && p.endDate.value != -1
  }

  predicate NotAfter(p: Params, t: LocalTxn)
    requires EndActive(p)
  {
    t.createdAt <= p.endDate.value
  }

  predicate InRequestedSession(p: Params, t: LocalTxn)
    requires Given(p.sessionId)
  {
    t.session.Some? && t.session.value.id == p.sessionId.value
  }

  datatype FilterKind = ByDescription | ByTags | ByStart | ByEnd | BySession

  /** Whether the filter's parameter is set. */
  predicate Active(f: FilterKind, p: Params) {
    match f
    case ByDescription => p.description != ""
    case ByTags => |p.tags| > 0
    case ByStart => Given(p.startDate)
    case ByEnd => EndActive(p)
    case BySession => Given(p.sessionId)
  }

  /** Whether an active filter keeps `t`. */
  predicate Keeps(f: FilterKind, p: Params, t: LocalTxn)
    requires Active(f, p)
  {
    match f
    case ByDescription => DescriptionMatches(p, t)
    case ByTags => HasAllTags(p, t)
    case ByStart => NotBefore(p, t)
    case ByEnd => NotAfter(p, t)
    case BySession => InRequestedSession(p, t)
  }

  predicate Passes(f: FilterKind, p: Params, t: LocalTxn) {
    !Active(f, p) || Keeps(f, p, t)
  }

  /** One stage of the pipeline: the filter when its parameter is set,
      otherwise the list unchanged. */
  function Stage(xs: seq<LocalTxn>, f: FilterKind, p: Params): seq<LocalTxn> {
    if Active(f, p) then Filter(xs, Keeper(f, p)) else xs
  }

  function Keeper(f: FilterKind, p: Params): LocalTxn -> bool {
    t => Passes(f, p, t)
  }

  /** The filters in the order the listing applies them. */
  function ApplyFilters(xs: seq<LocalTxn>, p: Params): seq<LocalTxn> {
    Stage(Stage(Stage(Stage(Stage(xs, ByDescription, p), ByTags, p), ByStart, p), ByEnd, p), BySession, p)
  }

  /** The reference condition: a transaction is listed exactly when it passes
      every filter whose parameter is set. */
  predicate Matches(p: Params, t: LocalTxn) {
    (p.description == "" || DescriptionMatches(p, t)) &&
    (|p.tags| == 0 || HasAllTags(p, t)) &&
    (!Given(p.startDate) || NotBefore(p, t)) &&
    (!EndActive(p) || NotAfter(p, t)) &&
    (!Given(p.sessionId) || InRequestedSession(p, t))
  }

  /** The matching transactions, in input order. */
  function Matching(xs: seq<LocalTxn>, p: Params): (r: seq<LocalTxn>)
    ensures forall t :: t in r <==> t in xs && Matches(p, t)
  {
    if xs == [] then []
    else (if Matches(p, xs[0]) then [xs[0]] else []) + Matching(xs[1..], p)
  }

  /** A stage looks at the head of its input on its own. */
  lemma {:induction false} StageHead(h: seq<LocalTxn>, rest: seq<LocalTxn>, f: FilterKind, p: Params)
    requires |h| <= 1
    ensures Stage(h + rest, f, p) == (if h != [] && Passes(f, p, h[0]) then h else []) + Stage(rest, f, p)
  {
    if h == [] {
      assert h + rest == rest;
    } else if Active(f, p) {
      FilterAppend(h, rest, Keeper(f, p));
      assert h == [h[0]] && h[1..] == [];
    }
  }

  lemma {:induction false} ApplyFiltersCons(x: LocalTxn, rest: seq<LocalTxn>, p: Params)
    ensures ApplyFilters([x] + rest, p) == (if Matches(p, x) then [x] else []) + ApplyFilters(rest, p)
  {
    var s1 := Stage(rest, ByDescription, p);
    var s2 := Stage(s1, ByTags, p);
    var s3 := Stage(s2, ByStart, p);
    var s4 := Stage(s3, ByEnd, p);
    StageHead([x], rest, ByDescription, p);
    var h1 := if Passes(ByDescription, p, x) then [x] else [];
    StageHead(h1, s1, ByTags, p);
    var h2 := if h1 != [] && Passes(ByTags, p, x) then [x] else [];
    StageHead(h2, s2, ByStart, p);
    var h3 := if h2 != [] && Passes(ByStart, p, x) then [x] else [];
    StageHead(h3, s3, ByEnd, p);
    var h4 := if h3 != [] && Passes(ByEnd, p, x) then [x] else [];
    StageHead(h4, s4, BySession, p);
  }

  /** Applying the filters one after another keeps exactly the matching
      transactions, in their input order. */
  lemma {:induction false} ApplyFiltersIsMatching(xs: seq<LocalTxn>, p: Params)
    ensures ApplyFilters(xs, p) == Matching(xs, p)
  {
    if xs != [] {
      assert xs == [xs[0]] + xs[1..];
      ApplyFiltersCons(xs[0], xs[1..], p);
      ApplyFiltersIsMatching(xs[1..], p);
    }
  }

  // ---------------------------------------------------------------------
  // Sorting

  /** The sort key of `(a, b) => b.createdAt - a.createdAt`: newest first. */
  function NewestFirst(t: LocalTxn): int {
    -t.createdAt
  }

  // ---------------------------------------------------------------------
  // Grouping by session

  datatype Group = Group(id: int, name: Option<string>, txns: seq<LocalTxn>)

  predicate InSession(t: LocalTxn, id: int) {
    t.session.Some? && t.session.value.id == id
  }

  /** `sessionGroups.find(g => g.id === id)`, as a position. */
  function GroupIndex(groups: seq<Group>, id: int): (r: Option<nat>)
    ensures r.Some? ==> r.value < |groups| && groups[r.value].id == id
    ensures r.None? <==> forall i :: 0 <= i < |groups| ==> groups[i].id != id
  {
    if groups == [] then None
    else if groups[0].id == id then Some(0)
    else match GroupIndex(groups[1..], id)
      case None => None
      case Some(i) => Some(i + 1)
  }

  /** One step of the grouping loop: a transaction without a session goes to
      the ungrouped list; otherwise it joins its session's group, which is
      opened (named after this transaction's session) if it is new. */
  function Place(groups: seq<Group>, ungrouped: seq<LocalTxn>, t: LocalTxn): (seq<Group>, seq<LocalTxn>) {
    match t.session
    case None => (groups, ungrouped + [t])
    case Some(s) =>
      match GroupIndex(groups, s.id)
      case None => (groups + [Group(s.id, s.name, [t])], ungrouped)
      case Some(i) => (groups[i := groups[i].(txns := groups[i].txns + [t])], ungrouped)
  }

  /** The grouping loop over `xs`, in order. */
  function GroupBySession(xs: seq<LocalTxn>): (seq<Group>, seq<LocalTxn>) {
    if xs == [] then ([], [])
    else
      var acc := GroupBySession(xs[..|xs| - 1]);
      Place(acc.0, acc.1, xs[|xs| - 1])
  }

  /** The transactions of session `id`, in order. */
  function SessionMembers(xs: seq<LocalTxn>, id: int): seq<LocalTxn> {
    if xs == [] then []
    else SessionMembers(xs[..|xs| - 1], id) + (if InSession(xs[|xs| - 1], id) then [xs[|xs| - 1]] else [])
  }

  /** The transactions without a session, in order. */
  function Unsessioned(xs: seq<LocalTxn>): seq<LocalTxn> {
    if xs == [] then []
    else Unsessioned(xs[..|xs| - 1]) + (if xs[|xs| - 1].session.None? then [xs[|xs| - 1]] else [])
  }

  /** The position of the first transaction of session `id`, or `|xs|`. */
  function FirstOfSession(xs: seq<LocalTxn>, id: int): (r: nat)
    ensures r <= |xs|
    ensures forall k :: 0 <= k < r ==> !InSession(xs[k], id)
    ensures r < |xs| ==> InSession(xs[r], id)
  {
    if xs == [] then 0
    else
      var init := xs[..|xs| - 1];
      var f := FirstOfSession(init, id);
      assert forall k :: 0 <= k < |init| ==> init[k] == xs[k];
      if f < |init| then f
      else if InSession(xs[|xs| - 1], id) then |init|
      else |xs|
  }

  /** What the grouping loop keeps: each group holds exactly its session's
      transactions in order and is named after the first of them, the groups
      are distinct and ordered by first appearance, every session seen has a
      group, and the ungrouped list holds exactly the transactions without a
      session. */
  ghost predicate GroupsFaithful(xs: seq<LocalTxn>, groups: seq<Group>, ungrouped: seq<LocalTxn>) {
    ungrouped == Unsessioned(xs) &&
    GroupsHoldMembers(xs, groups) &&
    GroupsDistinct(groups) &&
    GroupsInFirstOrder(xs, groups) &&
    GroupsCover(xs, groups)
  }

  ghost predicate GroupsHoldMembers(xs: seq<LocalTxn>, groups: seq<Group>) {
    forall i :: 0 <= i < |groups| ==>
      groups[i].txns == SessionMembers(xs, groups[i].id) && groups[i].txns != [] &&
      groups[i].txns[0].session == Some(SessionRef(groups[i].id, groups[i].name))
  }

  ghost predicate GroupsInFirstOrder(xs: seq<LocalTxn>, groups: seq<Group>) {
    (forall i :: 0 <= i < |groups| ==> FirstOfSession(xs, groups[i].id) < |xs|) &&
    (forall i, j :: 0 <= i < j < |groups| ==>
       FirstOfSession(xs, groups[i].id) < FirstOfSession(xs, groups[j].id))
  }

  ghost predicate GroupsCover(xs: seq<LocalTxn>, groups: seq<Group>) {
    forall k :: 0 <= k < |xs| && xs[k].session.Some? ==> GroupIndex(groups, xs[k].session.value.id).Some?
  }

  /** A session with no group has no transactions yet. */
  lemma {:induction false} NoMembersWithoutGroup(xs: seq<LocalTxn>, groups: seq<Group>, id: int)
    requires GroupsCover(xs, groups)
    requires GroupIndex(groups, id).None?
    ensures SessionMembers(xs, id) == []
    ensures FirstOfSession(xs, id) == |xs|
  {
    if xs != [] {
      var init := xs[..|xs| - 1];
      assert forall k :: 0 <= k < |init| ==> init[k] == xs[k];
      NoMembersWithoutGroup(init, groups, id);
      assert !InSession(xs[|xs| - 1], id) by {
        if xs[|xs| - 1].session.Some? {
          assert GroupIndex(groups, xs[|xs| - 1].session.value.id).Some?;
        }
      }
    }
  }

  lemma {:induction false} PlaceMembers(xs: seq<LocalTxn>, groups: seq<Group>, ungrouped: seq<LocalTxn>)
    requires xs != []
    requires GroupsHoldMembers(xs[..|xs| - 1], groups) && GroupsCover(xs[..|xs| - 1], groups)
    requires GroupsDistinct(groups)
    ensures GroupsHoldMembers(xs, Place(groups, ungrouped, xs[|xs| - 1]).0)
  {
    var init, t := xs[..|xs| - 1], xs[|xs| - 1];
    var gs' := Place(groups, ungrouped, t).0;
    forall i | 0 <= i < |gs'|
      ensures gs'[i].txns == SessionMembers(xs, gs'[i].id) && gs'[i].txns != [] &&
              gs'[i].txns[0].session == Some(SessionRef(gs'[i].id, gs'[i].name))
    {
      var id := gs'[i].id;
      assert SessionMembers(xs, id) == SessionMembers(init, id) + (if InSession(t, id) then [t] else []);
      match t.session
      case None =>
      case Some(s) =>
        match GroupIndex(groups, s.id)
        case None =>
          if i == |groups| {
            NoMembersWithoutGroup(init, groups, s.id);
          } else {
            assert gs'[i] == groups[i];
          }
        case Some(i0) =>
          if i == i0 {
            assert gs'[i].txns == groups[i].txns + [t];
          } else {
            assert gs'[i] == groups[i];
          }
    }
  }

  ghost predicate GroupsDistinct(groups: seq<Group>) {
    forall i, j :: 0 <= i < j < |groups| ==> groups[i].id != groups[j].id
  }

  lemma {:induction false} PlaceDistinct(groups: seq<Group>, ungrouped: seq<LocalTxn>, t: LocalTxn)
    requires GroupsDistinct(groups)
    ensures GroupsDistinct(Place(groups, ungrouped, t).0)
  {
  }

  lemma {:induction false} PlaceOrder(xs: seq<LocalTxn>, groups: seq<Group>, ungrouped: seq<LocalTxn>)
    requires xs != []
    requires GroupsInFirstOrder(xs[..|xs| - 1], groups) && GroupsCover(xs[..|xs| - 1], groups)
    ensures GroupsInFirstOrder(xs, Place(groups, ungrouped, xs[|xs| - 1]).0)
  {
    var init, t := xs[..|xs| - 1], xs[|xs| - 1];
    var gs' := Place(groups, ungrouped, t).0;
    PlaceKeepsIds(groups, ungrouped, t);
    PlaceKeepsFirsts(xs, groups, ungrouped);
    if |gs'| == |groups| + 1 {
      NoMembersWithoutGroup(init, groups, t.session.value.id);
      assert FirstOfSession(xs, gs'[|groups|].id) == |init|;
    }
    forall i, j | 0 <= i < j < |gs'|
      ensures FirstOfSession(xs, gs'[i].id) < FirstOfSession(xs, gs'[j].id)
    {
      if j < |groups| {
        assert FirstOfSession(init, groups[i].id) < FirstOfSession(init, groups[j].id);
      } else {
        assert FirstOfSession(init, groups[i].id) < |init|;
      }
    }
  }

  /** The groups that existed before the last transaction keep their first
      positions. */
  lemma {:induction false} PlaceKeepsFirsts(xs: seq<LocalTxn>, groups: seq<Group>, ungrouped: seq<LocalTxn>)
    requires xs != []
    requires GroupsInFirstOrder(xs[..|xs| - 1], groups)
    ensures var gs' := Place(groups, ungrouped, xs[|xs| - 1]).0;
      forall i :: 0 <= i < |groups| ==>
        i < |gs'| && FirstOfSession(xs, gs'[i].id) == FirstOfSession(xs[..|xs| - 1], groups[i].id)
  {
    var gs' := Place(groups, ungrouped, xs[|xs| - 1]).0;
    PlaceKeepsIds(groups, ungrouped, xs[|xs| - 1]);
    forall i | 0 <= i < |groups|
      ensures FirstOfSession(xs, gs'[i].id) == FirstOfSession(xs[..|xs| - 1], groups[i].id)
    {
      FirstOfSessionSnoc(xs, groups[i].id);
    }
  }

  /** `Place` keeps every existing group's id in place and appends at most
      one new group, for the transaction's session when it had none. */
  lemma {:induction false} PlaceKeepsIds(groups: seq<Group>, ungrouped: seq<LocalTxn>, t: LocalTxn)
    ensures var gs' := Place(groups, ungrouped, t).0;
      |groups| <= |gs'| <= |groups| + 1 &&
      (forall i :: 0 <= i < |groups| ==> gs'[i].id == groups[i].id) &&
      (|gs'| == |groups| + 1 ==>
         t.session.Some? && gs'[|groups|].id == t.session.value.id && GroupIndex(groups, t.session.value.id).None?)
  {
  }

  /** A session that already occurs before the last transaction keeps its
      first position when the last transaction is added. */
  lemma {:induction false} FirstOfSessionSnoc(xs: seq<LocalTxn>, id: int)
    requires xs != [] && FirstOfSession(xs[..|xs| - 1], id) < |xs| - 1
    ensures FirstOfSession(xs, id) == FirstOfSession(xs[..|xs| - 1], id)
  {
  }

  lemma {:induction false} PlaceCovers(xs: seq<LocalTxn>, groups: seq<Group>, ungrouped: seq<LocalTxn>)
    requires xs != []
    requires GroupsCover(xs[..|xs| - 1], groups)
    ensures GroupsCover(xs, Place(groups, ungrouped, xs[|xs| - 1]).0)
  {
    var init, t := xs[..|xs| - 1], xs[|xs| - 1];
    var gs' := Place(groups, ungrouped, t).0;
    assert forall i :: 0 <= i < |groups| ==> i < |gs'| && gs'[i].id == groups[i].id;
    forall k | 0 <= k < |xs| && xs[k].session.Some?
      ensures GroupIndex(gs', xs[k].session.value.id).Some?
    {
      if k < |init| {
        assert xs[k] == init[k];
        var i := GroupIndex(groups, xs[k].session.value.id).value;
        assert gs'[i].id == xs[k].session.value.id;
      } else {
        match GroupIndex(groups, t.session.value.id)
        case None => assert gs'[|groups|].id == t.session.value.id;
        case Some(i) => assert gs'[i].id == t.session.value.id;
      }
    }
  }

  lemma {:induction false} GroupBySessionFaithful(xs: seq<LocalTxn>)
    ensures var (groups, ungrouped) := GroupBySession(xs);
      GroupsFaithful(xs, groups, ungrouped)
  {
    if xs != [] {
      var init := xs[..|xs| - 1];
      GroupBySessionFaithful(init);
      var (gs, un) := GroupBySession(init);
      PlaceMembers(xs, gs, un);
      PlaceDistinct(gs, un, xs[|xs| - 1]);
      PlaceOrder(xs, gs, un);
      PlaceCovers(xs, gs, un);
    }
  }

  // ---------------------------------------------------------------------
  // Paging

  /** A page starting at a non-negative offset holds at most `perPage` items,
      the ones at consecutive positions from the offset. */
  lemma {:induction false} PageContents<T>(xs: seq<T>, start: int, perPage: int)
    requires 0 <= start && 0 <= perPage
    ensures var r := JsSlice(xs, start, start + perPage);
      |r| <= perPage &&
      (start < |xs| ==> |r| == (if start + perPage <= |xs| then perPage else |xs| - start)) &&
      (forall j :: 0 <= j < |r| ==> r[j] == xs[start + j])
  {
  }

  /** Consecutive pages tile the list: page n followed by page n + 1 is the
      double-length slice from page n's offset. */
  lemma {:induction false} ConsecutivePages<T>(xs: seq<T>, start: int, perPage: int)
    requires 0 <= start && 0 <= perPage
    ensures JsSlice(xs, start, start + perPage) + JsSlice(xs, start + perPage, start + 2 * perPage) ==
            JsSlice(xs, start, start + 2 * perPage)
  {
    var c := (n: int) => if n <= |xs| then n else |xs|;
    assert xs[c(start)..c(start + 2 * perPage)] ==
           xs[c(start)..c(start + perPage)] + xs[c(start + perPage)..c(start + 2 * perPage)];
  }

  // ---------------------------------------------------------------------
  // The listing

  datatype Listing =
    | Paged(items: seq<LocalTxn>)
    | Grouped(groups: seq<Group>, ungrouped: seq<LocalTxn>)

  /** The offset of the requested page: `(page - 1) * perPage`. */
  function PageStart(p: Params): int {
    (p.page - 1) * p.perPage
  }

  /** `filterTransactions(transactions, params)`. */

  function FilterTransactions(xs: seq<LocalTxn>, p: Params): (r: Listing)
    ensures r.Grouped? <==> p.groupBySession
    ensures r.Paged? ==> SortedBy(r.items, NewestFirst)
    ensures r.Paged? ==> forall t :: t in r.items ==> t in xs && Matches(p, t)
    ensures r.Grouped? ==> forall t :: t in r.ungrouped ==> t in xs && Matches(p, t) && t.session.None?
  {
    var sorted := SortBy(ApplyFilters(xs, p), NewestFirst);
    ListedMatch(xs, p);
    if p.groupBySession then
      var grouping := GroupBySession(sorted);
      UngroupedIsUnsessioned(sorted);
      UnsessionedIn(sorted);
      Grouped(grouping.0, grouping.1)
    else
      var start := PageStart(p);
      SliceOfSorted(sorted, start, start + p.perPage);
      Paged(JsSlice(sorted, start, start + p.perPage))
  }

  lemma {:induction false} ListedMatch(xs: seq<LocalTxn>, p: Params)
    ensures forall t :: t in SortBy(ApplyFilters(xs, p), NewestFirst) ==> t in xs && Matches(p, t)
  {
    ApplyFiltersIsMatching(xs, p);
    var m := Matching(xs, p);
    forall t | t in SortBy(m, NewestFirst) ensures t in m {
      assert t in multiset(SortBy(m, NewestFirst));
    }
  }

  lemma {:induction false} UngroupedIsUnsessioned(xs: seq<LocalTxn>)
    ensures GroupBySession(xs).1 == Unsessioned(xs)
  {
    if xs != [] {
      UngroupedIsUnsessioned(xs[..|xs| - 1]);
    }
  }

  lemma {:induction false} UnsessionedIn(xs: seq<LocalTxn>)
    ensures forall t :: t in Unsessioned(xs) ==> t in xs && t.session.None?
  {
    if xs != [] {
      UnsessionedIn(xs[..|xs| - 1]);
      assert forall t :: t in xs[..|xs| - 1] ==> t in xs;
    }
  }

  /** A slice of a newest-first list is newest first and draws on the list. */
  lemma {:induction false} SliceOfSorted(xs: seq<LocalTxn>, start: int, end: int)
    requires SortedBy(xs, NewestFirst)
    ensures SortedBy(JsSlice(xs, start, end), NewestFirst)
    ensures forall t :: t in JsSlice(xs, start, end) ==> t in xs
  {
    var r := JsSlice(xs, start, end);
    forall t | t in r ensures t in xs {
      var j :| 0 <= j < |r| && r[j] == t;
    }
  }

  /** Without grouping, the listing is the page's slice of the matching
      transactions sorted newest first. */
  lemma {:induction false} FilterTransactionsPage(xs: seq<LocalTxn>, p: Params)
    requires !p.groupBySession
    ensures var start := PageStart(p);
      FilterTransactions(xs, p).items == JsSlice(SortBy(Matching(xs, p), NewestFirst), start, start + p.perPage)
  {
    var start := PageStart(p);
    var filtered := SortBy(ApplyFilters(xs, p), NewestFirst);
    assert filtered == SortBy(Matching(xs, p), NewestFirst) by {
      ApplyFiltersIsMatching(xs, p);
    }
    assert FilterTransactions(xs, p).items == JsSlice(filtered, start, start + p.perPage);
  }

  /** With grouping, nothing is paged away: the sorted matching
      transactions are split faithfully into session groups and the
      ungrouped rest. */
  lemma {:induction false} FilterTransactionsGroups(xs: seq<LocalTxn>, p: Params)
    requires p.groupBySession
    ensures var r := FilterTransactions(xs, p);
      GroupsFaithful(SortBy(Matching(xs, p), NewestFirst), r.groups, r.ungrouped)
  {
    ApplyFiltersIsMatching(xs, p);
    var sorted := SortBy(Matching(xs, p), NewestFirst);
    GroupBySessionFaithful(sorted);
    assert FilterTransactions(xs, p) == Grouped(GroupBySession(sorted).0, GroupBySession(sorted).1);
  }

  /** Transactions created at the same time keep their relative order. */
  lemma {:induction false} SortKeepsTies(xs: seq<LocalTxn>, p: Params, k: int)
    ensures KeyClass(SortBy(Matching(xs, p), NewestFirst), NewestFirst, k) == KeyClass(Matching(xs, p), NewestFirst, k)
  {
    SortByStable(Matching(xs, p), NewestFirst, k);
  }
}
